=== FILE: README.md ===
# ipfs-visualizer — a Dafny model of the deployment core

The ipfs-visualizer backend stores user-drawn IPFS network topologies and IPFS clusters.
It turns them into Kubernetes objects. This project models the part of the backend that
does that translation and the calls it makes against a Kubernetes control plane:

- **Topology deployment** (`TopologyDeploy`). This covers:
  - the six objects one topology becomes: the scripts ConfigMap, the env ConfigMap, the
    cluster Secret, a headless Service, an external LoadBalancer Service and a StatefulSet;
  - the derived service name `ipfs-` plus twelve dash-free characters of the topology id;
  - the entrypoint script's bootstrap rule;
  - the create-and-tolerate-"already exists" sequence;
  - best-effort teardown;
  - the pod status report.
- **Topology service** (`TopologyService`). This covers:
  - creating topologies in a store;
  - choosing the bootstrap node (the first tagged node, else the first sink, else the only node);
  - deploy and undeploy, with the status writes `none`, `deploying`, `running` and `error`;
  - the deploy status query.
- **Cluster resources** (`KubeClusters`). This covers:
  - the five creates of an IPFS cluster, which stop at the first error;
  - the two key generators that run first;
  - the containers, probes and persistent-volume claims;
  - the five-step deletion.
- **Node scaling** (`KubeNodes`). This covers:
  - adding a node: read the StatefulSet, add one replica, apply the node's env and ports to
    every container, then update;
  - removing a node: one replica fewer, with 0 left alone.
- **Converters** (`ClusterConvert`, `NodeConvert`) between the SQL rows, the API specs and
  the Kubernetes resource records, including `removeByValue`.

The Kubernetes control plane is a class `KubeCluster.Cluster`. It holds:

- a map from (kind, namespace, name) keys to stored objects;
- a fixed map of calls it refuses, with their error text;
- the trace of calls made so far.

Create, Get, Update, Delete and List follow these rules of the API server, and no others:

- an existing name gives "already exists";
- an empty name is refused;
- a namespace mismatch is refused;
- negative replicas are refused;
- a missing replica count defaults to 1.

Key and secret generators, uuids and JSON encoders are parameters of the operations that use them.

## Model

| member | source | states |
|---|---|---|
| `Common.StripDashes` | internal/kube/topology/deploy.go:52 | removing dashes never lengthens the id and leaves no dash behind |
| `Common.StripDashesAppend` | internal/kube/topology/deploy.go:52 | dash removal distributes over concatenation, so the parts of a uuid can be stripped one at a time |
| `Common.StripDashesNoDash` | internal/kube/topology/deploy.go:52 | an id with no dash is left unchanged |
| `Common.ToInt32` | internal/kube/nodes.go:71-74 | the Go `int32(...)` conversion: the result is in 32-bit range, congruent to the input modulo 2^32, and equal to the input when the input already fits |
| `Common.OptionalText` | internal/services/nodes/utils.go:83-97 | an optional SQL column is NULL exactly when the text is empty, and otherwise holds the text |
| `Common.TextOf` | internal/services/nodes/utils.go:35-57 | a NULL column reads back as the empty string, and a present one as its value |
| `Common.TextRoundTrip` | internal/services/nodes/utils.go:35-97 | writing a text to an optional column and reading it back gives the text |
| `Common.OptionalRoundTrip` | internal/services/nodes/utils.go:35-97 | reading an optional column and writing it back gives the column exactly when it does not hold an empty string |
| `KubeCluster.AfterDelete` | internal/kube/topology/deploy.go:324-329 | a delete removes its key unless the call is refused, and leaves every other object as it was |
| `KubeCluster.DeleteAll` | internal/kube/topology/deploy.go:324-329 | after a series of deletes, a key survives exactly when it was stored and either was not deleted or its delete was refused; survivors are unchanged |
| `KubeCluster.Cluster.constructor` | internal/kube/topology/deploy.go:42 | a control plane starts with the given objects and refusals and an empty call trace |
| `KubeCluster.Cluster.Create` | internal/kube/topology/deploy.go:57-68 | a create stores the object under its request key or reports the API server's error, and records the call |
| `KubeCluster.Cluster.Get` | internal/kube/nodes.go:20-25 | a get returns the stored object for the key, already defaulted, or the error, and changes no object |
| `KubeCluster.Cluster.Update` | internal/kube/nodes.go:32-38 | an update replaces an existing object that passes validation, or reports why not, and records the call |
| `KubeCluster.Cluster.Delete` | internal/kube/clusters.go:285-299 | a delete removes the key unless it is missing or refused, and reports which |
| `KubeCluster.Cluster.List` | internal/kube/topology/deploy.go:342-347 | a list by kind, namespace and label selector enumerates exactly the matching stored objects, or returns the refusal |
| `KubeCluster.DeleteIgnoringErrors` | internal/kube/topology/deploy.go:324-329 | deleting a list of keys while discarding every error leaves the store as `DeleteAll` says, and issues one delete call per key in order |
| `TopologyDeploy.ServiceName` | internal/kube/topology/deploy.go:52 | the service name is `ipfs-` followed by twelve dash-free characters |
| `TopologyDeploy.ServiceNameOfUuid` | internal/kube/topology/deploy.go:52 | for a uuid-shaped id the name is `ipfs-` plus its first eight and next four hex characters |
| `TopologyDeploy.EntrypointScriptShape` | internal/kube/topology/deploy.go:278-297 | the entrypoint script greps the hostname for `<svc>-0`, points the bootstrap address at pod 0 and passes it with `--bootstrap` |
| `TopologyDeploy.EntrypointMode` | internal/kube/topology/deploy.go:288-295 | the start mode the entrypoint script picks from a pod's hostname: bootstrap for the hostname holding `<svc>-0`, otherwise join the bootstrap address; `OnlyFirstPodBootstraps` and `BootstrapAddrNamesFirstPod` state its behaviour |
| `TopologyDeploy.OnlyFirstPodBootstraps` | internal/kube/topology/deploy.go:288-295 | a pod starts as the bootstrap peer exactly when its ordinal is 0; every other pod joins |
| `TopologyDeploy.BootstrapAddrNamesFirstPod` | internal/kube/topology/deploy.go:289-291 | the bootstrap multiaddress names pod 0 of the headless service on port 9096 with the generated peer id |
| `TopologyDeploy.ScriptsConfigMap` | internal/kube/topology/deploy.go:57-68 | the scripts ConfigMap is named `<svc>-scripts` and the API server admits it |
| `TopologyDeploy.EnvConfigMap` | internal/kube/topology/deploy.go:70-80 | the env ConfigMap is named `<svc>-env` and is admitted |
| `TopologyDeploy.ClusterSecrets` | internal/kube/topology/deploy.go:82-94 | the Secret is named `<svc>-secrets` and is admitted |
| `TopologyDeploy.HeadlessService` | internal/kube/topology/deploy.go:96-117 | the headless Service is named after the topology and is admitted when that name is not empty |
| `TopologyDeploy.ExternalService` | internal/kube/topology/deploy.go:119-140 | the external Service is named `<svc>-external` and is admitted |
| `TopologyDeploy.BuildStatefulSet` | internal/kube/topology/deploy.go:157-274 | the StatefulSet is named after the topology and is admitted for a non-empty name and non-negative replicas |
| `TopologyDeploy.ReplicaCount` | internal/kube/topology/deploy.go:142-145 | the replica count is at least 1 and at most the int32 limit: it equals the node count when that fits and is 1 for an empty topology |
| `TopologyDeploy.Plan` | internal/kube/topology/deploy.go:57-152 | the deployment creates exactly six objects, one per step |
| `TopologyDeploy.PlanAdmissible` | internal/kube/topology/deploy.go:57-152 | for a non-empty service name every planned object passes API validation |
| `TopologyDeploy.PlanKeysDistinct` | internal/kube/topology/deploy.go:57-152 | no two planned objects address the same key |
| `TopologyDeploy.PlanCoversKeys` | internal/kube/topology/deploy.go:57-152 | the planned objects address exactly the six keys derived from the service name |
| `TopologyDeploy.StatefulSetReferences` | internal/kube/topology/deploy.go:201-243 | every env reference of the pod template names the env ConfigMap or the Secret, both are referenced, and the only volume is the scripts ConfigMap |
| `TopologyDeploy.StatefulSetReferencesResolve` | internal/kube/topology/deploy.go:57-243 | every env source and every volume of the StatefulSet resolves to an object created earlier in the same plan |
| `TopologyDeploy.StatefulSetMountsBacked` | internal/kube/topology/deploy.go:180-271 | every volume mount is backed by a pod volume or by a claim template |
| `TopologyDeploy.SelectorsAgree` | internal/kube/topology/deploy.go:96-167 | the StatefulSet selector, its pod labels and both Services select `app=<svc>`, and the StatefulSet is governed by the headless Service |
| `TopologyDeploy.ServicePortsAgree` | internal/kube/topology/deploy.go:101-133 | the headless and external Services expose the same eight named ports, each matched in both directions |
| `TopologyDeploy.ServicePortNumbers` | internal/kube/topology/deploy.go:101-133 | the headless port numbers are distinct, and every external port targets its own number |
| `TopologyDeploy.ServiceShapes` | internal/kube/topology/deploy.go:96-140 | the headless Service has no cluster IP, the external one is a LoadBalancer, and both select the same pods |
| `TopologyDeploy.ExternalTargetsListen` | internal/kube/topology/deploy.go:124-133 | every external port is a port some container of the pod template listens on |
| `TopologyDeploy.Tolerated` | internal/kube/topology/deploy.go:64-67 | a create error is ignored exactly when it says the object already exists |
| `TopologyDeploy.CreateFrom` | internal/kube/topology/deploy.go:57-152 | the creates stop at the first error that is not "already exists"; without such an error all steps run, and objects that were already stored are never changed |
| `TopologyDeploy.CreateTolerating` | internal/kube/topology/deploy.go:147-152 | one create step tolerating "already exists" advances the specification `CreateFrom` by one step |
| `TopologyDeploy.ApplyPlan` | internal/kube/topology/deploy.go:57-152 | running the six creates in order leaves the store, the error and the call trace that `CreateFrom` predicts |
| `TopologyDeploy.Deploy` | internal/kube/topology/deploy.go:42-155 | a key-generation failure stops before any call; otherwise the plan is applied, with the outcome `DeployOutcome` specifies |
| `TopologyDeploy.CreateFromFootprint` | internal/kube/topology/deploy.go:57-152 | creates only add keys the attempted steps address, and a successful run stores every planned key |
| `TopologyDeploy.CreateFromSuccessAccepted` | internal/kube/topology/deploy.go:57-152 | when the run succeeds, every planned object passed validation and no create was refused |
| `TopologyDeploy.CreateFromAllPresent` | internal/kube/topology/deploy.go:64-67 | when every object already exists, the run succeeds and changes nothing |
| `TopologyDeploy.CreateFromAllAbsent` | internal/kube/topology/deploy.go:57-152 | admissible, absent, distinct and unrefused objects are all created without error |
| `TopologyDeploy.DeployPlan` | internal/kube/topology/deploy.go:52-152 | the six objects a topology's deploy creates, under its service name and with its replica count; `DeployAddresses`, `PlanAdmissible` and `PlanKeysDistinct` state their keys and admission |
| `TopologyDeploy.DeployOutcome` | internal/kube/topology/deploy.go:42-155 | the error, store and calls of a deploy: a key or secret generation failure before any call, otherwise the creates of the plan; `DeployFootprint`, `RedeployChangesNothing` and `DeployThenUndeployRestores` state its properties, and `Deploy` is proved to reach it |
| `TopologyDeploy.DeployAddresses` | internal/kube/topology/deploy.go:52-152 | a topology's plan addresses exactly its six keys, each is admitted, and no two collide |
| `TopologyDeploy.DeployFootprint` | internal/kube/topology/deploy.go:42-155 | a deploy touches only the topology's six keys, never alters an existing object, and after success all six exist |
| `TopologyDeploy.RedeployChangesNothing` | internal/kube/topology/deploy.go:57-152 | deploying the same topology again after a success succeeds and leaves the store unchanged, even with new keys |
| `TopologyDeploy.TeardownMatchesPlan` | internal/kube/topology/deploy.go:321-331 | undeploy deletes exactly the six keys deploy creates |
| `TopologyDeploy.Undeploy` | internal/kube/topology/deploy.go:321-331 | undeploy issues the six deletes in order, ignores every error, and always reports success |
| `TopologyDeploy.CreateThenDeleteRestores` | internal/kube/topology/deploy.go:57-331 | creating absent objects and then deleting exactly their keys gives back the original store |
| `TopologyDeploy.KeyedPlanRestores` | internal/kube/topology/deploy.go:57-331 | when the delete list names exactly the plan's footprint, create-then-delete restores the store |
| `TopologyDeploy.DeployThenUndeployRestores` | internal/kube/topology/deploy.go:42-331 | on a store free of the topology's keys, deploy succeeds and undeploy then restores the store exactly |
| `TopologyDeploy.UndeployRemovesPlanKeys` | internal/kube/topology/deploy.go:321-331 | undeploy removes every key of the topology and keeps every other object unchanged |
| `TopologyDeploy.IsReady` | internal/kube/topology/deploy.go:350-356 | a pod is ready exactly when one of its conditions is `Ready` with status `True` |
| `TopologyDeploy.StatusOf` | internal/kube/topology/deploy.go:357-362 | one pod's report: its pod-name label as node id (empty when missing), its name, phase and readiness; `GetPodsStatus` reports it for every listed pod |
| `TopologyDeploy.GetPodsStatus` | internal/kube/topology/deploy.go:340-365 | the report lists the pods labelled `app=<svc>` in the namespace, one entry per pod, with name, the pod-name label as node id (empty when missing), phase and readiness, or returns the list error |
| `TopologyDeploy.ReportsCoverTopologyPods` | internal/kube/topology/deploy.go:340-365 | every reported pod belongs to the topology, every such pod is reported, and no pod is reported twice |
| `TopologyService.FirstTagged` | internal/services/topology/service.go:228-232 | the scan finds the first node whose role is `bootstrap`, skipping only untagged nodes |
| `TopologyService.FirstSink` | internal/services/topology/service.go:220-237 | the scan finds the first sink: a node that is the target of some edge and the source of none |
| `TopologyService.BootstrapNode` | internal/services/topology/service.go:219-242 | the bootstrap node: first tagged node, else first sink, else the only node, else none; `TaggedNodeWins`, `FirstSinkWins`, `FallbackRule` and `BootstrapIsANode` state the rule and `ResolveBootstrapNode` is proved to compute it |
| `TopologyService.TaggedNodeWins` | internal/services/topology/service.go:228-232 | the first tagged node is the bootstrap node whatever the edges |
| `TopologyService.FirstSinkWins` | internal/services/topology/service.go:220-237 | with no tagged node, the first sink is the bootstrap node |
| `TopologyService.FallbackRule` | internal/services/topology/service.go:238-241 | with no tag and no sink, a single node bootstraps itself, and otherwise no node is chosen |
| `TopologyService.SingleNodeBootstraps` | internal/services/topology/service.go:219-242 | a one-node topology always bootstraps from that node |
| `TopologyService.BootstrapIsANode` | internal/services/topology/service.go:219-242 | a non-empty bootstrap id is the id of one of the topology's nodes |
| `TopologyService.ResolveBootstrapNode` | internal/services/topology/service.go:219-242 | the loops compute the rule `BootstrapNode` states |
| `TopologyService.NodeModels` | internal/services/topology/service.go:99-120 | one row per node, in order, stamped with the topology id, with an empty id replaced by its fresh id and an empty role by `worker`; `NodeModelsRoundTrip` and `NodeModelsStable` state its properties |
| `TopologyService.EdgeModels` | internal/services/topology/service.go:122-137 | one row per edge, in order, stamped with the topology id, with an empty id replaced by its fresh id; `EdgeModelsRoundTrip` states its properties |
| `TopologyService.ModelsFromNodes` | internal/services/topology/service.go:99-120 | the loop builds the node rows `NodeModels` specifies |
| `TopologyService.ModelsFromEdges` | internal/services/topology/service.go:122-137 | the loop builds the edge rows `EdgeModels` specifies |
| `TopologyService.NodeModelsRoundTrip` | internal/services/topology/service.go:99-120 | every node row is stamped with the topology id; stored nodes read back with their own id, or the fresh id when it was empty, the same label, and the same role except that an empty role becomes `worker` |
| `TopologyService.NodeModelsStable` | internal/services/topology/service.go:99-120 | converting stored nodes again changes nothing: ids, once assigned, are kept |
| `TopologyService.EdgeModelsRoundTrip` | internal/services/topology/service.go:122-137 | every edge row is stamped with the topology id and keeps its endpoints; an edge with an id reads back unchanged, and an empty id is replaced by the fresh id |
| `TopologyService.NamespaceOf` | internal/services/topology/service.go:263-266 | a topology is looked up in its recorded namespace, or in `default` when none is recorded |
| `TopologyService.TopologyStore.constructor` | internal/services/topology/service.go:74 | the store starts with the given records and refused writes and no status writes |
| `TopologyService.TopologyStore.WriteStatus` | internal/services/topology/service.go:185-187 | a status write succeeds unless refused, updates the record of an existing topology, and is logged |
| `TopologyService.TopologyStore.CreateTopology` | internal/services/topology/service.go:74-97 | a new topology is stored with status `none`, no namespace, and node and edge rows from the converters; an existing id is refused |
| `TopologyService.DeployTopology` | internal/services/topology/service.go:171-217 | an unknown id, a topology without nodes and one without a bootstrap node are refused with nothing written or called; a refused `deploying` write stops before any Kubernetes call; otherwise `deploying` is written, the deploy runs on the configuration built from the topology, and `running` or `error` is written after it |
| `TopologyService.DeployAndRecord` | internal/services/topology/service.go:210-216 | after the deploy the store records `error` and the deploy error is returned, or it records `running` and the result reports status `deploying` with "Deployment started"; the cluster ends as `DeployOutcome` specifies |
| `TopologyService.ConfigOf` | internal/services/topology/service.go:189-209 | the deploy configuration of a stored topology: its id, name, the namespace, its nodes and edges in order and the bootstrap id; `BuildConfig` is proved to build it |
| `TopologyService.BuildConfig` | internal/services/topology/service.go:189-209 | the deploy configuration carries the topology id, the namespace, the bootstrap node and one entry per node in order |
| `TopologyService.UndeployTopology` | internal/services/topology/service.go:244-257 | an unknown id is reported; otherwise the topology's six keys are deleted in its recorded namespace and the status is reset to `none` with no namespace |
| `TopologyService.GetDeployStatus` | internal/services/topology/service.go:259-281 | the status is the recorded one, with either the pod list error as message or the topology's pods |
| `TopologyService.CopyPods` | internal/services/topology/service.go:272-275 | every raw pod report is copied field for field, in order |
| `KubeClusters.ScriptsConfigMapFor` | internal/kube/clusters.go:56-83 | the ConfigMap named by the cluster's scripts setting, with placeholder `entrypoint.sh` and `configure-ipfs.sh` entries; `ClusterPlanKeys` and `ClusterPlanValid` state its key and admission |
| `KubeClusters.ClusterSecretFor` | internal/kube/clusters.go:91-135 | the opaque `<name>-secrets` Secret holding the cluster secret and the bootstrap private key; `ContainersReadClusterSecret` states that the containers read it |
| `KubeClusters.HeadlessServiceFor` | internal/kube/clusters.go:137-168 | the headless Service on the cluster swarm port 9096, selecting the cluster's labels; `ClusterSelectorsAgree` states its selector |
| `KubeClusters.ExternalServiceFor` | internal/kube/clusters.go:170-204 | the `<name>-external` Service of the configured type on swarm 4001, api 5001 and gateway 8080; `ClusterSelectorsAgree` states its selector |
| `KubeClusters.BuildPVCs` | internal/kube/clusters.go:484-528 | the two claim templates, IPFS storage and cluster storage; `ClaimsSelectedForDeletion` states their names, sizes and labels |
| `KubeClusters.StatefulSetFor` | internal/kube/clusters.go:206-252 | the one-replica StatefulSet with the cluster labels, an empty pod spec and the two claim templates; `ClusterSelectorsAgree` and `ClaimsSelectedForDeletion` state its properties |
| `KubeClusters.ClusterPlan` | internal/kube/clusters.go:16-54 | the five objects cluster creation sends, in order; `ClusterPlanKeys`, `ClusterPlanValid` and `TeardownCoversPlan` state their keys, admission and removal |
| `KubeClusters.ClusterPlanKeys` | internal/kube/clusters.go:16-54 | cluster creation addresses the scripts ConfigMap, the Secret, the two Services and the StatefulSet, all at distinct keys |
| `KubeClusters.ClusterPlanValid` | internal/kube/clusters.go:56-252 | all five objects pass validation exactly when the scripts ConfigMap name and the cluster name are not empty |
| `KubeClusters.ClusterSelectorsAgree` | internal/kube/clusters.go:137-252 | the StatefulSet and both Services select the cluster's labels, the StatefulSet has one replica, and it is governed by the headless Service |
| `KubeClusters.ClaimsSelectedForDeletion` | internal/kube/clusters.go:484-528 | there are exactly two claims: `ipfs-storage` (role `ipfs`, sized by the IPFS storage size) and `cluster-storage` (role `cluster`, sized by the cluster storage size); both carry the `app` label that deletion selects on, use ReadWriteOnce and the cluster's storage class |
| `KubeClusters.IpfsContainer` | internal/kube/clusters.go:379-435 | the IPFS container of a node: its ports, environment from the cluster Secret, mounts and readiness probe; `ProbeTargetsApiPort`, `ContainersReadClusterSecret` and `ClaimsBackStorageMounts` state them |
| `KubeClusters.IpfsClusterContainer` | internal/kube/clusters.go:437-482 | the IPFS Cluster container of a node with its bootstrap flag, environment and mounts; `BootstrapFlag`, `ContainersReadClusterSecret` and `ClaimsBackStorageMounts` state them |
| `KubeClusters.ProbeTargetsApiPort` | internal/kube/clusters.go:379-435 | the IPFS container declares the node's swarm-tcp, swarm-udp, api, gateway and ws ports through `int32`, only swarm-udp as UDP; the readiness probe asks `/api/v0/id` after 10 s and every 10 s, on the declared `api` port, which is the node's API port when that fits 32 bits |
| `KubeClusters.BootstrapFlag` | internal/kube/clusters.go:437-482 | `CLUSTER_BOOTSTRAP` is `true` exactly for a node labelled bootstrap, and `CLUSTER_PEERNAME` is the node's name |
| `KubeClusters.ContainersReadClusterSecret` | internal/kube/clusters.go:379-482 | both containers read their environment from the Secret the cluster plan creates |
| `KubeClusters.ClaimsBackStorageMounts` | internal/kube/clusters.go:379-528 | every mount except `scripts` is backed by one of the cluster's claims |
| `KubeClusters.GenerationError` | internal/kube/clusters.go:98-106 | key generation fails exactly when either generator fails |
| `KubeClusters.CreateClusterFrom` | internal/kube/clusters.go:16-54 | the creates stop at the first error, a generator failure stops before the Secret, and objects already stored are not changed |
| `KubeClusters.CreateClusterStep` | internal/kube/clusters.go:22-50 | one create step advances `CreateClusterFrom` and records the stored object in the resources |
| `KubeClusters.ApplyClusterPlan` | internal/kube/clusters.go:16-54 | the loop over the five creates reaches the store, error, recorded resources and call trace that `CreateClusterFrom` predicts |
| `KubeClusters.CreateCluster` | internal/kube/clusters.go:16-54 | cluster creation leaves the outcome `CreateClusterFrom` specifies for the generated keys |
| `KubeClusters.RecordedFields` | internal/kube/clusters.go:56-252 | after n successful steps exactly the first n resource fields hold the stored objects |
| `KubeClusters.CreateClusterFromAllAbsent` | internal/kube/clusters.go:16-54 | valid, absent, distinct and unrefused objects are all created and stored as sent |
| `KubeClusters.CreateClusterSucceeds` | internal/kube/clusters.go:16-54 | with working generators and free keys, creation succeeds under the model's API rules and all five resource fields are filled; a real server's refusal of the empty pod spec is not part of those rules (see Left out) |
| `KubeClusters.GenerationFailureStopsEarly` | internal/kube/clusters.go:91-135 | a generator failure reports an error, leaves every later resource field unset, and creates nothing after the ConfigMap |
| `KubeClusters.DeleteStatefulSet` | internal/kube/clusters.go:285-299 | the StatefulSet is deleted, or the delete error is returned with the store unchanged |
| `KubeClusters.DeleteServices` | internal/kube/clusters.go:301-320 | both Services are deleted with errors ignored |
| `KubeClusters.DeleteConfigMaps` | internal/kube/clusters.go:322-336 | the `<name>-scripts` ConfigMap is deleted with errors ignored |
| `KubeClusters.DeleteSecrets` | internal/kube/clusters.go:338-352 | the `<name>-secrets` Secret is deleted with errors ignored |
| `KubeClusters.DeletePVCs` | internal/kube/clusters.go:354-377 | the claims labelled `app=<name>` are listed and each is deleted with errors ignored; a list error is returned |
| `KubeClusters.DeleteCluster` | internal/kube/clusters.go:255-283 | a failed StatefulSet delete stops everything; otherwise Services, ConfigMap and Secret are swept, and then the claims |
| `KubeClusters.SweepInSteps` | internal/kube/clusters.go:264-278 | the three sweep helpers together delete the four sweep keys |
| `KubeClusters.DeleteClusterRemoves` | internal/kube/clusters.go:255-377 | when nothing is refused, deletion removes the StatefulSet, the sweep keys and the listed claims, and keeps every other object unchanged |
| `KubeClusters.TeardownCoversPlan` | internal/kube/clusters.go:16-352 | deletion covers every created object except the scripts ConfigMap, which it removes only when that ConfigMap is named `<name>-scripts` |
| `KubeNodes.NodePorts` | internal/kube/nodes.go:64-78 | each container gets four ports, all in 32-bit range and with no protocol set |
| `KubeNodes.NodePortsNamed` | internal/kube/nodes.go:64-78 | the four ports are swarm, api, gateway and cluster-api, carrying the node's swarm-tcp, api, gateway and cluster-api numbers through `int32` |
| `KubeNodes.AppendEnv` | internal/kube/nodes.go:49-59 | the node's env entries are appended after the existing ones, one per map entry |
| `KubeNodes.ApplyEnv` | internal/kube/nodes.go:43-62 | every container keeps its existing env and gains one entry per map entry, and nothing else changes |
| `KubeNodes.ApplyPorts` | internal/kube/nodes.go:64-78 | every container's ports are replaced by the node's four ports, and nothing else changes |
| `KubeNodes.ApplyNodeSpec` | internal/kube/nodes.go:43-78 | the pod template's containers are rewritten with the node's env and ports |
| `KubeNodes.EnvAdditionsAreEntries` | internal/kube/nodes.go:49-59 | the appended entries are exactly the map's entries, in some order |
| `KubeNodes.RewriteKeepsIdentity` | internal/kube/nodes.go:43-78 | rewriting keeps each container's name, image and command, sets its ports, and adds exactly one env entry per map entry |
| `KubeNodes.AddNodeToCluster` | internal/kube/nodes.go:12-41 | a failed read is returned; otherwise the StatefulSet is updated with one more replica (int32 wrap-around included) and the rewritten template, and the update's result is returned |
| `KubeNodes.RemoveNodeFromCluster` | internal/kube/nodes.go:80-106 | a failed read is returned, 0 replicas is left alone, and otherwise one replica fewer is written |
| `KubeNodes.ScaledDown` | internal/kube/nodes.go:98-99 | scaling down changes only the replica count |
| `KubeNodes.UpdateError` | internal/kube/nodes.go:101-104 | the update error, if any, is passed through unchanged |
| `KubeNodes.ScaleUpAddsOne` | internal/kube/nodes.go:27-38 | below the int32 limit, adding a node stores one more replica |
| `KubeNodes.ScaleUpAtLimitRejected` | internal/kube/nodes.go:27-38 | at the int32 limit the count wraps to a negative value, which the API server refuses, leaving the store unchanged |
| `KubeNodes.ScaleDownStoresOneFewer` | internal/kube/nodes.go:94-104 | with at least one replica, removing a node stores one fewer, never below 0 |
| `ClusterConvert.ClusterSpecOf` | internal/services/clusters/utils.go:15-76 | the cluster spec read from a SQL row, NULL columns becoming empty strings and with no nodes; `ClusterSqlSpecRoundTrip` and `ClusterSpecSqlRoundTrip` state its relation to `ClusterSqlModelOf` |
| `ClusterConvert.ClusterSqlModelOf` | internal/services/clusters/utils.go:78-149 | the SQL row of a cluster spec, empty fields becoming NULL and an empty id taking the fresh id; `ClusterSqlFields` and the two round-trip lemmas state its properties, and `ConvertClusterSpecToClusterSqlModel` is proved to build it |
| `ClusterConvert.NodeIdsOf` | internal/services/clusters/utils.go:143-146 | the id list holds each node's id, in order |
| `ClusterConvert.ConvertClusterSpecToClusterSqlModel` | internal/services/clusters/utils.go:78-149 | the loop-built SQL row is the one `ClusterSqlModelOf` specifies |
| `ClusterConvert.ClusterSqlFields` | internal/services/clusters/utils.go:78-149 | each optional column is NULL exactly when its field is empty and otherwise holds it, and a missing id gets the fresh uuid |
| `ClusterConvert.ClusterSpecSqlRoundTrip` | internal/services/clusters/utils.go:15-149 | spec to SQL and back keeps every field except the secret and the nodes, and fills in a missing id |
| `ClusterConvert.ClusterSqlSpecRoundTrip` | internal/services/clusters/utils.go:15-149 | SQL to spec and back restores a row with an id and no empty-string column, except its node ids |
| `ClusterConvert.FirstIndex` | internal/services/clusters/utils.go:152-154 | the search stops at the first occurrence of the value, or at the end |
| `ClusterConvert.Removed` | internal/services/clusters/utils.go:152-159 | the list without the first occurrence of the value; `RemovedShape` and `RemovedMultiset` state it and `RemoveByValue` is proved to compute it |
| `ClusterConvert.RemovedShape` | internal/services/clusters/utils.go:152-159 | removing a present value drops only its first occurrence and shifts the rest left; an absent value leaves the list alone |
| `ClusterConvert.RemovedMultiset` | internal/services/clusters/utils.go:152-159 | removal takes exactly one copy of the value out of the list, if present |
| `ClusterConvert.RemoveByValue` | internal/services/clusters/utils.go:152-159 | the returned slice is the list without the first occurrence; the shared backing array has the tail shifted and its last element repeated |
| `ClusterConvert.ShiftLeft` | internal/services/clusters/utils.go:155 | `append(s[:i], s[i+1:]...)` shifts the tail one place left in place |
| `ClusterConvert.NodeIdsAfterRemovalAsWritten` | internal/services/clusters/service.go:160 | the cluster's node ids after the call whose result is discarded; `DiscardedRemovalKeepsNode` shows the id is kept |
| `ClusterConvert.DiscardedRemovalKeepsNode` | internal/services/clusters/service.go:160 | with the result discarded, the caller still sees the removed id, or a duplicated last id |
| `ClusterConvert.NodeIdsAfterRemoval` | internal/services/clusters/service.go:160 | the node ids with the returned list used; `RemovalDropsNode` shows the id is removed and every other id kept |
| `ClusterConvert.RemovalDropsNode` | internal/services/clusters/service.go:160 | using the result removes the node id and keeps every other id |
| `ClusterConvert.ClusterKubeOf` | internal/services/clusters/utils.go:161-200 | the Kubernetes resources of a cluster spec: its settings, the `app` and `cluster-id` labels, and a secret object only when a cluster secret is set; `ClusterKubeShape` and `ClusterSpecKubeRoundTrip` state its properties |
| `ClusterConvert.ClusterSpecOfKube` | internal/services/clusters/utils.go:202-240 | the cluster spec read back from its resources; `ReplicasOnlyFromStatefulSet` and `ClusterSpecKubeRoundTrip` state its properties |
| `ClusterConvert.ClusterKubeShape` | internal/services/clusters/utils.go:161-200 | the resources carry the `app` and `cluster-id` labels and the namespace, have a Secret exactly when a secret was given, and have no workload objects yet |
| `ClusterConvert.ReplicasOnlyFromStatefulSet` | internal/services/clusters/utils.go:234-237 | the replica count comes from the StatefulSet when present, and is 0 otherwise |
| `ClusterConvert.ClusterSpecKubeRoundTrip` | internal/services/clusters/utils.go:161-240 | spec to resources and back keeps the identity, images and storage, and loses replicas, secrets and nodes as the converters do |
| `ClusterConvert.ClusterModelOf` | internal/services/clusters/utils.go:242-285 | the stored record of cluster resources, keeping the name of each object; `ClusterKubeModelRoundTrip` states its relation to `ClusterResourcesOf` |
| `ClusterConvert.ClusterResourcesOf` | internal/services/clusters/utils.go:287-370 | the resources rebuilt from a record, one object for each non-empty name; `ClusterResourcesPresence` and `ClusterModelRoundTrip` state its properties |
| `ClusterConvert.ClusterResourcesPresence` | internal/services/clusters/utils.go:287-370 | each of the eight recorded names yields an object exactly when it is not empty, with that name and the record's namespace |
| `ClusterConvert.ClusterModelRoundTrip` | internal/services/clusters/utils.go:242-370 | record to resources and back restores the record, except the bootstrap secret name |
| `ClusterConvert.ClusterKubeModelRoundTrip` | internal/services/clusters/utils.go:242-370 | resources to record and back keep each object whose name is not empty, as a reference in the resources' namespace |
| `NodeConvert.NodeSpecOf` | internal/services/nodes/utils.go:16-60 | the node spec read from a SQL row, NULL columns becoming empty and environment and containers left empty; `NodeSqlSpecRoundTrip` and `NodeSpecSqlRoundTrip` state its relation to `NodeSqlModelOf` |
| `NodeConvert.NodeSqlModelOf` | internal/services/nodes/utils.go:62-100 | the SQL row of a node spec, empty fields becoming NULL and an empty id taking the fresh id; `NodeSqlFields`, `RoleNodeGetsFreshId` and the two round-trip lemmas state its properties |
| `NodeConvert.NodeSqlFields` | internal/services/nodes/utils.go:62-100 | each optional column is NULL exactly when its field is empty, ports are copied, and a missing id gets the fresh uuid |
| `NodeConvert.NodeSpecSqlRoundTrip` | internal/services/nodes/utils.go:16-100 | spec to SQL and back keeps every stored field and drops env, init container and containers |
| `NodeConvert.NodeSqlSpecRoundTrip` | internal/services/nodes/utils.go:16-100 | SQL to spec and back restores the row exactly when it has an id, or no fresh id is drawn, and no column holds an empty string |
| `NodeConvert.NodeSpecFromRole` | internal/services/nodes/utils.go:103-123 | a role node is named `NodeIPFS`, takes ports and init container from the configuration, and has no id, env, volumes or containers |
| `NodeConvert.RoleNodeGetsFreshId` | internal/services/nodes/utils.go:62-123 | storing a role node assigns it the fresh uuid and keeps its role |
| `NodeConvert.NodeKubeOf` | internal/services/nodes/utils.go:150-157 | each container keeps its name, image and command, in order |
| `NodeConvert.NodeKubeLabels` | internal/services/nodes/utils.go:140-145 | the resources carry exactly the `node-id`, `node-name`, `cluster-id` and `role` labels |
| `NodeConvert.NodeSpecOfKube` | internal/services/nodes/utils.go:162-184 | the node spec read back from its resources: role from the `role` label, ports, environment and containers; `NodeSpecKubeRoundTrip` states what it restores |
| `NodeConvert.NodeSpecKubeRoundTrip` | internal/services/nodes/utils.go:125-184 | spec to resources and back keeps id, name, role, env and ports, and loses the cluster name, volumes, init container and container ports |
| `NodeConvert.NodeModelOf` | internal/services/nodes/utils.go:186-224 | the record is built exactly when both JSON encodings succeed |
| `NodeConvert.NodeResourcesOf` | internal/services/nodes/utils.go:226-282 | the resources rebuilt from a record, or the first decode error; `NodeResourcesPresence`, `NodeResourcesDecodeErrors` and `NodeKubeModelRoundTrip` state its properties |
| `NodeConvert.NodeResourcesPresence` | internal/services/nodes/utils.go:226-282 | with decodable columns the resources are built, and each of Service, ConfigMap and Secret is present exactly when its name is not empty |
| `NodeConvert.NodeResourcesDecodeErrors` | internal/services/nodes/utils.go:230-242 | a containers decode error is returned first, and otherwise a claims decode error |
| `NodeConvert.NodeKubeModelRoundTrip` | internal/services/nodes/utils.go:186-282 | with inverse encoders, resources to record and back keep the containers and claims and the named references |

## Left out

- JSON encoding and decoding are not modelled. The encoders and decoders are parameters of the node converters, and the cluster converters keep only the object names they store.
- Key-pair, cluster-secret and uuid generation are not modelled. A generator is an `Option` input (`None` means it failed), and a uuid is a `freshId` parameter.
- The SQL database and the HTTP layer are not modelled. The topology store is a map of records with a given set of refused status writes. Database errors other than a refused write are not modelled.
- Pods and their status are given objects. The StatefulSet controller that creates pods and claims is not modelled.
- Error messages are not matched against the text "already exists". An `AlreadyExistsError` error kind stands in for that substring test.
- Node positions are floating-point values and are not modelled. `GetPodLogs` and the `private` flag of `DeployTopology` are not modelled either.
- `UpdateTopology`, `DeleteTopology`, `GetAllTopologies` and `GetTopologyByID` are not modelled. They only read or write the database.
- A topology with several nodes tagged `bootstrap` is not an error. The code takes the first one in the order the rows are read back, and the model follows the code.
- TopologyService.TopologyStore.CreateTopology: the model stores the node and edge rows as given, repeated ids and insertion order included, and reads them back the same way. The database upserts on the topology and node or edge id (`insertNodeQuery` and `insertEdgeQuery` in `topologyModels/queries.go`), so only the last row per id survives, and its read queries have no `ORDER BY`, so rows come back in no fixed order. For a topology with repeated ids or a read order that differs from insertion, the node count, the replica count and the first-tagged or first-sink bootstrap choice of the model can differ from the program's.
- The body of the IPFS configure script is a constant string. Only the entrypoint script's structure is stated.
- KubeClusters.CreateClusterSucceeds: the StatefulSet that `createStatefulSet` sends has an empty pod spec (clusters.go:233-237, marked TODO). A real API server refuses a pod template without containers, so against a real control plane cluster creation stops at the StatefulSet after four objects. The model's validation does not include that rule, so this lemma shows success only under the model's rules.
- The model's API validation leaves out the server's other rules, in particular its range check on container ports (1 to 65535). `KubeNodes.AddNodeToCluster` can send such ports after the `int32` wrap-around, and a real server would refuse that update.
- TopologyDeploy.EntrypointMode: the script's `grep` reads `<svc>-0` as a regular expression, and the model uses a literal substring test. The two agree for uuid ids, whose characters have no special meaning in a pattern. The model's id predicate does not restrict ids to those characters.
- TopologyDeploy.Deploy: the six creates in `deploy.go` are written out one after another. The model runs them as one loop over the six-object plan (`ApplyPlan`). The calls made, their order and the stop-at-first-error rule are the same.
- KubeClusters.CreateCluster: the five creates in `clusters.go` (lines 16-54) are written out one after another. The model runs them as one loop over the five-object plan (`ApplyClusterPlan`). The calls made, their order and the stop-at-first-error rule are the same.
- KubeClusters.DeleteStatefulSet: a delete takes effect at once. The foreground propagation policy it sends, and finalizers in general, are not modelled; a real server keeps the StatefulSet until its pods are gone.
- KubeNodes.ApplyEnv: Go's map iteration order is unspecified. The appended entries are stated up to order, as a multiset.
- `config.NodeConfig` is not part of this model. Its fields are taken as the converter uses them.
- The node SQL row has a cluster-name column, and the init container has an image field, as the converters read them.
- `resource.MustParse` on storage sizes is not modelled. Sizes are kept as strings, and a malformed size would panic in Go.
- A Get with an empty name is answered as not found. client-go returns its own client-side error instead; both are errors returned to the caller.
- KubeClusters.DeleteCluster: `deleteServices`, `deleteConfigMaps` and `deleteSecrets` always return nil. The model's versions return nothing, and the error checks on them in `DeleteCluster` are dropped.
- TopologyDeploy.ServiceName: requires an id with at least twelve dash-free characters. The Go slice `[:12]` panics on shorter ids; topology ids are uuids.

## Findings

| source | as written | input that shows it | evidently intended | confidence | as-written member | corrected member |
|---|---|---|---|---|---|---|
| internal/services/clusters/service.go:160 | the slice `removeByValue` returns is discarded, so the cluster row keeps the old slice header over the shifted backing array | node ids `["n1","n2"]`, removing `"n2"`, still gives `["n1","n2"]`; removing `"n1"` from `["n1","n2","n3"]` gives `["n2","n3","n3"]` | the node id is removed from the cluster's node ids and the list gets one shorter | not executed | `ClusterConvert.DiscardedRemovalKeepsNode` | `ClusterConvert.RemovalDropsNode` |

=== FILE: cluster_convert.dfy ===
/** The cluster records of the older cluster code and the converters between
    them: the cluster's settings (ClusterSpec), its database row
    (ClusterSqlModel), its Kubernetes resources (ClusterKubeResources) and
    the stored record of those resources (ClusterKubeResourcesModel); and
    the removal of one node id from a row's list of node ids. */
module ClusterConvert {
  import opened Common
  import opened KubeObjects
  import opened KubeTypes
  import opened NodeConvert

  datatype ImagesSpec = ImagesSpec(ipfs: string, ipfsCluster: string)

  datatype ConfigMapsSpec = ConfigMapsSpec(envConfig: string, scriptsConfig: string)

  datatype SecretsSpec = SecretsSpec(clusterSecret: string, bootstrapPrivKey: string)

  datatype ClusterSpec = ClusterSpec(
    clusterId: string,
    clusterName: string,
    replicas: int,
    serviceType: string,
    storageClass: string,
    clusterStorageSize: string,
    ipfsStorageSize: string,
    images: ImagesSpec,
    configMaps: ConfigMapsSpec,
    secrets: SecretsSpec,
    bootstrapPeerId: string,
    clusterSecret: string,
    nodes: seq<NodeSpec>)

  /** The database row of a cluster: optional texts nil when empty, the
      nodes kept as their ids only. */
  datatype ClusterSqlModel = ClusterSqlModel(
    clusterId: string,
    clusterName: Option<string>,
    replicas: int,
    serviceType: Option<string>,
    storageClass: Option<string>,
    clusterStorageSize: Option<string>,
    ipfsStorageSize: Option<string>,
    ipfsImage: Option<string>,
    ipfsClusterImage: Option<string>,
    envConfig: Option<string>,
    scriptsConfig: Option<string>,
    clusterSecret: Option<string>,
    bootstrapPrivKey: Option<string>,
    bootstrapPeerId: Option<string>,
    nodeIds: seq<string>)

  /** The stored record of a cluster's Kubernetes resources: the name of each
      object, "" when it is absent. */
  datatype ClusterKubeResourcesModel = ClusterKubeResourcesModel(
    clusterId: string,
    namespace: string,
    statefulSet: string,
    service: string,
    envConfigMap: string,
    scriptsConfigMap: string,
    clusterSecret: string,
    bootstrapSecret: string,
    ipfsPvc: string,
    clusterPvc: string,
    headlessService: string)

  // ---------------------------------------------------------------------
  // Settings and database row

  /** ConvertClusterSqlModelToClusterSpec: nil texts read as "", no nodes. */
  function ClusterSpecOf(m: ClusterSqlModel): ClusterSpec {
    ClusterSpec(
      m.clusterId, TextOf(m.clusterName), m.replicas, TextOf(m.serviceType), TextOf(m.storageClass),
      TextOf(m.clusterStorageSize), TextOf(m.ipfsStorageSize),
      ImagesSpec(TextOf(m.ipfsImage), TextOf(m.ipfsClusterImage)),
      ConfigMapsSpec(TextOf(m.envConfig), TextOf(m.scriptsConfig)),
      SecretsSpec(TextOf(m.clusterSecret), TextOf(m.bootstrapPrivKey)),
      TextOf(m.bootstrapPeerId), "", [])
  }

  /** The ids of the nodes, in order. */
  function NodeIdsOf(nodes: seq<NodeSpec>): (ids: seq<string>)
    ensures |ids| == |nodes| && forall i | 0 <= i < |nodes| :: ids[i] == nodes[i].nodeId
  {
    seq(|nodes|, i requires 0 <= i < |nodes| => nodes[i].nodeId)
  }

  /** ConvertClusterSpecToClusterSqlModel, as a value; `freshId` is the id
      uuid.NewString would return, used only when the cluster has none. */
  function ClusterSqlModelOf(c: ClusterSpec, freshId: string): ClusterSqlModel {
    ClusterSqlModel(
      if c.clusterId == "" then freshId else c.clusterId,
      OptionalText(c.clusterName), c.replicas, OptionalText(c.serviceType), OptionalText(c.storageClass),
      OptionalText(c.clusterStorageSize), OptionalText(c.ipfsStorageSize),
      OptionalText(c.images.ipfs), OptionalText(c.images.ipfsCluster),
      OptionalText(c.configMaps.envConfig), OptionalText(c.configMaps.scriptsConfig),
      OptionalText(c.secrets.clusterSecret), OptionalText(c.secrets.bootstrapPrivKey),
      OptionalText(c.bootstrapPeerId),
      NodeIdsOf(c.nodes))
  }

  /** ConvertClusterSpecToClusterSqlModel: the fields are mapped one by one
      and the node ids collected in a loop. */
  method ConvertClusterSpecToClusterSqlModel(c: ClusterSpec, freshId: string) returns (m: ClusterSqlModel)
    ensures m == ClusterSqlModelOf(c, freshId)
  {
    var id := if c.clusterId == "" then freshId else c.clusterId;
    m := ClusterSqlModel(
      id, OptionalText(c.clusterName), c.replicas, OptionalText(c.serviceType), OptionalText(c.storageClass),
      OptionalText(c.clusterStorageSize), OptionalText(c.ipfsStorageSize),
      OptionalText(c.images.ipfs), OptionalText(c.images.ipfsCluster),
      OptionalText(c.configMaps.envConfig), OptionalText(c.configMaps.scriptsConfig),
      OptionalText(c.secrets.clusterSecret), OptionalText(c.secrets.bootstrapPrivKey),
      OptionalText(c.bootstrapPeerId), []);
    var k := 0;
    while k < |c.nodes|
      invariant 0 <= k <= |c.nodes|
      invariant m == ClusterSqlModelOf(c, freshId).(nodeIds := NodeIdsOf(c.nodes[..k]))
    {
      assert NodeIdsOf(c.nodes[..k + 1]) == NodeIdsOf(c.nodes[..k]) + [c.nodes[k].nodeId];
      m := m.(nodeIds := m.nodeIds + [c.nodes[k].nodeId]);
      k := k + 1;
    }
    assert c.nodes[..k] == c.nodes;
  }

  /** Every optional text of the row is nil exactly when the setting is
      empty and otherwise carries it; an empty id is replaced by the fresh
      one and any other id kept; the node ids are the nodes' ids in order. */
  lemma ClusterSqlFields(c: ClusterSpec, freshId: string)
    ensures var m := ClusterSqlModelOf(c, freshId);
      && (m.clusterName.None? <==> c.clusterName == "") && TextOf(m.clusterName) == c.clusterName
      && (m.serviceType.None? <==> c.serviceType == "") && TextOf(m.serviceType) == c.serviceType
      && (m.storageClass.None? <==> c.storageClass == "") && TextOf(m.storageClass) == c.storageClass
      && (m.clusterStorageSize.None? <==> c.clusterStorageSize == "") && TextOf(m.clusterStorageSize) == c.clusterStorageSize
      && (m.ipfsStorageSize.None? <==> c.ipfsStorageSize == "") && TextOf(m.ipfsStorageSize) == c.ipfsStorageSize
      && (m.ipfsImage.None? <==> c.images.ipfs == "") && TextOf(m.ipfsImage) == c.images.ipfs
      && (m.ipfsClusterImage.None? <==> c.images.ipfsCluster == "") && TextOf(m.ipfsClusterImage) == c.images.ipfsCluster
      && (m.envConfig.None? <==> c.configMaps.envConfig == "") && TextOf(m.envConfig) == c.configMaps.envConfig
      && (m.scriptsConfig.None? <==> c.configMaps.scriptsConfig == "") && TextOf(m.scriptsConfig) == c.configMaps.scriptsConfig
      && (m.clusterSecret.None? <==> c.secrets.clusterSecret == "") && TextOf(m.clusterSecret) == c.secrets.clusterSecret
      && (m.bootstrapPrivKey.None? <==> c.secrets.bootstrapPrivKey == "") && TextOf(m.bootstrapPrivKey) == c.secrets.bootstrapPrivKey
      && (m.bootstrapPeerId.None? <==> c.bootstrapPeerId == "") && TextOf(m.bootstrapPeerId) == c.bootstrapPeerId
      && (c.clusterId != "" ==> m.clusterId == c.clusterId)
      && (c.clusterId == "" ==> m.clusterId == freshId)
      && m.replicas == c.replicas
      && |m.nodeIds| == |c.nodes| && (forall i | 0 <= i < |c.nodes| :: m.nodeIds[i] == c.nodes[i].nodeId)
  {
  }

  /** Settings -> row -> settings keeps every text, the id (or gives the
      fresh one) and the replica count; the nodes and the top-level cluster
      secret are not read back. */
  lemma ClusterSpecSqlRoundTrip(c: ClusterSpec, freshId: string)
    ensures ClusterSpecOf(ClusterSqlModelOf(c, freshId)) ==
      c.(clusterId := if c.clusterId == "" then freshId else c.clusterId, clusterSecret := "", nodes := [])
  {
  }

  /** Row -> settings -> row gives the row back, node ids emptied, when its
      id is set and none of its optional texts points at "". */
  lemma ClusterSqlSpecRoundTrip(m: ClusterSqlModel, freshId: string)
    requires m.clusterId != ""
    requires m.clusterName != Some("") && m.serviceType != Some("") && m.storageClass != Some("")
    requires m.clusterStorageSize != Some("") && m.ipfsStorageSize != Some("")
    requires m.ipfsImage != Some("") && m.ipfsClusterImage != Some("")
    requires m.envConfig != Some("") && m.scriptsConfig != Some("")
    requires m.clusterSecret != Some("") && m.bootstrapPrivKey != Some("") && m.bootstrapPeerId != Some("")
    ensures ClusterSqlModelOf(ClusterSpecOf(m), freshId) == m.(nodeIds := [])
  {
  }

  // ---------------------------------------------------------------------
  // Removing a node id

  /** The first index holding `val`, or |s| when there is none. */
  function FirstIndex(s: seq<string>, val: string): (i: nat)
    ensures i <= |s|
    ensures forall j | 0 <= j < i :: s[j] != val
    ensures i < |s| ==> s[i] == val
  {
    if s == [] then 0
    else if s[0] == val then 0
    else 1 + FirstIndex(s[1..], val)
  }

  /** `s` without its first occurrence of `val`; `s` itself when `val` does
      not occur. */
  function Removed(s: seq<string>, val: string): seq<string> {
    var i := FirstIndex(s, val);
    if i == |s| then s else s[..i] + s[i + 1..]
  }

  /** Removal keeps the elements before the first `val` in place and moves
      the ones after it one place left; when `val` is absent nothing
      changes. */
  lemma RemovedShape(s: seq<string>, val: string)
    ensures val in s ==> |Removed(s, val)| == |s| - 1
    ensures val !in s ==> Removed(s, val) == s
    ensures var i := FirstIndex(s, val);
      && (forall j | 0 <= j < i && j < |Removed(s, val)| :: Removed(s, val)[j] == s[j])
      && (forall j | i <= j < |Removed(s, val)| :: Removed(s, val)[j] == s[j + 1])
  {
    var i := FirstIndex(s, val);
    if i == |s| {
      assert val !in s;
    }
  }

  /** Removal takes away exactly one occurrence of `val` and no other
      element. */
  lemma RemovedMultiset(s: seq<string>, val: string)
    ensures multiset(Removed(s, val)) == multiset(s) - multiset{val}
  {
    var i := FirstIndex(s, val);
    if i < |s| {
      assert s == s[..i] + [s[i]] + s[i + 1..];
      assert multiset(s) == multiset(s[..i]) + multiset{val} + multiset(s[i + 1..]);
    } else {
      assert val !in multiset(s);
    }
  }

  /** What the backing array of the slice holds after removeByValue: the
      elements after the removed one moved one place left, the last place
      keeping its old value; the array unchanged when `val` is absent. */
  function BackingAfterRemove(s: seq<string>, val: string): (r: seq<string>)
    ensures |r| == |s|
  {
    if FirstIndex(s, val) < |s| then Removed(s, val) + [s[|s| - 1]] else s
  }

  /** removeByValue, on the slice's backing array: finds the first element
      equal to `val` and shifts the tail left over it, as append(s[:i],
      s[i+1:]...) does in place. Returns the length of the resulting slice. */
  method RemoveByValue(s: array<string>, val: string) returns (n: nat)
    modifies s
    ensures n <= s.Length
    ensures s[..n] == Removed(old(s[..]), val)
    ensures s[..] == BackingAfterRemove(old(s[..]), val)
  {
    ghost var before := s[..];
    var i := 0;
    while i < s.Length
      invariant 0 <= i <= s.Length
      invariant forall j | 0 <= j < i :: s[j] != val
      invariant s[..] == before
    {
      if s[i] == val {
        assert FirstIndex(before, val) == i;
        ShiftLeft(s, i);
        return s.Length - 1;
      }
      i := i + 1;
    }
    assert FirstIndex(before, val) == s.Length;
    return s.Length;
  }

  /** The in-place copy of append(s[:i], s[i+1:]...): every element after
      place i moves one place left; the last place keeps its value. */
  method ShiftLeft(s: array<string>, i: nat)
    requires i < s.Length
    modifies s
    ensures s[..] == old(s[..i]) + old(s[i + 1..]) + [old(s[s.Length - 1])]
  {
    ghost var before := s[..];
    var j := i;
    while j + 1 < s.Length
      invariant i <= j < s.Length
      invariant forall k | 0 <= k < i :: s[k] == before[k]
      invariant forall k | i <= k < j :: s[k] == before[k + 1]
      invariant forall k | j <= k < s.Length :: s[k] == before[k]
    {
      s[j] := s[j + 1];
      j := j + 1;
    }
    assert s[..] == before[..i] + before[i + 1..] + [before[s.Length - 1]];
  }

  /** RemoveNodeFromClusterByID as written: removeByValue's result is
      discarded, so the row keeps its old length and holds what the backing
      array holds after the shift. */
  function NodeIdsAfterRemovalAsWritten(ids: seq<string>, nodeId: string): seq<string> {
    BackingAfterRemove(ids, nodeId)
  }

  /** As written, removing the last id of a row leaves the row unchanged:
      the node is still listed. */
  lemma DiscardedRemovalKeepsNode()
    ensures NodeIdsAfterRemovalAsWritten(["n1", "n2"], "n2") == ["n1", "n2"]
    ensures NodeIdsAfterRemovalAsWritten(["n1", "n2", "n3"], "n1") == ["n2", "n3", "n3"]
  {
    var two := ["n1", "n2"];
    assert FirstIndex(two, "n2") == 1 by {
      assert two[1..] == ["n2"];
    }
    var three := ["n1", "n2", "n3"];
    assert FirstIndex(three, "n1") == 0;
  }

  /** The row's node ids with the removed node taken out, the result of
      removeByValue kept. */
  function NodeIdsAfterRemoval(ids: seq<string>, nodeId: string): seq<string> {
    Removed(ids, nodeId)
  }

  /** With the result kept, a row that lists each node once no longer lists
      the removed node, and keeps every other id in order. */
  lemma RemovalDropsNode(ids: seq<string>, nodeId: string)
    requires forall i, j | 0 <= i < j < |ids| :: ids[i] != ids[j]
    ensures nodeId !in NodeIdsAfterRemoval(ids, nodeId)
    ensures forall id | id in ids && id != nodeId :: id in NodeIdsAfterRemoval(ids, nodeId)
    ensures nodeId in ids ==> |NodeIdsAfterRemoval(ids, nodeId)| == |ids| - 1
  {
    RemovedShape(ids, nodeId);
    RemovedMultiset(ids, nodeId);
    var r := NodeIdsAfterRemoval(ids, nodeId);
    var i := FirstIndex(ids, nodeId);
    if i < |ids| {
      assert r == ids[..i] + ids[i + 1..];
      assert forall j | i + 1 <= j < |ids| :: ids[j] != nodeId;
    }
    forall id | id in ids && id != nodeId
      ensures id in r
    {
      assert multiset(ids)[id] > 0;
    }
  }

  // ---------------------------------------------------------------------
  // Settings and Kubernetes resources

  function ClusterResourceLabels(c: ClusterSpec): Labels {
    map["app" := c.clusterName, "cluster-id" := c.clusterId]
  }

  /** ConvertClusterSpecToClusterKubeResources. */
  function ClusterKubeOf(c: ClusterSpec, ns: string): ClusterKubeResources {
    ClusterKubeResources(
      c.clusterId, c.clusterName, ns, c.serviceType, c.storageClass, c.clusterStorageSize, c.ipfsStorageSize,
      c.images.ipfsCluster, c.images.ipfs, c.configMaps.envConfig, c.configMaps.scriptsConfig,
      None, None, None, None, None,
      if c.secrets.clusterSecret != "" then Some(SecretStub(Named(c.clusterName + "-cluster-secret"))) else None,
      None, None,
      ClusterResourceLabels(c), map[])
  }

  /** ClusterKubeResourcesToConvertClusterSpec: the cluster secret field
      takes the secret object's name; the replica count is read only when
      the statefulset and its count are both present. */
  function ClusterSpecOfKube(res: ClusterKubeResources): ClusterSpec {
    ClusterSpec(
      res.clusterId, res.clusterName,
      if res.statefulSet.Some? && res.statefulSet.value.replicas.Some? then res.statefulSet.value.replicas.value else 0,
      res.serviceType, res.storageClass, res.clusterStorageSize, res.ipfsStorageSize,
      ImagesSpec(res.ipfsImage, res.ipfsClusterImage),
      ConfigMapsSpec(res.envConfig, res.scriptsConfig),
      SecretsSpec(if res.clusterSecret.Some? then res.clusterSecret.value.meta.name else "", ""),
      "", "", [])
  }

  /** The resources are labelled app=<name> and cluster-id=<id>, and carry a
      secret object exactly when a cluster secret is set, named
      <name>-cluster-secret; no other object is built. */
  lemma ClusterKubeShape(c: ClusterSpec, ns: string)
    ensures var res := ClusterKubeOf(c, ns);
      && res.labels.Keys == {"app", "cluster-id"}
      && res.labels["app"] == c.clusterName && res.labels["cluster-id"] == c.clusterId
      && (res.clusterSecret.Some? <==> c.secrets.clusterSecret != "")
      && (res.clusterSecret.Some? ==> res.clusterSecret.value.meta.name == c.clusterName + "-cluster-secret")
      && res.statefulSet.None? && res.headlessService.None? && res.externalService.None?
      && res.namespace == ns
  {
  }

  /** The replica count is taken over exactly when the statefulset and its
      count are present, and is 0 otherwise. */
  lemma ReplicasOnlyFromStatefulSet(res: ClusterKubeResources)
    ensures res.statefulSet.Some? && res.statefulSet.value.replicas.Some? ==>
      ClusterSpecOfKube(res).replicas == res.statefulSet.value.replicas.value
    ensures !(res.statefulSet.Some? && res.statefulSet.value.replicas.Some?) ==> ClusterSpecOfKube(res).replicas == 0
  {
  }

  /** Settings -> resources -> settings keeps id, name and every text; the
      replica count comes back 0, and the cluster secret comes back as the
      name of the secret object, not as the secret. */
  lemma ClusterSpecKubeRoundTrip(c: ClusterSpec, ns: string)
    ensures ClusterSpecOfKube(ClusterKubeOf(c, ns)) ==
      c.(replicas := 0,
         secrets := SecretsSpec(if c.secrets.clusterSecret != "" then c.clusterName + "-cluster-secret" else "", ""),
         bootstrapPeerId := "", clusterSecret := "", nodes := [])
  {
  }

  // ---------------------------------------------------------------------
  // Kubernetes resources and their stored record

  /** The metadata of the eight objects, in a fixed order. */
  function Metas(res: ClusterKubeResources): (r: seq<Option<ObjectMeta>>)
    ensures |r| == 8
  {
    [ if res.statefulSet.Some? then Some(res.statefulSet.value.meta) else None,
      if res.externalService.Some? then Some(res.externalService.value.meta) else None,
      if res.headlessService.Some? then Some(res.headlessService.value.meta) else None,
      if res.envConfigMap.Some? then Some(res.envConfigMap.value.meta) else None,
      if res.scriptsConfigMap.Some? then Some(res.scriptsConfigMap.value.meta) else None,
      if res.clusterSecret.Some? then Some(res.clusterSecret.value.meta) else None,
      if res.ipfsPvc.Some? then Some(res.ipfsPvc.value.meta) else None,
      if res.clusterPvc.Some? then Some(res.clusterPvc.value.meta) else None ]
  }

  /** The name of an optional object, "" when absent. */
  function NameOf(meta: Option<ObjectMeta>): string {
    if meta.Some? then meta.value.name else ""
  }

  /** The names of the record, in the order of Metas. */
  function RecordNames(m: ClusterKubeResourcesModel): seq<string> {
    [m.statefulSet, m.service, m.headlessService, m.envConfigMap, m.scriptsConfigMap, m.clusterSecret, m.ipfsPvc, m.clusterPvc]
  }

  /** ConvertClusterKubeResourcesToModel: each object's name, "" when absent;
      the bootstrap secret is never filled in. */
  function ClusterModelOf(res: ClusterKubeResources): ClusterKubeResourcesModel {
    var names := Metas(res);
    ClusterKubeResourcesModel(
      res.clusterId, res.namespace,
      NameOf(names[0]), NameOf(names[1]), NameOf(names[3]), NameOf(names[4]), NameOf(names[5]), "",
      NameOf(names[6]), NameOf(names[7]), NameOf(names[2]))
  }

  /** ConvertClusterKubeResourcesModelToClusterKubeResources: an object,
      with only its name and the record's namespace, for every non-empty
      name; every other field empty. */
  function ClusterResourcesOf(m: ClusterKubeResourcesModel): ClusterKubeResources {
    var meta := (name: string) => ObjectMeta(name, m.namespace, map[]);
    ClusterKubeResources(
      m.clusterId, "", m.namespace, "", "", "", "", "", "", "", "",
      if m.statefulSet != "" then Some(StatefulSetStub(meta(m.statefulSet))) else None,
      if m.headlessService != "" then Some(ServiceStub(meta(m.headlessService))) else None,
      if m.service != "" then Some(ServiceStub(meta(m.service))) else None,
      if m.envConfigMap != "" then Some(ConfigMapStub(meta(m.envConfigMap))) else None,
      if m.scriptsConfigMap != "" then Some(ConfigMapStub(meta(m.scriptsConfigMap))) else None,
      if m.clusterSecret != "" then Some(SecretStub(meta(m.clusterSecret))) else None,
      if m.ipfsPvc != "" then Some(ClaimStub(meta(m.ipfsPvc))) else None,
      if m.clusterPvc != "" then Some(ClaimStub(meta(m.clusterPvc))) else None,
      map[], map[])
  }

  /** An object is rebuilt from a record exactly when the record names it,
      with that name and the record's namespace. */
  lemma ClusterResourcesPresence(m: ClusterKubeResourcesModel)
    ensures var metas := Metas(ClusterResourcesOf(m));
      forall i | 0 <= i < 8 ::
        && (metas[i].Some? <==> RecordNames(m)[i] != "")
        && (metas[i].Some? ==> metas[i].value == ObjectMeta(RecordNames(m)[i], m.namespace, map[]))
    ensures ClusterResourcesOf(m).clusterId == m.clusterId && ClusterResourcesOf(m).namespace == m.namespace
  {
  }

  /** Record -> resources -> record gives the record back, except the
      bootstrap secret, which is never carried. */
  lemma ClusterModelRoundTrip(m: ClusterKubeResourcesModel)
    ensures ClusterModelOf(ClusterResourcesOf(m)) == m.(bootstrapSecret := "")
  {
  }

  /** Resources -> record -> resources keeps the id and the namespace, and
      brings back each object, with its name and in the resources'
      namespace, exactly when it was present under a non-empty name. */
  lemma ClusterKubeModelRoundTrip(res: ClusterKubeResources)
    ensures var back := ClusterResourcesOf(ClusterModelOf(res));
      && back.clusterId == res.clusterId && back.namespace == res.namespace
      && forall i | 0 <= i < 8 ::
        && (Metas(back)[i].Some? <==> Metas(res)[i].Some? && Metas(res)[i].value.name != "")
        && (Metas(back)[i].Some? ==> Metas(back)[i].value == ObjectMeta(Metas(res)[i].value.name, res.namespace, map[]))
  {
    var m := ClusterModelOf(res);
    ClusterResourcesPresence(m);
    assert forall i | 0 <= i < 8 :: RecordNames(m)[i] == NameOf(Metas(res)[i]);
  }
}

=== FILE: common.dfy ===
/** Values shared by every module: optional values and results, the few
    string operations the Go code relies on (strings.ReplaceAll with "-",
    strings.Contains, strconv formatting) and Go's int -> int32 conversion. */
module Common {

  /** A Go reference that may be nil, or a value that may be missing. */
  datatype Option<+T> = None | Some(value: T) {
    function GetOr(default: T): T {
      match this
      case Some(v) => v
      case None => default
    }
  }

  /** A Go `(value, error)` pair where exactly one side is meaningful. */
  datatype Result<+T, +E> = Ok(value: T) | Err(error: E)

  /** `s` with every '-' removed, the other characters kept in order. */
  function StripDashes(s: string): (r: string)
    ensures |r| <= |s|
    ensures forall i :: 0 <= i < |r| ==> r[i] != '-'
  {
    if s == [] then [] else (if s[0] == '-' then [] else [s[0]]) + StripDashes(s[1..])
  }

  lemma {:induction false} StripDashesAppend(a: string, b: string)
    ensures StripDashes(a + b) == StripDashes(a) + StripDashes(b)
  {
    if a == [] {
      assert a + b == b;
    } else {
      assert (a + b)[0] == a[0];
      assert (a + b)[1..] == a[1..] + b;
      StripDashesAppend(a[1..], b);
    }
  }

  lemma {:induction false} StripDashesNoDash(s: string)
    requires forall i :: 0 <= i < |s| ==> s[i] != '-'
    ensures StripDashes(s) == s
  {
    if s != [] {
      StripDashesNoDash(s[1..]);
    }
  }

  /** Go's strings.Contains(s, p): p occurs in s as a contiguous piece. */
  predicate Contains(s: string, p: string) {
    exists i :: 0 <= i <= |s| - |p| && OccursAt(s, p, i)
  }

  /** p occurs in s starting at index i. */
  predicate OccursAt(s: string, p: string, i: int) {
    0 <= i <= |s| - |p| && s[i..i + |p|] == p
  }

  /** A piece of the middle of a concatenation occurs in it. */
  lemma ContainsMiddle(a: string, p: string, b: string)
    ensures Contains(a + p + b, p)
  {
    var s := a + p + b;
    assert OccursAt(s, p, |a|);
  }

  /** A piece of a string is a piece of any string that starts with it. */
  lemma ContainsPrefix(a: string, b: string, p: string)
    requires Contains(a, p)
    ensures Contains(a + b, p)
  {
    var i :| 0 <= i <= |a| - |p| && OccursAt(a, p, i);
    assert (a + b)[i..i + |p|] == a[i..i + |p|];
    assert OccursAt(a + b, p, i);
  }

  /** A piece of a string is a piece of any string that ends with it. */
  lemma ContainsSuffix(a: string, b: string, p: string)
    requires Contains(b, p)
    ensures Contains(a + b, p)
  {
    var i :| 0 <= i <= |b| - |p| && OccursAt(b, p, i);
    assert (a + b)[|a| + i..|a| + i + |p|] == b[i..i + |p|];
    assert OccursAt(a + b, p, |a| + i);
  }

  const Int32Min: int := -0x8000_0000
  const Int32Max: int := 0x7FFF_FFFF

  /** Go's int32(n): keep the low 32 bits and read them as two's complement. */
  function ToInt32(n: int): (r: int)
    ensures Int32Min <= r <= Int32Max
    ensures (r - n) % 0x1_0000_0000 == 0
    ensures Int32Min <= n <= Int32Max ==> r == n
  {
    var low := n % 0x1_0000_0000;
    if low <= Int32Max then low else low - 0x1_0000_0000
  }

  predicate IsDigit(c: char) { '0' <= c <= '9' }

  /** Decimal rendering of a natural number, as strconv.Itoa writes it. */
  function Decimal(n: nat): (r: string)
    ensures |r| >= 1
    ensures forall i :: 0 <= i < |r| ==> IsDigit(r[i])
    ensures r[0] == '0' <==> n == 0
    decreases n
  {
    if n < 10 then [DigitChar(n)] else Decimal(n / 10) + [DigitChar(n % 10)]
  }

  function DigitChar(d: nat): (c: char)
    requires d < 10
    ensures IsDigit(c) && (c == '0' <==> d == 0)
  {
    (d + '0' as int) as char
  }

  /** strconv.FormatBool. */
  function FormatBool(b: bool): string {
    if b then "true" else "false"
  }

  // A Go *string field as the converters fill it: nil for "", the address of
  // the text otherwise; reading it back turns nil into "".

  function OptionalText(s: string): (r: Option<string>)
    ensures r.None? <==> s == ""
    ensures r.Some? ==> r.value == s
  {
    if s == "" then None else Some(s)
  }

  function TextOf(o: Option<string>): (r: string)
    ensures o.Some? ==> r == o.value
    ensures o.None? ==> r == ""
  {
    o.GetOr("")
  }

  /** Storing a text and reading it back gives the text. */
  lemma TextRoundTrip(s: string)
    ensures TextOf(OptionalText(s)) == s
  {
  }

  /** Reading a stored field and storing it again gives the field back,
      except a reference to "" which comes back nil. */
  lemma OptionalRoundTrip(o: Option<string>)
    ensures OptionalText(TextOf(o)) == o <==> o != Some("")
  {
  }
}

=== FILE: kube_cluster.dfy ===
/** The cluster control plane as the deployment code sees it through
    client-go: a store of objects keyed by kind, namespace and name, and the
    five calls Create, Get, Update, Delete and List. Which calls the control
    plane rejects (network, RBAC, quota, ...) is a given table, so every
    error path of the callers can be taken. Every call is recorded, in order,
    in a trace. */
module KubeCluster {
  import opened Common
  import opened KubeObjects

  /** A label selector of the form "key=value". */
  datatype Selector = Selector(key: string, value: string)

  datatype ApiCall =
    | CreateCall(key: ObjKey)
    | GetCall(key: ObjKey)
    | UpdateCall(key: ObjKey)
    | DeleteCall(key: ObjKey)
    | ListCall(kind: Kind, namespace: string, selector: Selector)

  /** The kinds of error the callers tell apart: the code only ever asks
      whether an error says "already exists". */
  datatype ApiError = AlreadyExistsError | NotFoundError | Rejected(reason: string)

  /** The text of an error, as err.Error() yields it. */
  function ErrorText(e: ApiError): string {
    match e
    case AlreadyExistsError => "already exists"
    case NotFoundError => "not found"
    case Rejected(reason) => reason
  }

  type Store = map<ObjKey, Object>

  /** The calls the control plane rejects, with the text of each rejection. */
  type Faults = map<ApiCall, string>

  /** The key a request for `o` in namespace `ns` addresses. */
  function RequestKey(ns: string, o: Object): ObjKey {
    ObjKey(o.KindOf(), ns, o.Meta().name)
  }

  /** What the API server checks before it looks at the store. */
  function Validate(ns: string, o: Object): Option<string> {
    if o.Meta().name == "" then Some("name required")
    else if o.Meta().namespace != "" && o.Meta().namespace != ns then
      Some("namespace mismatch")
    else if o.StatefulSetObj? && o.statefulSet.replicas.Some? && o.statefulSet.replicas.value < 0 then
      Some("replicas < 0")
    else None
  }

  /** The API server accepts `o` in namespace `ns` and stores it under its own key. */
  predicate Admitted(ns: string, o: Object) {
    Validate(ns, o).None? && KeyOf(o) == RequestKey(ns, o)
  }

  /** The object as the API server stores it: namespace filled in and, for a
      statefulset, replicas defaulted to 1. */
  function Stored(ns: string, o: Object): (r: Object)
    ensures KeyOf(r) == RequestKey(ns, o)
  {
    var placed := o.WithMeta(o.Meta().(namespace := ns));
    match placed
    case StatefulSetObj(s) =>
      if s.replicas.None? then StatefulSetObj(s.(replicas := Some(1))) else placed
    case _ => placed
  }

  /** What holds of every object in the store. */
  ghost predicate Settled(o: Object) {
    o.StatefulSetObj? ==> o.statefulSet.replicas.Some? && o.statefulSet.replicas.value >= 0
  }

  ghost predicate WellFormed(objects: Store) {
    forall k | k in objects :: KeyOf(objects[k]) == k && Settled(objects[k])
  }

  function CreateOutcome(objects: Store, faults: Faults, ns: string, o: Object): Result<Object, ApiError> {
    var key := RequestKey(ns, o);
    if Validate(ns, o).Some? then Err(Rejected(Validate(ns, o).value))
    else if CreateCall(key) in faults then Err(Rejected(faults[CreateCall(key)]))
    else if key in objects then Err(AlreadyExistsError)
    else Ok(Stored(ns, o))
  }

  function AfterCreate(objects: Store, faults: Faults, ns: string, o: Object): Store {
    if CreateOutcome(objects, faults, ns, o).Ok? then objects[RequestKey(ns, o) := Stored(ns, o)] else objects
  }

  function GetOutcome(objects: Store, faults: Faults, key: ObjKey): Result<Object, ApiError> {
    if GetCall(key) in faults then Err(Rejected(faults[GetCall(key)]))
    else if key !in objects then Err(NotFoundError)
    else Ok(objects[key])
  }

  function UpdateOutcome(objects: Store, faults: Faults, ns: string, o: Object): Result<Object, ApiError> {
    var key := RequestKey(ns, o);
    if Validate(ns, o).Some? then Err(Rejected(Validate(ns, o).value))
    else if UpdateCall(key) in faults then Err(Rejected(faults[UpdateCall(key)]))
    else if key !in objects then Err(NotFoundError)
    else Ok(Stored(ns, o))
  }

  function AfterUpdate(objects: Store, faults: Faults, ns: string, o: Object): Store {
    if UpdateOutcome(objects, faults, ns, o).Ok? then objects[RequestKey(ns, o) := Stored(ns, o)] else objects
  }

  /** The error a delete returns, or None when it succeeds. */
  function DeleteOutcome(objects: Store, faults: Faults, key: ObjKey): Option<ApiError> {
    if DeleteCall(key) in faults then Some(Rejected(faults[DeleteCall(key)]))
    else if key !in objects then Some(NotFoundError)
    else None
  }

  function AfterDelete(objects: Store, faults: Faults, key: ObjKey): (r: Store)
    ensures key !in r || DeleteCall(key) in faults
    ensures forall k | k in objects && k != key :: k in r && r[k] == objects[k]
    ensures forall k | k in r :: k in objects
  {
    if DeleteOutcome(objects, faults, key).None? then objects - {key} else objects
  }

  predicate Selects(sel: Selector, labels: Labels) {
    sel.key in labels && labels[sel.key] == sel.value
  }

  /** The keys a list call with this kind, namespace and selector returns. */
  function Matching(objects: Store, kind: Kind, ns: string, sel: Selector): set<ObjKey> {
    set k | k in objects && k.kind == kind && k.namespace == ns && Selects(sel, objects[k].Meta().labels)
  }

  /** The keys of a sequence of objects. */
  function KeysOf(items: seq<Object>): set<ObjKey> {
    set i | 0 <= i < |items| :: KeyOf(items[i])
  }

  /** `items` lists the objects stored under `keys`, each exactly once, in some order. */
  ghost predicate Enumerates(items: seq<Object>, objects: Store, keys: set<ObjKey>) {
    && KeysOf(items) == keys
    && (forall i | 0 <= i < |items| :: KeyOf(items[i]) in objects && objects[KeyOf(items[i])] == items[i])
    && (forall i, j | 0 <= i < j < |items| :: KeyOf(items[i]) != KeyOf(items[j]))
  }

  /** The create calls for the first n objects of a sequence. */
  function CreateCalls(ns: string, plan: seq<Object>, n: nat): (calls: seq<ApiCall>)
    requires n <= |plan|
    ensures |calls| == n
  {
    seq(n, i requires 0 <= i < n => CreateCall(RequestKey(ns, plan[i])))
  }

  lemma CreateCallsNext(ns: string, plan: seq<Object>, n: nat)
    requires n < |plan|
    ensures CreateCalls(ns, plan, n + 1) == CreateCalls(ns, plan, n) + [CreateCall(RequestKey(ns, plan[n]))]
  {
  }

  /** Deletes `keys` in order, every error ignored: a key leaves the store
      unless its delete is refused. */
  function DeleteAll(objects: Store, faults: Faults, keys: seq<ObjKey>): (r: Store)
    ensures forall key :: key in r <==> key in objects && (key !in keys || DeleteCall(key) in faults)
    ensures forall key | key in r :: r[key] == objects[key]
  {
    if keys == [] then objects
    else DeleteAll(AfterDelete(objects, faults, keys[0]), faults, keys[1..])
  }

  /** One delete is a pass over a single key. */
  lemma DeleteOne(objects: Store, faults: Faults, key: ObjKey)
    ensures AfterDelete(objects, faults, key) == DeleteAll(objects, faults, [key])
  {
    assert [key][1..] == [];
  }

  /** Two passes delete what one pass over both key sequences deletes. */
  lemma DeleteAllAppend(objects: Store, faults: Faults, a: seq<ObjKey>, b: seq<ObjKey>)
    ensures DeleteAll(DeleteAll(objects, faults, a), faults, b) == DeleteAll(objects, faults, a + b)
  {
    var left := DeleteAll(DeleteAll(objects, faults, a), faults, b);
    var right := DeleteAll(objects, faults, a + b);
    assert forall key :: key in a + b <==> key in a || key in b;
    assert forall key | key in left :: key in right;
    assert forall key | key in right :: key in left;
  }

  /** The delete calls for a sequence of keys. */
  function DeleteCalls(keys: seq<ObjKey>): (calls: seq<ApiCall>)
    ensures |calls| == |keys|
  {
    seq(|keys|, i requires 0 <= i < |keys| => DeleteCall(keys[i]))
  }

  class Cluster {
    var objects: Store
    var faults: Faults
    ghost var trace: seq<ApiCall>

    ghost predicate Valid()
      reads this
    {
      WellFormed(objects)
    }

    constructor (objects: Store, faults: Faults)
      requires WellFormed(objects)
      ensures Valid()
      ensures this.objects == objects && this.faults == faults && trace == []
    {
      this.objects := objects;
      this.faults := faults;
      trace := [];
    }

    method Create(ns: string, o: Object) returns (r: Result<Object, ApiError>)
      requires Valid()
      modifies this`objects, this`trace
      ensures Valid()
      ensures r == CreateOutcome(old(objects), faults, ns, o)
      ensures objects == AfterCreate(old(objects), faults, ns, o)
      ensures trace == old(trace) + [CreateCall(RequestKey(ns, o))]
    {
      r := CreateOutcome(objects, faults, ns, o);
      objects := AfterCreate(objects, faults, ns, o);
      trace := trace + [CreateCall(RequestKey(ns, o))];
    }

    method Get(key: ObjKey) returns (r: Result<Object, ApiError>)
      requires Valid()
      modifies this`trace
      ensures r == GetOutcome(objects, faults, key)
      ensures r.Ok? ==> KeyOf(r.value) == key && Settled(r.value)
      ensures trace == old(trace) + [GetCall(key)]
    {
      r := GetOutcome(objects, faults, key);
      trace := trace + [GetCall(key)];
    }

    method Update(ns: string, o: Object) returns (r: Result<Object, ApiError>)
      requires Valid()
      modifies this`objects, this`trace
      ensures Valid()
      ensures r == UpdateOutcome(old(objects), faults, ns, o)
      ensures objects == AfterUpdate(old(objects), faults, ns, o)
      ensures trace == old(trace) + [UpdateCall(RequestKey(ns, o))]
    {
      r := UpdateOutcome(objects, faults, ns, o);
      objects := AfterUpdate(objects, faults, ns, o);
      trace := trace + [UpdateCall(RequestKey(ns, o))];
    }

    method Delete(key: ObjKey) returns (err: Option<ApiError>)
      requires Valid()
      modifies this`objects, this`trace
      ensures Valid()
      ensures err == DeleteOutcome(old(objects), faults, key)
      ensures objects == AfterDelete(old(objects), faults, key)
      ensures trace == old(trace) + [DeleteCall(key)]
    {
      err := DeleteOutcome(objects, faults, key);
      objects := AfterDelete(objects, faults, key);
      trace := trace + [DeleteCall(key)];
    }

    /** A list call: the matching objects in an order the caller cannot rely on. */
    method List(kind: Kind, ns: string, sel: Selector) returns (r: Result<seq<Object>, ApiError>)
      requires Valid()
      modifies this`trace
      ensures trace == old(trace) + [ListCall(kind, ns, sel)]
      ensures ListCall(kind, ns, sel) in faults ==> r == Err(Rejected(faults[ListCall(kind, ns, sel)]))
      ensures ListCall(kind, ns, sel) !in faults ==>
        r.Ok? && Enumerates(r.value, objects, Matching(objects, kind, ns, sel))
    {
      trace := trace + [ListCall(kind, ns, sel)];
      if ListCall(kind, ns, sel) in faults {
        return Err(Rejected(faults[ListCall(kind, ns, sel)]));
      }
      var matching := Matching(objects, kind, ns, sel);
      var remaining := matching;
      var items: seq<Object> := [];
      while remaining != {}
        invariant remaining <= matching
        invariant KeysOf(items) == matching - remaining
        invariant forall i | 0 <= i < |items| :: KeyOf(items[i]) in objects && objects[KeyOf(items[i])] == items[i]
        invariant forall i, j | 0 <= i < j < |items| :: KeyOf(items[i]) != KeyOf(items[j])
        decreases remaining
      {
        var k :| k in remaining;
        assert KeysOf(items + [objects[k]]) == KeysOf(items) + {k} by {
          var next := items + [objects[k]];
          assert forall i | 0 <= i < |items| :: next[i] == items[i];
          assert next[|items|] == objects[k];
        }
        items := items + [objects[k]];
        remaining := remaining - {k};
      }
      return Ok(items);
    }
  }

  /** Deletes a sequence of keys, every error ignored. */
  method DeleteIgnoringErrors(cluster: Cluster, keys: seq<ObjKey>)
    requires cluster.Valid()
    modifies cluster`objects, cluster`trace
    ensures cluster.Valid()
    ensures cluster.objects == DeleteAll(old(cluster.objects), cluster.faults, keys)
    ensures cluster.trace == old(cluster.trace) + DeleteCalls(keys)
  {
    ghost var trace0 := cluster.trace;
    var k := 0;
    while k < |keys|
      invariant 0 <= k <= |keys|
      invariant cluster.Valid()
      invariant cluster.faults == old(cluster.faults)
      invariant DeleteAll(old(cluster.objects), cluster.faults, keys) == DeleteAll(cluster.objects, cluster.faults, keys[k..])
      invariant cluster.trace == trace0 + DeleteCalls(keys[..k])
    {
      assert keys[k..][1..] == keys[k + 1..];
      assert DeleteCalls(keys[..k + 1]) == DeleteCalls(keys[..k]) + [DeleteCall(keys[k])];
      var _ := cluster.Delete(keys[k]);
      k := k + 1;
    }
    assert keys[..k] == keys;
  }
}

=== FILE: kube_clusters.dfy ===
/** The older cluster lifecycle: CreateCluster builds a cluster's five
    objects one after another and records each one the control plane
    returns; DeleteCluster removes the statefulset, sweeps the services,
    the scripts config map and the secret, and then the storage claims the
    cluster's label selects. It also holds the two container builders and
    the claim templates. */
module KubeClusters {
  import opened Common
  import opened KubeObjects
  import opened KubeCluster
  import opened KubeTypes

  /** The label every object of a cluster carries: app=<cluster name>. */
  function ClusterLabels(name: string): Labels {
    map["app" := name]
  }

  function SecretsName(name: string): string { name + "-secrets" }
  function ExternalName(name: string): string { name + "-external" }
  function ScriptsName(name: string): string { name + "-scripts" }

  // ---------------------------------------------------------------------
  // The objects of a cluster

  function ScriptsConfigMapFor(res: ClusterKubeResources): Object {
    ConfigMapObj(ConfigMap(Named(res.scriptsConfig), map["entrypoint.sh" := "...", "configure-ipfs.sh" := "..."]))
  }

  function ClusterSecretFor(res: ClusterKubeResources, clusterSecret: string, privKey: string): Object {
    SecretObj(Secret(
      Named(SecretsName(res.clusterName)),
      SecretTypeOpaque,
      map["cluster-secret" := clusterSecret, "bootstrap-peer-priv" := privKey]))
  }

  function HeadlessServiceFor(res: ClusterKubeResources): Object {
    ServiceObj(Service(
      Named(res.clusterName), ClusterIPNone, "", ClusterLabels(res.clusterName),
      [ServicePort("cluster-swarm", 9096, None, Unset)]))
  }

  function ExternalServiceFor(res: ClusterKubeResources): Object {
    ServiceObj(Service(
      Named(ExternalName(res.clusterName)), "", res.serviceType, ClusterLabels(res.clusterName),
      [ServicePort("swarm", 4001, None, Unset), ServicePort("api", 5001, None, Unset), ServicePort("gateway", 8080, None, Unset)]))
  }

  /** The two claim templates: IPFS storage and cluster storage. */
  function BuildPVCs(res: ClusterKubeResources): seq<PersistentVolumeClaim> {
    [
      PersistentVolumeClaim(
        ObjectMeta("ipfs-storage", "", map["app" := res.clusterName, "role" := "ipfs"]),
        [ReadWriteOnce], Some(res.storageClass), res.ipfsStorageSize),
      PersistentVolumeClaim(
        ObjectMeta("cluster-storage", "", map["app" := res.clusterName, "role" := "cluster"]),
        [ReadWriteOnce], Some(res.storageClass), res.clusterStorageSize)
    ]
  }

  /** A statefulset of one replica with an empty pod spec: the containers
      of further nodes are added to its template later. */
  function StatefulSetFor(res: ClusterKubeResources): Object {
    StatefulSetObj(StatefulSet(
      Named(res.clusterName),
      res.clusterName,
      Some(1),
      ClusterLabels(res.clusterName),
      PodTemplate(ClusterLabels(res.clusterName), PodSpec([], [], [])),
      BuildPVCs(res)))
  }

  /** The five objects CreateCluster creates, in order. */
  function ClusterPlan(res: ClusterKubeResources, clusterSecret: string, privKey: string): seq<Object> {
    [
      ScriptsConfigMapFor(res),
      ClusterSecretFor(res, clusterSecret, privKey),
      HeadlessServiceFor(res),
      ExternalServiceFor(res),
      StatefulSetFor(res)
    ]
  }

  /** The keys the five creates address, in order, and they are distinct. */
  lemma ClusterPlanKeys(res: ClusterKubeResources, ns: string, clusterSecret: string, privKey: string)
    ensures var plan := ClusterPlan(res, clusterSecret, privKey);
      && (seq(5, i requires 0 <= i < 5 => RequestKey(ns, plan[i]))) == [
        ObjKey(ConfigMapKind, ns, res.scriptsConfig),
        ObjKey(SecretKind, ns, SecretsName(res.clusterName)),
        ObjKey(ServiceKind, ns, res.clusterName),
        ObjKey(ServiceKind, ns, ExternalName(res.clusterName)),
        ObjKey(StatefulSetKind, ns, res.clusterName)]
      && (forall i, j | 0 <= i < j < 5 :: RequestKey(ns, plan[i]) != RequestKey(ns, plan[j]))
  {
    var name := res.clusterName;
    assert |ExternalName(name)| > |name|;
  }

  /** The API server accepts every object of the plan exactly when the
      scripts config map and the cluster have names. */
  lemma ClusterPlanValid(res: ClusterKubeResources, ns: string, clusterSecret: string, privKey: string)
    ensures var plan := ClusterPlan(res, clusterSecret, privKey);
      (forall i | 0 <= i < |plan| :: Validate(ns, plan[i]).None?)
      <==> res.scriptsConfig != "" && res.clusterName != ""
  {
    var plan := ClusterPlan(res, clusterSecret, privKey);
    if res.scriptsConfig == "" {
      assert Validate(ns, plan[0]).Some?;
    } else if res.clusterName == "" {
      assert Validate(ns, plan[2]).Some?;
    } else {
      forall i | 0 <= i < |plan|
        ensures Validate(ns, plan[i]).None?
      {
        assert plan[i].Meta().name != "" && plan[i].Meta().namespace == "";
      }
    }
  }

  /** Both services and the statefulset select the pods the statefulset's
      template labels, the statefulset is governed by the headless service
      and starts with one replica. */
  lemma ClusterSelectorsAgree(res: ClusterKubeResources)
    ensures var sts := StatefulSetFor(res).statefulSet;
      && sts.selector == sts.template.labels == ClusterLabels(res.clusterName)
      && HeadlessServiceFor(res).service.selector == sts.selector
      && ExternalServiceFor(res).service.selector == sts.selector
      && sts.serviceName == HeadlessServiceFor(res).service.meta.name
      && sts.replicas == Some(1)
      && HeadlessServiceFor(res).service.clusterIP == ClusterIPNone
  {
  }

  /** The selector DeleteCluster lists storage claims with. */
  function ClaimSelector(name: string): Selector {
    Selector("app", name)
  }

  /** There are two claim templates, one for IPFS storage and one for
      cluster storage, each sized from its own field. Both carry the
      cluster's label, so the claims the controller stamps out from them are
      the ones DeleteCluster lists. */
  lemma ClaimsSelectedForDeletion(res: ClusterKubeResources)
    ensures var claims := BuildPVCs(res);
      && |claims| == 2
      && claims[0].meta.name == "ipfs-storage" && claims[0].storage == res.ipfsStorageSize
      && claims[0].meta.labels == map["app" := res.clusterName, "role" := "ipfs"]
      && claims[1].meta.name == "cluster-storage" && claims[1].storage == res.clusterStorageSize
      && claims[1].meta.labels == map["app" := res.clusterName, "role" := "cluster"]
    ensures forall c | c in BuildPVCs(res) ::
      && Selects(ClaimSelector(res.clusterName), c.meta.labels)
      && c.accessModes == [ReadWriteOnce]
      && c.storageClass == Some(res.storageClass)
    ensures BuildPVCs(res)[0].meta.name != BuildPVCs(res)[1].meta.name
  {
  }

  // ---------------------------------------------------------------------
  // The containers of a node

  /** role=bootstrap, a missing label reading as "". */
  predicate IsBootstrapLabel(labels: Labels) {
    "role" in labels && labels["role"] == "bootstrap"
  }

  function IpfsContainer(cluster: ClusterKubeResources, node: NodeKubeResources): Container {
    Container(
      "ipfs",
      cluster.ipfsImage,
      [],
      [],
      [ConfigMapEnv(cluster.envConfig), SecretEnv(SecretsName(cluster.clusterName))],
      [
        ContainerPort("swarm-tcp", ToInt32(node.ports.swarmTcp), Unset),
        ContainerPort("swarm-udp", ToInt32(node.ports.swarmUdp), UDP),
        ContainerPort("api", ToInt32(node.ports.api), Unset),
        ContainerPort("gateway", ToInt32(node.ports.httpGateway), Unset),
        ContainerPort("ws", ToInt32(node.ports.ws), Unset)
      ],
      [VolumeMount("ipfs-storage", "/data/ipfs"), VolumeMount("scripts", "/scripts")],
      Some(HttpGetProbe("/api/v0/id", ToInt32(node.ports.api), 10, 10)))
  }

  function IpfsClusterContainer(cluster: ClusterKubeResources, node: NodeKubeResources): Container {
    Container(
      "ipfs-cluster",
      cluster.ipfsClusterImage,
      [],
      [
        EnvVar("CLUSTER_PEERNAME", Literal(node.nodeName)),
        EnvVar("CLUSTER_BOOTSTRAP", Literal(FormatBool(IsBootstrapLabel(node.labels))))
      ],
      [SecretEnv(SecretsName(cluster.clusterName))],
      [
        ContainerPort("cluster-api", ToInt32(node.ports.clusterApi), Unset),
        ContainerPort("cluster-proxy", ToInt32(node.ports.clusterProxy), Unset),
        ContainerPort("cluster-swarm", ToInt32(node.ports.clusterSwarm), Unset)
      ],
      [VolumeMount("cluster-storage", "/data/ipfs-cluster")],
      None)
  }

  /** The IPFS container declares the node's five IPFS ports, only the UDP
      swarm port with the UDP protocol. Its readiness probe asks /api/v0/id
      every 10 seconds after 10 seconds, on the port the container declares
      as "api"; for a port number that fits in 32 bits that is the node's
      API port. */
  lemma ProbeTargetsApiPort(cluster: ClusterKubeResources, node: NodeKubeResources)
    ensures var c := IpfsContainer(cluster, node);
      && |c.ports| == 5
      && c.ports[0].name == "swarm-tcp" && c.ports[0].port == ToInt32(node.ports.swarmTcp)
      && c.ports[1].name == "swarm-udp" && c.ports[1].port == ToInt32(node.ports.swarmUdp)
      && c.ports[2].name == "api" && c.ports[2].port == ToInt32(node.ports.api)
      && c.ports[3].name == "gateway" && c.ports[3].port == ToInt32(node.ports.httpGateway)
      && c.ports[4].name == "ws" && c.ports[4].port == ToInt32(node.ports.ws)
      && (forall i | 0 <= i < 5 :: c.ports[i].protocol == UDP <==> c.ports[i].name == "swarm-udp")
    ensures var c := IpfsContainer(cluster, node);
      && c.readinessProbe.Some?
      && c.readinessProbe.value.path == "/api/v0/id"
      && c.readinessProbe.value.initialDelaySeconds == 10 && c.readinessProbe.value.periodSeconds == 10
      && (exists i | 0 <= i < |c.ports| :: c.ports[i].name == "api" && c.ports[i].port == c.readinessProbe.value.port)
      && (Int32Min <= node.ports.api <= Int32Max ==> c.readinessProbe.value.port == node.ports.api)
  {
    var c := IpfsContainer(cluster, node);
    assert c.ports[2].name == "api";
  }

  /** The cluster container starts as the bootstrap peer exactly when the
      node is labelled role=bootstrap, and names the peer after the node. */
  lemma BootstrapFlag(cluster: ClusterKubeResources, node: NodeKubeResources)
    ensures var env := IpfsClusterContainer(cluster, node).env;
      && (EnvVar("CLUSTER_BOOTSTRAP", Literal("true")) in env <==> IsBootstrapLabel(node.labels))
      && (EnvVar("CLUSTER_BOOTSTRAP", Literal("false")) in env <==> !IsBootstrapLabel(node.labels))
      && EnvVar("CLUSTER_PEERNAME", Literal(node.nodeName)) in env
  {
    var env := IpfsClusterContainer(cluster, node).env;
    assert env[1] == EnvVar("CLUSTER_BOOTSTRAP", Literal(FormatBool(IsBootstrapLabel(node.labels))));
  }

  /** Both containers read their secrets from the secret CreateCluster
      creates for the same cluster. */
  lemma ContainersReadClusterSecret(cluster: ClusterKubeResources, node: NodeKubeResources, ns: string, clusterSecret: string, privKey: string)
    ensures var secretKey := RequestKey(ns, ClusterPlan(cluster, clusterSecret, privKey)[1]);
      && secretKey.kind == SecretKind
      && SecretEnv(secretKey.name) in IpfsContainer(cluster, node).envFrom
      && SecretEnv(secretKey.name) in IpfsClusterContainer(cluster, node).envFrom
  {
    assert IpfsContainer(cluster, node).envFrom[1] == SecretEnv(SecretsName(cluster.clusterName));
    assert IpfsClusterContainer(cluster, node).envFrom[0] == SecretEnv(SecretsName(cluster.clusterName));
  }

  /** Every storage mount of the two containers is backed by a claim
      template of the same name; only the scripts mount is not. */
  lemma ClaimsBackStorageMounts(cluster: ClusterKubeResources, node: NodeKubeResources)
    ensures var mounts := IpfsContainer(cluster, node).volumeMounts + IpfsClusterContainer(cluster, node).volumeMounts;
      forall m | m in mounts ::
        (exists c | c in BuildPVCs(cluster) :: c.meta.name == m.name) <==> m.name != "scripts"
  {
    var claims := BuildPVCs(cluster);
    assert claims[0].meta.name == "ipfs-storage";
    assert claims[1].meta.name == "cluster-storage";
  }

  // ---------------------------------------------------------------------
  // CreateCluster

  datatype ClusterError = ApiFailed(error: ApiError) | SecretGenerationFailed | KeyGenerationFailed

  /** The result of creating a cluster's plan: the store afterwards, how
      many objects were created, and the error that stopped the sequence. */
  datatype ClusterRun = ClusterRun(objects: Store, created: nat, error: Option<ClusterError>)

  /** The step that first needs the generated secrets: the secret create. */
  const SecretStep: nat := 1

  /** The error of the secret and key generators, checked in that order. */
  function GenerationError(clusterSecret: Option<string>, privKey: Option<string>): (r: Option<ClusterError>)
    ensures r.None? <==> clusterSecret.Some? && privKey.Some?
  {
    if clusterSecret.None? then Some(SecretGenerationFailed)
    else if privKey.None? then Some(KeyGenerationFailed)
    else None
  }

  /** Creates plan[k..] in order. A generator error stops the sequence
      before the secret step; any create error, "already exists" included,
      stops it where it occurs. */
  function CreateClusterFrom(objects: Store, faults: Faults, ns: string, plan: seq<Object>, k: nat, genError: Option<ClusterError>)
    : (r: ClusterRun)
    requires k <= |plan|
    ensures k <= r.created <= |plan|
    ensures r.error.None? <==> r.created == |plan|
    ensures genError.Some? && k <= SecretStep < |plan| ==> r.created <= SecretStep && r.error.Some?
    ensures forall key | key in objects :: key in r.objects && r.objects[key] == objects[key]
    decreases |plan| - k
  {
    if k == |plan| then ClusterRun(objects, k, None)
    else if k == SecretStep && genError.Some? then ClusterRun(objects, k, genError)
    else
      match CreateOutcome(objects, faults, ns, plan[k])
      case Err(e) => ClusterRun(objects, k, Some(ApiFailed(e)))
      case Ok(_) => CreateClusterFrom(AfterCreate(objects, faults, ns, plan[k]), faults, ns, plan, k + 1, genError)
  }

  /** The calls a run issues: one create per created object, and the create
      that failed when the control plane refused one. */
  function ClusterCalls(ns: string, plan: seq<Object>, run: ClusterRun): seq<ApiCall>
    requires run.created <= |plan|
    requires run.error.Some? ==> run.created < |plan|
  {
    CreateCalls(ns, plan, if run.error.Some? && run.error.value.ApiFailed? then run.created + 1 else run.created)
  }

  /** The resources record with the k-th created object filled in. */
  function Record(res: ClusterKubeResources, k: nat, o: Object): ClusterKubeResources {
    match o
    case ConfigMapObj(cm) => if k == 0 then res.(scriptsConfigMap := Some(cm)) else res
    case SecretObj(s) => if k == 1 then res.(clusterSecret := Some(s)) else res
    case ServiceObj(s) =>
      if k == 2 then res.(headlessService := Some(s))
      else if k == 3 then res.(externalService := Some(s))
      else res
    case StatefulSetObj(s) => if k == 4 then res.(statefulSet := Some(s)) else res
    case _ => res
  }

  /** The record after the first n objects of the plan were created, each
      filled in by `record` in creation order. */
  function Recorded<R>(record: (R, nat, Object) -> R, res: R, ns: string, plan: seq<Object>, n: nat): R
    requires n <= |plan|
  {
    if n == 0 then res else record(Recorded(record, res, ns, plan, n - 1), n - 1, Stored(ns, plan[n - 1]))
  }

  /** Step k of the sequence: the generator check before the secret step,
      then one create. The ghost parameters place the step in the plan. */
  method CreateClusterStep<R>(cluster: Cluster, ns: string, plan: seq<Object>, k: nat, genError: Option<ClusterError>,
                              record: (R, nat, Object) -> R, out: R, ghost res: R, ghost trace0: seq<ApiCall>)
    returns (next: R, err: Option<ClusterError>)
    requires cluster.Valid()
    requires k < |plan|
    requires out == Recorded(record, res, ns, plan, k)
    requires genError.Some? ==> !genError.value.ApiFailed?
    requires cluster.trace == trace0 + CreateCalls(ns, plan, k)
    modifies cluster`objects, cluster`trace
    ensures cluster.Valid()
    ensures err.Some? ==>
      && CreateClusterFrom(old(cluster.objects), cluster.faults, ns, plan, k, genError) == ClusterRun(cluster.objects, k, err)
      && cluster.trace == trace0 + ClusterCalls(ns, plan, ClusterRun(cluster.objects, k, err))
    ensures err.Some? ==> next == out
    ensures err.None? ==>
      && next == Recorded(record, res, ns, plan, k + 1)
      && CreateClusterFrom(old(cluster.objects), cluster.faults, ns, plan, k, genError)
         == CreateClusterFrom(cluster.objects, cluster.faults, ns, plan, k + 1, genError)
      && cluster.trace == trace0 + CreateCalls(ns, plan, k + 1)
  {
    if k == SecretStep && genError.Some? {
      assert ClusterCalls(ns, plan, ClusterRun(cluster.objects, k, genError)) == CreateCalls(ns, plan, k);
      return out, genError;
    }
    var r := cluster.Create(ns, plan[k]);
    CreateCallsNext(ns, plan, k);
    assert cluster.trace == trace0 + CreateCalls(ns, plan, k + 1);
    if r.Err? {
      assert ClusterCalls(ns, plan, ClusterRun(cluster.objects, k, Some(ApiFailed(r.error)))) == CreateCalls(ns, plan, k + 1);
      return out, Some(ApiFailed(r.error));
    }
    assert r.value == Stored(ns, plan[k]);
    next := record(out, k, r.value);
    assert next == Recorded(record, res, ns, plan, k + 1);
    return next, None;
  }

  /** Creates the objects of a plan in order, recording each one the
      control plane returns; a generator error stops the sequence at the
      secret step and any create error where it occurs. */
  method ApplyClusterPlan<R>(cluster: Cluster, ns: string, plan: seq<Object>, record: (R, nat, Object) -> R, res: R, genError: Option<ClusterError>)
    returns (out: R, err: Option<ClusterError>, ghost run: ClusterRun)
    requires cluster.Valid()
    requires genError.Some? ==> !genError.value.ApiFailed?
    modifies cluster`objects, cluster`trace
    ensures cluster.Valid()
    ensures run == CreateClusterFrom(old(cluster.objects), cluster.faults, ns, plan, 0, genError)
    ensures err == run.error && cluster.objects == run.objects
    ensures out == Recorded(record, res, ns, plan, run.created)
    ensures cluster.trace == old(cluster.trace) + ClusterCalls(ns, plan, run)
  {
    ghost var trace0 := cluster.trace;
    run := CreateClusterFrom(cluster.objects, cluster.faults, ns, plan, 0, genError);
    out := res;
    err := None;
    var k := 0;
    while k < |plan|
      invariant 0 <= k <= |plan|
      invariant cluster.Valid()
      invariant err.None?
      invariant run == CreateClusterFrom(cluster.objects, cluster.faults, ns, plan, k, genError)
      invariant out == Recorded(record, res, ns, plan, k)
      invariant cluster.trace == trace0 + CreateCalls(ns, plan, k)
    {
      out, err := CreateClusterStep(cluster, ns, plan, k, genError, record, out, res, trace0);
      if err.Some? {
        break;
      }
      k := k + 1;
    }
  }

  /** Creates the cluster's five objects in order and records each one the
      control plane returns; on the first error it returns the record as
      far as it got, with the error. */
  method CreateCluster(cluster: Cluster, ns: string, res: ClusterKubeResources, clusterSecret: Option<string>, privKey: Option<string>)
    returns (out: ClusterKubeResources, err: Option<ClusterError>)
    requires cluster.Valid()
    modifies cluster`objects, cluster`trace
    ensures cluster.Valid()
    ensures var plan := ClusterPlan(res, clusterSecret.GetOr(""), privKey.GetOr(""));
      var run := CreateClusterFrom(old(cluster.objects), cluster.faults, ns, plan, 0, GenerationError(clusterSecret, privKey));
      && err == run.error
      && cluster.objects == run.objects
      && out == Recorded(Record, res, ns, plan, run.created)
      && cluster.trace == old(cluster.trace) + ClusterCalls(ns, plan, run)
  {
    var plan := ClusterPlan(res, clusterSecret.GetOr(""), privKey.GetOr(""));
    ghost var run;
    out, err, run := ApplyClusterPlan(cluster, ns, plan, Record, res, GenerationError(clusterSecret, privKey));
  }

  /** The record names exactly the objects that were created: the first n
      fields in creation order hold what the control plane stored, the
      others and every setting are left as they were. */
  lemma RecordedFields(res: ClusterKubeResources, ns: string, clusterSecret: string, privKey: string, n: nat)
    requires n <= 5
    ensures var plan := ClusterPlan(res, clusterSecret, privKey);
      Recorded(Record, res, ns, plan, n) == res.(
        scriptsConfigMap := if n > 0 then Some(Stored(ns, plan[0]).configMap) else res.scriptsConfigMap,
        clusterSecret := if n > 1 then Some(Stored(ns, plan[1]).secret) else res.clusterSecret,
        headlessService := if n > 2 then Some(Stored(ns, plan[2]).service) else res.headlessService,
        externalService := if n > 3 then Some(Stored(ns, plan[3]).service) else res.externalService,
        statefulSet := if n > 4 then Some(Stored(ns, plan[4]).statefulSet) else res.statefulSet)
  {
    var plan := ClusterPlan(res, clusterSecret, privKey);
    if n > 0 {
      RecordedFields(res, ns, clusterSecret, privKey, n - 1);
    }
  }

  /** Creating into a store that holds none of the plan's keys, with every
      object admitted and no create refused, creates all of them. */
  lemma {:induction false} CreateClusterFromAllAbsent(objects: Store, faults: Faults, ns: string, plan: seq<Object>, k: nat)
    requires k <= |plan|
    requires forall i | k <= i < |plan| ::
      Validate(ns, plan[i]).None? && CreateCall(RequestKey(ns, plan[i])) !in faults && RequestKey(ns, plan[i]) !in objects
    requires forall i, j | k <= i < j < |plan| :: RequestKey(ns, plan[i]) != RequestKey(ns, plan[j])
    ensures var r := CreateClusterFrom(objects, faults, ns, plan, k, None);
      && r.error.None?
      && (forall i | k <= i < |plan| :: RequestKey(ns, plan[i]) in r.objects && r.objects[RequestKey(ns, plan[i])] == Stored(ns, plan[i]))
    decreases |plan| - k
  {
    if k < |plan| {
      var next := AfterCreate(objects, faults, ns, plan[k]);
      assert CreateOutcome(objects, faults, ns, plan[k]).Ok?;
      CreateClusterFromAllAbsent(next, faults, ns, plan, k + 1);
    }
  }

  /** With both generators working, every object admitted and none of the
      five keys taken or refused, CreateCluster creates the whole cluster
      and its record holds all five objects. */
  lemma CreateClusterSucceeds(objects: Store, faults: Faults, ns: string, res: ClusterKubeResources, clusterSecret: string, privKey: string)
    requires res.scriptsConfig != "" && res.clusterName != ""
    requires var plan := ClusterPlan(res, clusterSecret, privKey);
      forall i | 0 <= i < 5 :: RequestKey(ns, plan[i]) !in objects && CreateCall(RequestKey(ns, plan[i])) !in faults
    ensures var plan := ClusterPlan(res, clusterSecret, privKey);
      var run := CreateClusterFrom(objects, faults, ns, plan, 0, GenerationError(Some(clusterSecret), Some(privKey)));
      var out := Recorded(Record, res, ns, plan, run.created);
      && run.error.None?
      && out.scriptsConfigMap.Some? && out.clusterSecret.Some? && out.headlessService.Some?
      && out.externalService.Some? && out.statefulSet.Some?
      && (forall i | 0 <= i < 5 :: RequestKey(ns, plan[i]) in run.objects && run.objects[RequestKey(ns, plan[i])] == Stored(ns, plan[i]))
  {
    var plan := ClusterPlan(res, clusterSecret, privKey);
    ClusterPlanValid(res, ns, clusterSecret, privKey);
    ClusterPlanKeys(res, ns, clusterSecret, privKey);
    CreateClusterFromAllAbsent(objects, faults, ns, plan, 0);
    RecordedFields(res, ns, clusterSecret, privKey, 5);
  }

  /** A failed generator leaves at most the scripts config map behind and
      the record holds nothing but it. */
  lemma GenerationFailureStopsEarly(objects: Store, faults: Faults, ns: string, res: ClusterKubeResources, clusterSecret: Option<string>, privKey: Option<string>)
    requires GenerationError(clusterSecret, privKey).Some?
    ensures var plan := ClusterPlan(res, clusterSecret.GetOr(""), privKey.GetOr(""));
      var run := CreateClusterFrom(objects, faults, ns, plan, 0, GenerationError(clusterSecret, privKey));
      var out := Recorded(Record, res, ns, plan, run.created);
      && run.error.Some?
      && out.clusterSecret == res.clusterSecret && out.headlessService == res.headlessService
      && out.externalService == res.externalService && out.statefulSet == res.statefulSet
      && (forall key | key in run.objects && key !in objects :: key == RequestKey(ns, plan[0]))
  {
    var plan := ClusterPlan(res, clusterSecret.GetOr(""), privKey.GetOr(""));
    var genError := GenerationError(clusterSecret, privKey);
    var run := CreateClusterFrom(objects, faults, ns, plan, 0, genError);
    RecordedFields(res, ns, clusterSecret.GetOr(""), privKey.GetOr(""), run.created);
    if CreateOutcome(objects, faults, ns, plan[0]).Ok? {
      var next := AfterCreate(objects, faults, ns, plan[0]);
      assert run == CreateClusterFrom(next, faults, ns, plan, 1, genError);
      assert run == ClusterRun(next, 1, genError);
    }
  }

  // ---------------------------------------------------------------------
  // DeleteCluster

  function StatefulSetKey(ns: string, name: string): ObjKey {
    ObjKey(StatefulSetKind, ns, name)
  }

  /** What the sweep deletes, in order: both services, the scripts config
      map and the secret. */
  function SweepKeys(ns: string, name: string): seq<ObjKey> {
    [
      ObjKey(ServiceKind, ns, name),
      ObjKey(ServiceKind, ns, ExternalName(name)),
      ObjKey(ConfigMapKind, ns, ScriptsName(name)),
      ObjKey(SecretKind, ns, SecretsName(name))
    ]
  }

  function ClaimList(ns: string, name: string): ApiCall {
    ListCall(PVCKind, ns, ClaimSelector(name))
  }

  /** The keys of listed claims, addressed by their names in namespace ns. */
  function ClaimKeys(ns: string, claims: seq<Object>): (keys: seq<ObjKey>)
    ensures |keys| == |claims|
  {
    seq(|claims|, i requires 0 <= i < |claims| => ObjKey(PVCKind, ns, claims[i].Meta().name))
  }

  /** The store after the statefulset delete succeeded and the sweep ran. */
  function Swept(objects: Store, faults: Faults, ns: string, name: string): Store {
    DeleteAll(objects - {StatefulSetKey(ns, name)}, faults, SweepKeys(ns, name))
  }

  /** The claims a list returns: those in the store the selector matches. */
  ghost predicate ListedClaims(claims: seq<Object>, objects: Store, ns: string, name: string) {
    Enumerates(claims, objects, Matching(objects, PVCKind, ns, ClaimSelector(name)))
  }

  /** Deletes the statefulset with foreground propagation; its error, a
      missing statefulset included, is returned. */
  method DeleteStatefulSet(cluster: Cluster, ns: string, name: string) returns (err: Option<ApiError>)
    requires cluster.Valid()
    modifies cluster`objects, cluster`trace
    ensures cluster.Valid()
    ensures err == DeleteOutcome(old(cluster.objects), cluster.faults, StatefulSetKey(ns, name))
    ensures err.None? ==> cluster.objects == old(cluster.objects) - {StatefulSetKey(ns, name)}
    ensures err.Some? ==> cluster.objects == old(cluster.objects)
    ensures cluster.trace == old(cluster.trace) + [DeleteCall(StatefulSetKey(ns, name))]
  {
    err := cluster.Delete(StatefulSetKey(ns, name));
  }

  /** Deletes both services; errors are ignored. */
  method DeleteServices(cluster: Cluster, ns: string, name: string)
    requires cluster.Valid()
    modifies cluster`objects, cluster`trace
    ensures cluster.Valid()
    ensures cluster.objects == DeleteAll(old(cluster.objects), cluster.faults, SweepKeys(ns, name)[..2])
    ensures cluster.trace == old(cluster.trace) + DeleteCalls(SweepKeys(ns, name)[..2])
  {
    DeleteIgnoringErrors(cluster, [ObjKey(ServiceKind, ns, name), ObjKey(ServiceKind, ns, ExternalName(name))]);
  }

  /** Deletes the scripts config map; an error is ignored. */
  method DeleteConfigMaps(cluster: Cluster, ns: string, name: string)
    requires cluster.Valid()
    modifies cluster`objects, cluster`trace
    ensures cluster.Valid()
    ensures cluster.objects == AfterDelete(old(cluster.objects), cluster.faults, ObjKey(ConfigMapKind, ns, ScriptsName(name)))
    ensures cluster.trace == old(cluster.trace) + [DeleteCall(ObjKey(ConfigMapKind, ns, ScriptsName(name)))]
  {
    var _ := cluster.Delete(ObjKey(ConfigMapKind, ns, ScriptsName(name)));
  }

  /** Deletes the cluster secret; an error is ignored. */
  method DeleteSecrets(cluster: Cluster, ns: string, name: string)
    requires cluster.Valid()
    modifies cluster`objects, cluster`trace
    ensures cluster.Valid()
    ensures cluster.objects == AfterDelete(old(cluster.objects), cluster.faults, ObjKey(SecretKind, ns, SecretsName(name)))
    ensures cluster.trace == old(cluster.trace) + [DeleteCall(ObjKey(SecretKind, ns, SecretsName(name)))]
  {
    var _ := cluster.Delete(ObjKey(SecretKind, ns, SecretsName(name)));
  }

  /** Lists the claims labelled app=<name> and deletes each one, in the
      order of the list; a list error is returned, delete errors are not. */
  method DeletePVCs(cluster: Cluster, ns: string, name: string) returns (err: Option<ApiError>)
    requires cluster.Valid()
    modifies cluster`objects, cluster`trace
    ensures cluster.Valid()
    ensures ClaimList(ns, name) in cluster.faults ==>
      && err == Some(Rejected(cluster.faults[ClaimList(ns, name)]))
      && cluster.objects == old(cluster.objects)
      && cluster.trace == old(cluster.trace) + [ClaimList(ns, name)]
    ensures ClaimList(ns, name) !in cluster.faults ==>
      && err.None?
      && exists claims ::
        && ListedClaims(claims, old(cluster.objects), ns, name)
        && cluster.objects == DeleteAll(old(cluster.objects), cluster.faults, ClaimKeys(ns, claims))
        && cluster.trace == old(cluster.trace) + [ClaimList(ns, name)] + DeleteCalls(ClaimKeys(ns, claims))
  {
    var listed := cluster.List(PVCKind, ns, ClaimSelector(name));
    if listed.Err? {
      return Some(listed.error);
    }
    var claims := listed.value;
    assert ListedClaims(claims, old(cluster.objects), ns, name);
    DeleteIgnoringErrors(cluster, ClaimKeys(ns, claims));
    return None;
  }

  /** Deletes a cluster's objects. An error deleting the statefulset,
      "not found" included, is returned before anything else is touched;
      the sweep of services, config map and secret ignores its errors; a
      failed claim listing is returned. */
  method DeleteCluster(cluster: Cluster, ns: string, name: string) returns (err: Option<ApiError>)
    requires cluster.Valid()
    modifies cluster`objects, cluster`trace
    ensures cluster.Valid()
    ensures var sts := StatefulSetKey(ns, name);
      DeleteOutcome(old(cluster.objects), cluster.faults, sts).Some? ==>
        && err == DeleteOutcome(old(cluster.objects), cluster.faults, sts)
        && cluster.objects == old(cluster.objects)
        && cluster.trace == old(cluster.trace) + [DeleteCall(sts)]
    ensures var sts := StatefulSetKey(ns, name);
      var swept := Swept(old(cluster.objects), cluster.faults, ns, name);
      var calls := old(cluster.trace) + [DeleteCall(sts)] + DeleteCalls(SweepKeys(ns, name)) + [ClaimList(ns, name)];
      DeleteOutcome(old(cluster.objects), cluster.faults, sts).None? ==>
        && (ClaimList(ns, name) in cluster.faults ==>
          err == Some(Rejected(cluster.faults[ClaimList(ns, name)])) && cluster.objects == swept && cluster.trace == calls)
        && (ClaimList(ns, name) !in cluster.faults ==>
          && err.None?
          && exists claims ::
            && ListedClaims(claims, swept, ns, name)
            && cluster.objects == DeleteAll(swept, cluster.faults, ClaimKeys(ns, claims))
            && cluster.trace == calls + DeleteCalls(ClaimKeys(ns, claims)))
  {
    ghost var objects0 := cluster.objects;
    ghost var trace0 := cluster.trace;
    var stsErr := DeleteStatefulSet(cluster, ns, name);
    if stsErr.Some? {
      return stsErr;
    }
    ghost var trace1 := cluster.trace;
    DeleteServices(cluster, ns, name);
    DeleteConfigMaps(cluster, ns, name);
    DeleteSecrets(cluster, ns, name);
    ghost var keys := SweepKeys(ns, name);
    assert cluster.trace == trace1 + DeleteCalls(keys) by {
      assert DeleteCalls(keys) == DeleteCalls(keys[..2]) + [DeleteCall(keys[2]), DeleteCall(keys[3])];
    }
    assert cluster.objects == Swept(objects0, cluster.faults, ns, name) by {
      SweepInSteps(objects0 - {StatefulSetKey(ns, name)}, cluster.faults, ns, name);
    }
    err := DeletePVCs(cluster, ns, name);
  }

  /** The sweep in three steps deletes what one pass over its keys deletes. */
  lemma SweepInSteps(objects: Store, faults: Faults, ns: string, name: string)
    ensures var keys := SweepKeys(ns, name);
      AfterDelete(AfterDelete(DeleteAll(objects, faults, keys[..2]), faults, keys[2]), faults, keys[3])
      == DeleteAll(objects, faults, keys)
  {
    var keys := SweepKeys(ns, name);
    var first := DeleteAll(objects, faults, keys[..2]);
    DeleteOne(first, faults, keys[2]);
    DeleteOne(AfterDelete(first, faults, keys[2]), faults, keys[3]);
    DeleteAllAppend(objects, faults, keys[..2], [keys[2]]);
    DeleteAllAppend(objects, faults, keys[..2] + [keys[2]], [keys[3]]);
    assert keys[..2] + [keys[2]] + [keys[3]] == keys;
  }

  /** What DeleteCluster leaves, order-independent: with nothing refused,
      the statefulset, both services, the scripts config map, the secret and
      every claim labelled for the cluster are gone, and every other object
      is kept unchanged, whatever order the claims were listed in. */
  lemma DeleteClusterRemoves(objects: Store, faults: Faults, ns: string, name: string, claims: seq<Object>)
    requires DeleteCall(StatefulSetKey(ns, name)) !in faults && StatefulSetKey(ns, name) in objects
    requires forall key | key in SweepKeys(ns, name) :: DeleteCall(key) !in faults
    requires ListedClaims(claims, Swept(objects, faults, ns, name), ns, name)
    requires forall i | 0 <= i < |claims| :: DeleteCall(KeyOf(claims[i])) !in faults
    ensures var swept := Swept(objects, faults, ns, name);
      var r := DeleteAll(swept, faults, ClaimKeys(ns, claims));
      var gone := {StatefulSetKey(ns, name)} + set key | key in SweepKeys(ns, name);
      && (forall key | key in r :: key in objects && r[key] == objects[key])
      && (forall key | key in objects ::
           key !in r <==> key in gone || key in Matching(objects, PVCKind, ns, ClaimSelector(name)))
  {
    var swept := Swept(objects, faults, ns, name);
    var keys := ClaimKeys(ns, claims);
    var listed := Matching(swept, PVCKind, ns, ClaimSelector(name));
    forall i | 0 <= i < |claims|
      ensures keys[i] == KeyOf(claims[i])
    {
      assert KeyOf(claims[i]) in KeysOf(claims);
    }
    forall key | key in objects
      ensures key in listed <==> key !in SweepKeys(ns, name) && key != StatefulSetKey(ns, name) && key in Matching(objects, PVCKind, ns, ClaimSelector(name))
    {
    }
    forall key | key in swept
      ensures key in keys <==> key in listed
    {
      if key in listed {
        assert key in KeysOf(claims);
        var i :| 0 <= i < |claims| && KeyOf(claims[i]) == key;
        assert keys[i] == key;
      }
      if key in keys {
        var i :| 0 <= i < |keys| && keys[i] == key;
        assert KeyOf(claims[i]) in KeysOf(claims);
      }
    }
  }

  /** The teardown deletes the statefulset, the services and the secret a
      CreateCluster made; it deletes the scripts config map only when that
      map is named <cluster>-scripts, since it is created under the name
      the settings give it. */
  lemma TeardownCoversPlan(res: ClusterKubeResources, ns: string, clusterSecret: string, privKey: string)
    ensures var plan := ClusterPlan(res, clusterSecret, privKey);
      var deleted := [StatefulSetKey(ns, res.clusterName)] + SweepKeys(ns, res.clusterName);
      && (forall i | 1 <= i < 5 :: RequestKey(ns, plan[i]) in deleted)
      && (RequestKey(ns, plan[0]) in deleted <==> res.scriptsConfig == ScriptsName(res.clusterName))
  {
    var deleted := [StatefulSetKey(ns, res.clusterName)] + SweepKeys(ns, res.clusterName);
    assert deleted[1] == ObjKey(ServiceKind, ns, res.clusterName);
    assert deleted[2] == ObjKey(ServiceKind, ns, ExternalName(res.clusterName));
    assert deleted[3] == ObjKey(ConfigMapKind, ns, ScriptsName(res.clusterName));
    assert deleted[4] == ObjKey(SecretKind, ns, SecretsName(res.clusterName));
  }
}

=== FILE: kube_nodes.dfy ===
/** Adding a node to, and removing a node from, a cluster of the older
    cluster code: both read the cluster's statefulset, change its replica
    count by one and write it back. Adding also rewrites every container of
    the pod template in place: the node's environment is appended and the
    port list replaced. */
module KubeNodes {
  import opened Common
  import opened KubeObjects
  import opened KubeCluster
  import opened KubeTypes
  import opened KubeClusters

  // ---------------------------------------------------------------------
  // Rewriting the containers of a pod template

  /** The four ports every container gets, each narrowed to int32. */
  function NodePorts(ports: PortsSpec): (r: seq<ContainerPort>)
    ensures |r| == 4
    ensures forall i | 0 <= i < 4 :: Int32Min <= r[i].port <= Int32Max && r[i].protocol == Unset
  {
    [ ContainerPort("swarm", ToInt32(ports.swarmTcp), Unset),
      ContainerPort("api", ToInt32(ports.api), Unset),
      ContainerPort("gateway", ToInt32(ports.httpGateway), Unset),
      ContainerPort("cluster-api", ToInt32(ports.clusterApi), Unset) ]
  }

  /** The four ports by name: swarm, api, gateway and cluster-api, each
      carrying the node's number for it through the int32 conversion. */
  lemma NodePortsNamed(ports: PortsSpec)
    ensures var r := NodePorts(ports);
      && r[0].name == "swarm" && r[0].port == ToInt32(ports.swarmTcp)
      && r[1].name == "api" && r[1].port == ToInt32(ports.api)
      && r[2].name == "gateway" && r[2].port == ToInt32(ports.httpGateway)
      && r[3].name == "cluster-api" && r[3].port == ToInt32(ports.clusterApi)
  {
  }

  /** The names of a sequence of environment variables. */
  function EnvNames(vars: seq<EnvVar>): set<string> {
    set i | 0 <= i < |vars| :: vars[i].name
  }

  /** The variables a map of settings stands for, one per entry. */
  function EnvEntries(env: map<string, string>): set<EnvVar> {
    set name | name in env :: EnvVar(name, Literal(env[name]))
  }

  /** `added` lists the entries of `env`, one variable per entry, in some
      order: a Go map is iterated in an order the program cannot rely on. */
  predicate EnvEnumerates(added: seq<EnvVar>, env: map<string, string>) {
    && EnvNames(added) == env.Keys
    && (forall i | 0 <= i < |added| :: added[i].name in env && added[i].source == Literal(env[added[i].name]))
    && (forall i, j | 0 <= i < j < |added| :: added[i].name != added[j].name)
  }

  /** `after` is `before` with the node's environment appended to the
      container's own and the port list replaced by the node's four ports;
      nothing else of the container changes. */
  predicate Rewritten(before: Container, after: Container, env: map<string, string>, ports: PortsSpec) {
    && |before.env| <= |after.env|
    && after.env[..|before.env|] == before.env
    && EnvEnumerates(after.env[|before.env|..], env)
    && after == before.(env := after.env, ports := NodePorts(ports))
  }

  /** Every container of `before` rewritten, positions and count kept. */
  predicate AllRewritten(before: seq<Container>, after: seq<Container>, env: map<string, string>, ports: PortsSpec) {
    |after| == |before| && forall i | 0 <= i < |before| :: Rewritten(before[i], after[i], env, ports)
  }

  /** Appends one variable per entry of `env` to `vars`, taking the entries
      in whatever order the choice falls. */
  method AppendEnv(vars: seq<EnvVar>, env: map<string, string>) returns (r: seq<EnvVar>)
    ensures |vars| <= |r| && r[..|vars|] == vars
    ensures EnvEnumerates(r[|vars|..], env)
  {
    var remaining := env.Keys;
    var added: seq<EnvVar> := [];
    while remaining != {}
      invariant remaining <= env.Keys
      invariant EnvNames(added) == env.Keys - remaining
      invariant forall i | 0 <= i < |added| :: added[i].name in env && added[i].source == Literal(env[added[i].name])
      invariant forall i, j | 0 <= i < j < |added| :: added[i].name != added[j].name
      decreases remaining
    {
      var name :| name in remaining;
      var next := added + [EnvVar(name, Literal(env[name]))];
      assert EnvNames(next) == EnvNames(added) + {name} by {
        assert forall i | 0 <= i < |added| :: next[i] == added[i];
        assert next[|added|].name == name;
      }
      added := next;
      remaining := remaining - {name};
    }
    r := vars + added;
    assert r[..|vars|] == vars && r[|vars|..] == added;
  }

  /** The environment loop of applyNodeSpecToPodTemplate: every container
      gets the node's variables appended, in place. */
  method ApplyEnv(containers: array<Container>, env: map<string, string>)
    modifies containers
    ensures forall i | 0 <= i < containers.Length ::
      && |old(containers[i]).env| <= |containers[i].env|
      && containers[i].env[..|old(containers[i]).env|] == old(containers[i]).env
      && EnvEnumerates(containers[i].env[|old(containers[i]).env|..], env)
      && containers[i] == old(containers[i]).(env := containers[i].env)
  {
    for i := 0 to containers.Length
      invariant forall j | i <= j < containers.Length :: containers[j] == old(containers[j])
      invariant forall j | 0 <= j < i ::
        && |old(containers[j]).env| <= |containers[j].env|
        && containers[j].env[..|old(containers[j]).env|] == old(containers[j]).env
        && EnvEnumerates(containers[j].env[|old(containers[j]).env|..], env)
        && containers[j] == old(containers[j]).(env := containers[j].env)
    {
      var vars := AppendEnv(containers[i].env, env);
      containers[i] := containers[i].(env := vars);
    }
  }

  /** applyPorts: every container's port list becomes the node's four ports. */
  method ApplyPorts(containers: array<Container>, ports: PortsSpec)
    modifies containers
    ensures forall i | 0 <= i < containers.Length ::
      containers[i] == old(containers[i]).(ports := NodePorts(ports))
  {
    for i := 0 to containers.Length
      invariant forall j | i <= j < containers.Length :: containers[j] == old(containers[j])
      invariant forall j | 0 <= j < i :: containers[j] == old(containers[j]).(ports := NodePorts(ports))
    {
      containers[i] := containers[i].(ports := NodePorts(ports));
    }
  }

  /** applyNodeSpecToPodTemplate: the environment loop, then the ports loop,
      over the same containers. */
  method ApplyNodeSpec(containers: array<Container>, node: NodeKubeResources)
    modifies containers
    ensures AllRewritten(old(containers[..]), containers[..], node.env, node.ports)
  {
    ghost var before := containers[..];
    ApplyEnv(containers, node.env);
    ghost var middle := containers[..];
    ApplyPorts(containers, node.ports);
    forall i | 0 <= i < containers.Length
      ensures Rewritten(before[i], containers[i], node.env, node.ports)
    {
      assert containers[i].env == middle[i].env;
    }
  }

  /** The node's variables, as a multiset, are exactly the entries of its
      map: what each container gains does not depend on the iteration order. */
  lemma EnvAdditionsAreEntries(added: seq<EnvVar>, env: map<string, string>)
    requires EnvEnumerates(added, env)
    ensures multiset(added) == multiset(EnvEntries(env))
    ensures |added| == |env|
  {
    var items := set i | 0 <= i < |added| :: added[i];
    assert items == EnvEntries(env) by {
      forall v | v in EnvEntries(env)
        ensures v in items
      {
        var name :| name in env && v == EnvVar(name, Literal(env[name]));
        assert name in EnvNames(added);
        var i :| 0 <= i < |added| && added[i].name == name;
        assert added[i] == v;
      }
    }
    DistinctMultiset(added);
    NamesCount(added, env);
    assert |multiset(added)| == |added|;
    assert |multiset(EnvEntries(env))| == |EnvEntries(env)|;
  }

  /** A sequence without repeats counts each of its elements once. */
  lemma DistinctMultiset(s: seq<EnvVar>)
    requires forall i, j | 0 <= i < j < |s| :: s[i].name != s[j].name
    ensures multiset(s) == multiset(set i | 0 <= i < |s| :: s[i])
  {
    var items := set i | 0 <= i < |s| :: s[i];
    forall v
      ensures multiset(s)[v] == multiset(items)[v]
    {
      CountOnce(s, v);
      if v in s {
        var i :| 0 <= i < |s| && s[i] == v;
        assert v in items;
      }
    }
  }

  /** In a sequence whose names do not repeat, each element occurs once. */
  lemma {:induction false} CountOnce(s: seq<EnvVar>, v: EnvVar)
    requires forall i, j | 0 <= i < j < |s| :: s[i].name != s[j].name
    ensures multiset(s)[v] == if v in s then 1 else 0
  {
    if s != [] {
      var rest := s[1..];
      assert s == [s[0]] + rest;
      CountOnce(rest, v);
      if v == s[0] {
        forall j | 0 <= j < |rest|
          ensures rest[j] != v
        {
          assert rest[j] == s[j + 1];
        }
      }
    }
  }

  /** As many variables as entries: the entries' names are the map's keys. */
  lemma NamesCount(added: seq<EnvVar>, env: map<string, string>)
    requires EnvEnumerates(added, env)
    ensures |EnvEntries(env)| == |env|
  {
    var entries := EnvEntries(env);
    var names := set v | v in entries :: v.name;
    assert names == env.Keys;
    NameInjective(entries);
  }

  /** A set of variables with pairwise distinct names is as large as the
      set of its names. */
  lemma {:induction false} NameInjective(vars: set<EnvVar>)
    requires forall a, b | a in vars && b in vars && a.name == b.name :: a == b
    ensures |vars| == |set v | v in vars :: v.name|
    decreases |vars|
  {
    if vars != {} {
      var v :| v in vars;
      var rest := vars - {v};
      NameInjective(rest);
      assert (set w | w in vars :: w.name) == (set w | w in rest :: w.name) + {v.name};
      assert v.name !in (set w | w in rest :: w.name);
    }
  }

  /** The rewrite keeps every container's name, image and command, and
      keeps the variables it already had in front of the new ones. */
  lemma RewriteKeepsIdentity(before: seq<Container>, after: seq<Container>, env: map<string, string>, ports: PortsSpec)
    requires AllRewritten(before, after, env, ports)
    ensures forall i | 0 <= i < |before| ::
      && after[i].name == before[i].name
      && after[i].image == before[i].image
      && after[i].command == before[i].command
      && after[i].ports == NodePorts(ports)
      && |after[i].env| == |before[i].env| + |env|
  {
    forall i | 0 <= i < |before|
      ensures |after[i].env| == |before[i].env| + |env|
    {
      EnvAdditionsAreEntries(after[i].env[|before[i].env|..], env);
    }
  }

  // ---------------------------------------------------------------------
  // Scaling the statefulset

  /** The statefulset read back by AddNodeToCluster, with replicas raised by
      one in int32 arithmetic and the containers rewritten. */
  ghost predicate ScaledUp(before: StatefulSet, after: StatefulSet, node: NodeKubeResources) {
    && before.replicas.Some?
    && after == before.(
        replicas := Some(ToInt32(before.replicas.value + 1)),
        template := before.template.(spec := before.template.spec.(containers := after.template.spec.containers)))
    && AllRewritten(before.template.spec.containers, after.template.spec.containers, node.env, node.ports)
  }

  /** Reads the cluster's statefulset, raises its replica count by one,
      applies the node's environment and ports to its containers and writes
      it back. A read or write error is returned as it is; a failed read
      issues no write. */
  method AddNodeToCluster(cluster: Cluster, ns: string, clusterName: string, node: NodeKubeResources)
    returns (r: Result<StatefulSet, ApiError>)
    requires cluster.Valid()
    modifies cluster`objects, cluster`trace
    ensures cluster.Valid()
    ensures var key := StatefulSetKey(ns, clusterName);
      GetOutcome(old(cluster.objects), cluster.faults, key).Err? ==>
        && r == Err(GetOutcome(old(cluster.objects), cluster.faults, key).error)
        && cluster.objects == old(cluster.objects)
        && cluster.trace == old(cluster.trace) + [GetCall(key)]
    ensures var key := StatefulSetKey(ns, clusterName);
      GetOutcome(old(cluster.objects), cluster.faults, key).Ok? ==>
        exists after :: ScaledUp(old(cluster.objects)[key].statefulSet, after, node)
          && var outcome := UpdateOutcome(old(cluster.objects), cluster.faults, ns, StatefulSetObj(after));
          && r == (if outcome.Ok? then Ok(outcome.value.statefulSet) else Err(outcome.error))
          && cluster.objects == AfterUpdate(old(cluster.objects), cluster.faults, ns, StatefulSetObj(after))
          && cluster.trace == old(cluster.trace) + [GetCall(key), UpdateCall(key)]
  {
    var key := StatefulSetKey(ns, clusterName);
    var got := cluster.Get(key);
    if got.Err? {
      return Err(got.error);
    }
    var sts := got.value.statefulSet;
    var replicas := ToInt32(sts.replicas.value + 1);
    var containers := new Container[|sts.template.spec.containers|](i requires 0 <= i < |sts.template.spec.containers| => sts.template.spec.containers[i]);
    assert containers[..] == sts.template.spec.containers;
    ApplyNodeSpec(containers, node);
    var after := sts.(
      replicas := Some(replicas),
      template := sts.template.(spec := sts.template.spec.(containers := containers[..])));
    assert ScaledUp(sts, after, node);
    var updated := cluster.Update(ns, StatefulSetObj(after));
    assert RequestKey(ns, StatefulSetObj(after)) == key;
    if updated.Err? {
      return Err(updated.error);
    }
    return Ok(updated.value.statefulSet);
  }

  /** Reads the cluster's statefulset and, unless it already runs no
      replica, writes it back with one replica fewer. */
  method RemoveNodeFromCluster(cluster: Cluster, ns: string, clusterName: string) returns (err: Option<ApiError>)
    requires cluster.Valid()
    modifies cluster`objects, cluster`trace
    ensures cluster.Valid()
    ensures var key := StatefulSetKey(ns, clusterName);
      var got := GetOutcome(old(cluster.objects), cluster.faults, key);
      && (got.Err? ==>
        err == Some(got.error) && cluster.objects == old(cluster.objects) && cluster.trace == old(cluster.trace) + [GetCall(key)])
      && (got.Ok? && got.value.statefulSet.replicas == Some(0) ==>
        err.None? && cluster.objects == old(cluster.objects) && cluster.trace == old(cluster.trace) + [GetCall(key)])
      && (got.Ok? && got.value.statefulSet.replicas != Some(0) ==>
        var after := StatefulSetObj(ScaledDown(got.value.statefulSet));
        && err == UpdateError(UpdateOutcome(old(cluster.objects), cluster.faults, ns, after))
        && cluster.objects == AfterUpdate(old(cluster.objects), cluster.faults, ns, after)
        && cluster.trace == old(cluster.trace) + [GetCall(key), UpdateCall(key)])
  {
    var key := StatefulSetKey(ns, clusterName);
    var got := cluster.Get(key);
    if got.Err? {
      return Some(got.error);
    }
    var sts := got.value.statefulSet;
    if sts.replicas.value == 0 {
      return None;
    }
    var after := ScaledDown(sts);
    assert RequestKey(ns, StatefulSetObj(after)) == key;
    var updated := cluster.Update(ns, StatefulSetObj(after));
    return UpdateError(updated);
  }

  /** The statefulset with one replica fewer. */
  function ScaledDown(sts: StatefulSet): (r: StatefulSet)
    requires sts.replicas.Some?
    ensures r.replicas.Some? && r == sts.(replicas := r.replicas)
  {
    sts.(replicas := Some(sts.replicas.value - 1))
  }

  /** The error of an update, the updated object discarded. */
  function UpdateError(r: Result<Object, ApiError>): (e: Option<ApiError>)
    ensures e.None? <==> r.Ok?
    ensures r.Err? ==> e == Some(r.error)
  {
    if r.Ok? then None else Some(r.error)
  }

  /** Below the int32 maximum a scale-up stores one replica more, when the
      update is not refused. */
  lemma ScaleUpAddsOne(objects: Store, faults: Faults, ns: string, before: StatefulSet, after: StatefulSet, node: NodeKubeResources)
    requires ScaledUp(before, after, node)
    requires 0 <= before.replicas.value < Int32Max
    requires after.meta.name != "" && after.meta.namespace == ns
    requires UpdateCall(RequestKey(ns, StatefulSetObj(after))) !in faults
    requires RequestKey(ns, StatefulSetObj(after)) in objects
    ensures var stored := AfterUpdate(objects, faults, ns, StatefulSetObj(after))[RequestKey(ns, StatefulSetObj(after))];
      stored.StatefulSetObj? && stored.statefulSet.replicas == Some(before.replicas.value + 1)
  {
  }

  /** At the int32 maximum the count wraps to the int32 minimum, and the API
      server refuses the negative count: the store is left as it was. */
  lemma ScaleUpAtLimitRejected(objects: Store, faults: Faults, ns: string, before: StatefulSet, after: StatefulSet, node: NodeKubeResources)
    requires ScaledUp(before, after, node)
    requires before.replicas.value == Int32Max
    requires after.meta.name != "" && (after.meta.namespace == "" || after.meta.namespace == ns)
    ensures after.replicas == Some(Int32Min)
    ensures UpdateOutcome(objects, faults, ns, StatefulSetObj(after)).Err?
    ensures AfterUpdate(objects, faults, ns, StatefulSetObj(after)) == objects
  {
  }

  /** Scaling down a stored statefulset whose update is not refused stores
      exactly one replica fewer, and so never a negative count. */
  lemma ScaleDownStoresOneFewer(objects: Store, faults: Faults, ns: string, name: string)
    requires WellFormed(objects) && name != ""
    requires StatefulSetKey(ns, name) in objects
    requires objects[StatefulSetKey(ns, name)].statefulSet.replicas != Some(0)
    requires UpdateCall(StatefulSetKey(ns, name)) !in faults
    ensures var before := objects[StatefulSetKey(ns, name)].statefulSet;
      var stored := AfterUpdate(objects, faults, ns, StatefulSetObj(ScaledDown(before)))[StatefulSetKey(ns, name)];
      && stored.StatefulSetObj?
      && stored.statefulSet.replicas == Some(before.replicas.value - 1)
      && before.replicas.value - 1 >= 0
  {
    var before := objects[StatefulSetKey(ns, name)];
    assert KeyOf(before) == StatefulSetKey(ns, name) && Settled(before);
    assert RequestKey(ns, StatefulSetObj(ScaledDown(before.statefulSet))) == StatefulSetKey(ns, name);
  }
}

=== FILE: kube_objects.dfy ===
/** The slice of the Kubernetes API object model (core/v1 and apps/v1) that
    the deployment code builds, sends and reads back. Only the fields the code
    sets or inspects are kept; quantities and images are carried as text. */
module KubeObjects {
  import opened Common

  type Labels = map<string, string>

  datatype ObjectMeta = ObjectMeta(name: string, namespace: string, labels: Labels)

  /** Metadata with only a name, as most builders write it. */
  function Named(name: string): ObjectMeta {
    ObjectMeta(name, "", map[])
  }

  datatype ConfigMap = ConfigMap(meta: ObjectMeta, data: map<string, string>)

  datatype Secret = Secret(meta: ObjectMeta, secretType: string, data: map<string, string>)

  const SecretTypeOpaque: string := "Opaque"

  /** A port protocol; Unset is the zero value the API server later reads as TCP. */
  datatype Protocol = Unset | TCP | UDP

  datatype ServicePort = ServicePort(name: string, port: int, targetPort: Option<int>, protocol: Protocol)

  datatype Service = Service(
    meta: ObjectMeta,
    clusterIP: string,
    serviceType: string,
    selector: Labels,
    ports: seq<ServicePort>)

  const ClusterIPNone: string := "None"
  const ServiceTypeLoadBalancer: string := "LoadBalancer"

  /** Where an environment variable takes its value from. */
  datatype EnvSource =
    | Literal(value: string)
    | ConfigMapKeyRef(configMap: string, key: string)
    | SecretKeyRef(secret: string, key: string)

  datatype EnvVar = EnvVar(name: string, source: EnvSource)

  datatype EnvFrom = ConfigMapEnv(configMap: string) | SecretEnv(secret: string)

  datatype ContainerPort = ContainerPort(name: string, port: int, protocol: Protocol)

  datatype VolumeMount = VolumeMount(name: string, mountPath: string)

  datatype Probe = HttpGetProbe(path: string, port: int, initialDelaySeconds: int, periodSeconds: int)

  datatype Container = Container(
    name: string,
    image: string,
    command: seq<string>,
    env: seq<EnvVar>,
    envFrom: seq<EnvFrom>,
    ports: seq<ContainerPort>,
    volumeMounts: seq<VolumeMount>,
    readinessProbe: Option<Probe>)

  /** A container with only a name, an image and a command. */
  function BareContainer(name: string, image: string, command: seq<string>): Container {
    Container(name, image, command, [], [], [], [], None)
  }

  /** A pod volume backed by a config map. */
  datatype Volume = ConfigMapVolume(name: string, configMap: string)

  datatype PodSpec = PodSpec(initContainers: seq<Container>, containers: seq<Container>, volumes: seq<Volume>)

  datatype PodTemplate = PodTemplate(labels: Labels, spec: PodSpec)

  datatype AccessMode = ReadWriteOnce

  datatype PersistentVolumeClaim = PersistentVolumeClaim(
    meta: ObjectMeta,
    accessModes: seq<AccessMode>,
    storageClass: Option<string>,
    storage: string)

  datatype StatefulSet = StatefulSet(
    meta: ObjectMeta,
    serviceName: string,
    replicas: Option<int>,
    selector: Labels,
    template: PodTemplate,
    claimTemplates: seq<PersistentVolumeClaim>)

  datatype PodCondition = PodCondition(conditionType: string, status: string)

  const PodReady: string := "Ready"
  const ConditionTrue: string := "True"

  datatype Pod = Pod(meta: ObjectMeta, phase: string, conditions: seq<PodCondition>)

  datatype Kind = ConfigMapKind | SecretKind | ServiceKind | StatefulSetKind | PVCKind | PodKind

  /** Any object the cluster stores. */
  datatype Object =
    | ConfigMapObj(configMap: ConfigMap)
    | SecretObj(secret: Secret)
    | ServiceObj(service: Service)
    | StatefulSetObj(statefulSet: StatefulSet)
    | PVCObj(claim: PersistentVolumeClaim)
    | PodObj(pod: Pod)
  {
    function KindOf(): Kind {
      match this
      case ConfigMapObj(_) => ConfigMapKind
      case SecretObj(_) => SecretKind
      case ServiceObj(_) => ServiceKind
      case StatefulSetObj(_) => StatefulSetKind
      case PVCObj(_) => PVCKind
      case PodObj(_) => PodKind
    }

    function Meta(): ObjectMeta {
      match this
      case ConfigMapObj(o) => o.meta
      case SecretObj(o) => o.meta
      case ServiceObj(o) => o.meta
      case StatefulSetObj(o) => o.meta
      case PVCObj(o) => o.meta
      case PodObj(o) => o.meta
    }

    function WithMeta(m: ObjectMeta): (r: Object)
      ensures r.KindOf() == KindOf() && r.Meta() == m
    {
      match this
      case ConfigMapObj(o) => ConfigMapObj(o.(meta := m))
      case SecretObj(o) => SecretObj(o.(meta := m))
      case ServiceObj(o) => ServiceObj(o.(meta := m))
      case StatefulSetObj(o) => StatefulSetObj(o.(meta := m))
      case PVCObj(o) => PVCObj(o.(meta := m))
      case PodObj(o) => PodObj(o.(meta := m))
    }
  }

  /** The identity of a stored object: its kind, namespace and name. */
  datatype ObjKey = ObjKey(kind: Kind, namespace: string, name: string)

  function KeyOf(o: Object): ObjKey {
    ObjKey(o.KindOf(), o.Meta().namespace, o.Meta().name)
  }
}

=== FILE: kube_types.dfy ===
/** The resource records of the older cluster and node code: the settings
    of a cluster or a node and the Kubernetes objects that belong to it,
    each object absent until it exists. */
module KubeTypes {
  import opened Common
  import opened KubeObjects

  /** The eight ports of a node. */
  datatype PortsSpec = PortsSpec(
    swarmTcp: int,
    swarmUdp: int,
    api: int,
    httpGateway: int,
    ws: int,
    clusterApi: int,
    clusterProxy: int,
    clusterSwarm: int)

  datatype ClusterKubeResources = ClusterKubeResources(
    clusterId: string,
    clusterName: string,
    namespace: string,
    serviceType: string,
    storageClass: string,
    clusterStorageSize: string,
    ipfsStorageSize: string,
    ipfsClusterImage: string,
    ipfsImage: string,
    envConfig: string,
    scriptsConfig: string,
    statefulSet: Option<StatefulSet>,
    headlessService: Option<Service>,
    externalService: Option<Service>,
    envConfigMap: Option<ConfigMap>,
    scriptsConfigMap: Option<ConfigMap>,
    clusterSecret: Option<Secret>,
    ipfsPvc: Option<PersistentVolumeClaim>,
    clusterPvc: Option<PersistentVolumeClaim>,
    labels: Labels,
    annotations: Labels)

  datatype NodeKubeResources = NodeKubeResources(
    nodeId: string,
    nodeName: string,
    clusterId: string,
    namespace: string,
    env: map<string, string>,
    ports: PortsSpec,
    podName: string,
    containers: seq<Container>,
    service: Option<Service>,
    configMap: Option<ConfigMap>,
    secret: Option<Secret>,
    pvcs: seq<PersistentVolumeClaim>,
    labels: Labels,
    annotations: Labels)

  // Objects that carry only a name and a namespace, every other field at
  // its zero value, as the converters build them from stored names.

  function StatefulSetStub(meta: ObjectMeta): StatefulSet {
    StatefulSet(meta, "", None, map[], PodTemplate(map[], PodSpec([], [], [])), [])
  }

  function ServiceStub(meta: ObjectMeta): Service {
    Service(meta, "", "", map[], [])
  }

  function ConfigMapStub(meta: ObjectMeta): ConfigMap {
    ConfigMap(meta, map[])
  }

  function SecretStub(meta: ObjectMeta): Secret {
    Secret(meta, "", map[])
  }

  function ClaimStub(meta: ObjectMeta): PersistentVolumeClaim {
    PersistentVolumeClaim(meta, [], None, "")
  }
}

=== FILE: node_convert.dfy ===
/** The node records of the older node code and the converters between
    them: the node's settings (NodeSpec), its database row (NodeSqlModel),
    its Kubernetes resources (NodeKubeResources) and the stored record of
    those resources (NodeKubeResourcesModel). Optional texts are nil in the
    database exactly when they are empty in the settings. */
module NodeConvert {
  import opened Common
  import opened KubeObjects
  import opened KubeTypes

  datatype InitContainerSpec = InitContainerSpec(name: string, image: string, command: seq<string>)

  /** A container as the settings describe it; `ports` names ports of the node. */
  datatype ContainerSpec = ContainerSpec(name: string, image: string, command: seq<string>, ports: seq<string>)

  datatype VolumesSpec = VolumesSpec(ipfsStorage: string, clusterStorage: string, scriptsConfig: string)

  datatype NodeSpec = NodeSpec(
    nodeId: string,
    nodeName: string,
    role: string,
    clusterName: string,
    ports: PortsSpec,
    env: map<string, string>,
    initContainer: InitContainerSpec,
    containers: seq<ContainerSpec>,
    volumes: VolumesSpec)

  /** The database row of a node: ports flattened, optional texts nil when empty. */
  datatype NodeSqlModel = NodeSqlModel(
    nodeId: string,
    nodeName: Option<string>,
    role: string,
    clusterName: string,
    swarmTcp: int,
    swarmUdp: int,
    api: int,
    httpGateway: int,
    ws: int,
    clusterApi: int,
    clusterProxy: int,
    clusterSwarm: int,
    ipfsStorage: Option<string>,
    clusterStorage: Option<string>,
    scriptsConfig: Option<string>)

  /** The node settings of the service configuration. */
  datatype NodeConfig = NodeConfig(
    ports: PortsSpec,
    initContName: string,
    initContImage: string,
    initContCommand: seq<string>)

  /** The stored record of a node's Kubernetes resources: names of the
      objects ("" when absent) and the containers and claims as JSON text. */
  datatype NodeKubeResourcesModel = NodeKubeResourcesModel(
    nodeId: string,
    nodeName: string,
    clusterId: string,
    namespace: string,
    podName: string,
    containers: string,
    service: string,
    configMap: string,
    secret: string,
    pvcs: string)

  const NoInitContainer: InitContainerSpec := InitContainerSpec("", "", [])
  const NoVolumes: VolumesSpec := VolumesSpec("", "", "")

  // ---------------------------------------------------------------------
  // Settings and database row

  /** ConvertNodeSqlModelToNodeSpec: nil texts read as "", ports regrouped,
      environment and containers empty. */
  function NodeSpecOf(m: NodeSqlModel): NodeSpec {
    NodeSpec(
      m.nodeId, TextOf(m.nodeName), m.role, m.clusterName,
      PortsSpec(m.swarmTcp, m.swarmUdp, m.api, m.httpGateway, m.ws, m.clusterApi, m.clusterProxy, m.clusterSwarm),
      map[], NoInitContainer, [],
      VolumesSpec(TextOf(m.ipfsStorage), TextOf(m.clusterStorage), TextOf(m.scriptsConfig)))
  }

  /** ConvertNodeSpecToNodeSqlModel; `freshId` is the id uuid.NewString
      would return, used only when the node has none. */
  function NodeSqlModelOf(node: NodeSpec, freshId: string): NodeSqlModel {
    var p := node.ports;
    NodeSqlModel(
      if node.nodeId == "" then freshId else node.nodeId,
      OptionalText(node.nodeName), node.role, node.clusterName,
      p.swarmTcp, p.swarmUdp, p.api, p.httpGateway, p.ws, p.clusterApi, p.clusterProxy, p.clusterSwarm,
      OptionalText(node.volumes.ipfsStorage), OptionalText(node.volumes.clusterStorage), OptionalText(node.volumes.scriptsConfig))
  }

  /** The four optional texts are nil exactly when empty and carry the text
      otherwise; the eight ports are copied one by one; an empty id is
      replaced by the fresh one and any other id kept. */
  lemma NodeSqlFields(node: NodeSpec, freshId: string)
    ensures var m := NodeSqlModelOf(node, freshId);
      && (m.nodeName.None? <==> node.nodeName == "") && TextOf(m.nodeName) == node.nodeName
      && (m.ipfsStorage.None? <==> node.volumes.ipfsStorage == "") && TextOf(m.ipfsStorage) == node.volumes.ipfsStorage
      && (m.clusterStorage.None? <==> node.volumes.clusterStorage == "") && TextOf(m.clusterStorage) == node.volumes.clusterStorage
      && (m.scriptsConfig.None? <==> node.volumes.scriptsConfig == "") && TextOf(m.scriptsConfig) == node.volumes.scriptsConfig
      && m.swarmTcp == node.ports.swarmTcp && m.swarmUdp == node.ports.swarmUdp
      && m.api == node.ports.api && m.httpGateway == node.ports.httpGateway
      && m.ws == node.ports.ws && m.clusterApi == node.ports.clusterApi
      && m.clusterProxy == node.ports.clusterProxy && m.clusterSwarm == node.ports.clusterSwarm
      && (node.nodeId != "" ==> m.nodeId == node.nodeId)
      && (node.nodeId == "" ==> m.nodeId == freshId)
  {
  }

  /** Settings -> row -> settings keeps the id (or gives the fresh one),
      name, role, cluster, ports and volumes; environment, init container and
      containers are not stored and come back empty. */
  lemma NodeSpecSqlRoundTrip(node: NodeSpec, freshId: string)
    ensures NodeSpecOf(NodeSqlModelOf(node, freshId)) ==
      node.(nodeId := if node.nodeId == "" then freshId else node.nodeId,
            env := map[], initContainer := NoInitContainer, containers := [])
  {
  }

  /** Row -> settings -> row gives the row back when its id is set and none
      of its optional texts points at "". */
  lemma NodeSqlSpecRoundTrip(m: NodeSqlModel, freshId: string)
    ensures NodeSqlModelOf(NodeSpecOf(m), freshId) == m <==>
      && (m.nodeId != "" || freshId == "")
      && m.nodeName != Some("") && m.ipfsStorage != Some("")
      && m.clusterStorage != Some("") && m.scriptsConfig != Some("")
  {
    var back := NodeSqlModelOf(NodeSpecOf(m), freshId);
    if back == m {
      assert back.nodeName == m.nodeName;
      assert back.ipfsStorage == m.ipfsStorage;
      assert back.clusterStorage == m.clusterStorage;
      assert back.scriptsConfig == m.scriptsConfig;
    }
  }

  /** BuildNodeSpecFromRole: a node named "NodeIPFS" with the given role,
      the configured ports and init container, everything else empty. */
  function NodeSpecFromRole(role: string, cfg: NodeConfig): (node: NodeSpec)
    ensures node.nodeName == "NodeIPFS" && node.role == role && node.ports == cfg.ports
    ensures node.initContainer == InitContainerSpec(cfg.initContName, cfg.initContImage, cfg.initContCommand)
    ensures node.nodeId == "" && node.containers == [] && node.env == map[] && node.volumes == NoVolumes
  {
    NodeSpec("", "NodeIPFS", role, "", cfg.ports, map[],
      InitContainerSpec(cfg.initContName, cfg.initContImage, cfg.initContCommand), [], NoVolumes)
  }

  /** A node built from a role has no id yet: storing it draws a fresh one. */
  lemma RoleNodeGetsFreshId(role: string, cfg: NodeConfig, freshId: string)
    ensures NodeSqlModelOf(NodeSpecFromRole(role, cfg), freshId).nodeId == freshId
    ensures NodeSpecOf(NodeSqlModelOf(NodeSpecFromRole(role, cfg), freshId)).role == role
  {
  }

  // ---------------------------------------------------------------------
  // Settings and Kubernetes resources

  /** The labels of a node's resources. */
  function NodeLabels(nodeId: string, nodeName: string, clusterId: string, role: string): Labels {
    map["node-id" := nodeId, "node-name" := nodeName, "cluster-id" := clusterId, "role" := role]
  }

  /** A container of the settings as a Kubernetes container: name, image and
      command, nothing else. */
  function ContainerOf(c: ContainerSpec): Container {
    BareContainer(c.name, c.image, c.command)
  }

  function ContainerSpecOf(c: Container): ContainerSpec {
    ContainerSpec(c.name, c.image, c.command, [])
  }

  /** ConvertNodeSpecToNodeKubeResources. */
  function NodeKubeOf(node: NodeSpec, clusterId: string, ns: string): (res: NodeKubeResources)
    ensures |res.containers| == |node.containers|
    ensures forall i | 0 <= i < |node.containers| ::
      && res.containers[i].name == node.containers[i].name
      && res.containers[i].image == node.containers[i].image
      && res.containers[i].command == node.containers[i].command
  {
    NodeKubeResources(
      node.nodeId, node.nodeName, clusterId, ns, node.env, node.ports, "",
      seq(|node.containers|, i requires 0 <= i < |node.containers| => ContainerOf(node.containers[i])),
      None, None, None, [],
      NodeLabels(node.nodeId, node.nodeName, clusterId, node.role), map[])
  }

  /** ConvertNodeKubeResourcesToNodeSpec; the role is read from the "role"
      label, "" when the label is missing. */
  function NodeSpecOfKube(res: NodeKubeResources): NodeSpec {
    NodeSpec(
      res.nodeId, res.nodeName,
      if "role" in res.labels then res.labels["role"] else "",
      "", res.ports, res.env, NoInitContainer,
      seq(|res.containers|, i requires 0 <= i < |res.containers| => ContainerSpecOf(res.containers[i])),
      NoVolumes)
  }

  /** The four labels carry the node's id, name, cluster and role. */
  lemma NodeKubeLabels(node: NodeSpec, clusterId: string, ns: string)
    ensures var l := NodeKubeOf(node, clusterId, ns).labels;
      && l.Keys == {"node-id", "node-name", "cluster-id", "role"}
      && l["node-id"] == node.nodeId && l["node-name"] == node.nodeName
      && l["cluster-id"] == clusterId && l["role"] == node.role
  {
  }

  /** Settings -> resources -> settings keeps id, name, role, environment,
      ports and each container's name, image and command; the cluster name,
      init container, volumes and container port names are not carried. */
  lemma NodeSpecKubeRoundTrip(node: NodeSpec, clusterId: string, ns: string)
    ensures NodeSpecOfKube(NodeKubeOf(node, clusterId, ns)) ==
      node.(clusterName := "", initContainer := NoInitContainer, volumes := NoVolumes,
            containers := seq(|node.containers|, i requires 0 <= i < |node.containers| => node.containers[i].(ports := [])))
  {
    var back := NodeSpecOfKube(NodeKubeOf(node, clusterId, ns));
    assert "role" in NodeKubeOf(node, clusterId, ns).labels;
    assert back.containers == seq(|node.containers|, i requires 0 <= i < |node.containers| => node.containers[i].(ports := []));
  }

  // ---------------------------------------------------------------------
  // Kubernetes resources and their stored record

  /** ConvertNodeKubeResourcesToModel; `encodeContainers` and `encodeClaims`
      stand for json.Marshal. */
  function NodeModelOf(res: NodeKubeResources,
                       encodeContainers: seq<Container> -> Result<string, string>,
                       encodeClaims: seq<PersistentVolumeClaim> -> Result<string, string>): (r: Result<NodeKubeResourcesModel, string>)
    ensures r.Ok? <==> encodeContainers(res.containers).Ok? && encodeClaims(res.pvcs).Ok?
  {
    var containers := encodeContainers(res.containers);
    if containers.Err? then Err(containers.error)
    else
      var claims := encodeClaims(res.pvcs);
      if claims.Err? then Err(claims.error)
      else Ok(NodeKubeResourcesModel(
        res.nodeId, res.nodeName, res.clusterId, res.namespace, res.podName, containers.value,
        if res.service.Some? then res.service.value.meta.name else "",
        if res.configMap.Some? then res.configMap.value.meta.name else "",
        if res.secret.Some? then res.secret.value.meta.name else "",
        claims.value))
  }

  /** ConvertNodeKubeResourcesModelToNodeKubeResources; `decodeContainers`
      and `decodeClaims` stand for json.Unmarshal, called only on non-empty
      text. */
  function NodeResourcesOf(m: NodeKubeResourcesModel,
                           decodeContainers: string -> Result<seq<Container>, string>,
                           decodeClaims: string -> Result<seq<PersistentVolumeClaim>, string>): (r: Result<NodeKubeResources, string>)
  {
    var containers := if m.containers == "" then Ok([]) else decodeContainers(m.containers);
    if containers.Err? then Err(containers.error)
    else
      var claims := if m.pvcs == "" then Ok([]) else decodeClaims(m.pvcs);
      if claims.Err? then Err(claims.error)
      else
        var meta := (name: string) => ObjectMeta(name, m.namespace, map[]);
        Ok(NodeKubeResources(
          m.nodeId, m.nodeName, m.clusterId, m.namespace, map[], PortsSpec(0, 0, 0, 0, 0, 0, 0, 0), m.podName,
          containers.value,
          if m.service != "" then Some(ServiceStub(meta(m.service))) else None,
          if m.configMap != "" then Some(ConfigMapStub(meta(m.configMap))) else None,
          if m.secret != "" then Some(SecretStub(meta(m.secret))) else None,
          claims.value, map[], map[]))
  }

  /** With both texts empty or decodable, the service, config map and secret
      are present exactly when the record names them, under that name and
      in the record's namespace. */
  lemma NodeResourcesPresence(m: NodeKubeResourcesModel,
                              decodeContainers: string -> Result<seq<Container>, string>,
                              decodeClaims: string -> Result<seq<PersistentVolumeClaim>, string>)
    requires m.containers != "" ==> decodeContainers(m.containers).Ok?
    requires m.pvcs != "" ==> decodeClaims(m.pvcs).Ok?
    ensures var r := NodeResourcesOf(m, decodeContainers, decodeClaims);
      && r.Ok?
      && (r.value.service.Some? <==> m.service != "")
      && (r.value.configMap.Some? <==> m.configMap != "")
      && (r.value.secret.Some? <==> m.secret != "")
      && (r.value.service.Some? ==> r.value.service.value.meta.name == m.service && r.value.service.value.meta.namespace == m.namespace)
      && (r.value.configMap.Some? ==> r.value.configMap.value.meta.name == m.configMap && r.value.configMap.value.meta.namespace == m.namespace)
      && (r.value.secret.Some? ==> r.value.secret.value.meta.name == m.secret && r.value.secret.value.meta.namespace == m.namespace)
  {
  }

  /** A decoding error of the containers wins over one of the claims, and
      either one is returned as it is. */
  lemma NodeResourcesDecodeErrors(m: NodeKubeResourcesModel,
                                  decodeContainers: string -> Result<seq<Container>, string>,
                                  decodeClaims: string -> Result<seq<PersistentVolumeClaim>, string>)
    ensures m.containers != "" && decodeContainers(m.containers).Err? ==>
      NodeResourcesOf(m, decodeContainers, decodeClaims) == Err(decodeContainers(m.containers).error)
    ensures (m.containers == "" || decodeContainers(m.containers).Ok?) && m.pvcs != "" && decodeClaims(m.pvcs).Err? ==>
      NodeResourcesOf(m, decodeContainers, decodeClaims) == Err(decodeClaims(m.pvcs).error)
  {
  }

  /** Resources -> record -> resources, with JSON that decodes what it
      encoded into non-empty text: ids, names, namespace, pod name,
      containers and claims come back; each of the service, config map and
      secret comes back, as a stub with its name in the resources'
      namespace, exactly when it was present under a non-empty name. */
  lemma NodeKubeModelRoundTrip(res: NodeKubeResources,
                               encodeContainers: seq<Container> -> Result<string, string>,
                               encodeClaims: seq<PersistentVolumeClaim> -> Result<string, string>,
                               decodeContainers: string -> Result<seq<Container>, string>,
                               decodeClaims: string -> Result<seq<PersistentVolumeClaim>, string>)
    requires encodeContainers(res.containers).Ok? && encodeContainers(res.containers).value != ""
    requires decodeContainers(encodeContainers(res.containers).value) == Ok(res.containers)
    requires encodeClaims(res.pvcs).Ok? && encodeClaims(res.pvcs).value != ""
    requires decodeClaims(encodeClaims(res.pvcs).value) == Ok(res.pvcs)
    ensures var m := NodeModelOf(res, encodeContainers, encodeClaims);
      m.Ok? && var back := NodeResourcesOf(m.value, decodeContainers, decodeClaims);
      && back.Ok?
      && back.value.nodeId == res.nodeId && back.value.nodeName == res.nodeName
      && back.value.clusterId == res.clusterId && back.value.namespace == res.namespace
      && back.value.podName == res.podName
      && back.value.containers == res.containers && back.value.pvcs == res.pvcs
      && (back.value.service.Some? <==> res.service.Some? && res.service.value.meta.name != "")
      && (back.value.service.Some? ==> back.value.service.value.meta == ObjectMeta(res.service.value.meta.name, res.namespace, map[]))
      && (back.value.configMap.Some? <==> res.configMap.Some? && res.configMap.value.meta.name != "")
      && (back.value.configMap.Some? ==> back.value.configMap.value.meta == ObjectMeta(res.configMap.value.meta.name, res.namespace, map[]))
      && (back.value.secret.Some? <==> res.secret.Some? && res.secret.value.meta.name != "")
      && (back.value.secret.Some? ==> back.value.secret.value.meta == ObjectMeta(res.secret.value.meta.name, res.namespace, map[]))
  {
  }
}

=== FILE: topology_deploy.dfy ===
/** Deployment of one topology as an IPFS cluster: the service name derived
    from the topology id, the six objects created for it (two config maps, a
    secret, a headless and an external service, a statefulset), the create
    sequence that tolerates "already exists", the teardown that ignores every
    delete error, the entrypoint script that decides which pod bootstraps, and
    the pod readiness report. */
module TopologyDeploy {
  import opened Common
  import opened KubeObjects
  import opened KubeCluster

  datatype NodeInfo = NodeInfo(nodeId: string, nodeLabel: string, role: string)

  datatype EdgeInfo = EdgeInfo(sourceNodeId: string, targetNodeId: string)

  datatype DeployConfig = DeployConfig(
    topologyId: string,
    name: string,
    namespace: string,
    nodes: seq<NodeInfo>,
    edges: seq<EdgeInfo>,
    bootstrapId: string)

  /** The bootstrap peer's identity, produced by the key generator. */
  datatype KeyPair = KeyPair(privateKey: string, peerId: string)

  /** The six objects of a deployment, in the order they are created. */
  datatype DeployStep =
    | ScriptsConfigMapStep
    | EnvConfigMapStep
    | SecretStep
    | HeadlessServiceStep
    | ExternalServiceStep
    | StatefulSetStep

  const Steps: seq<DeployStep> :=
    [ScriptsConfigMapStep, EnvConfigMapStep, SecretStep, HeadlessServiceStep, ExternalServiceStep, StatefulSetStep]

  datatype DeployError =
    | KeyGenerationFailed
    | SecretGenerationFailed
    | CreateFailed(step: DeployStep, cause: ApiError)

  // ---------------------------------------------------------------------
  // Names

  /** An id the service-name slice accepts: it keeps at least 12 characters
      once its dashes are removed (a shorter one makes the slice panic). */
  predicate ValidTopologyId(id: string) {
    |StripDashes(id)| >= 12
  }

  /** "ipfs-" followed by the first 12 characters of the id without its dashes. */
  function ServiceName(id: string): (svc: string)
    requires ValidTopologyId(id)
    ensures |svc| == 17 && svc[..5] == "ipfs-"
    ensures forall i | 5 <= i < |svc| :: svc[i] != '-'
  {
    "ipfs-" + StripDashes(id)[..12]
  }

  /** For an id in the 8-4-... layout of a UUID, the service name is "ipfs-"
      followed by its first two groups. */
  lemma ServiceNameOfUuid(a: string, b: string, rest: string)
    requires |a| == 8 && |b| == 4
    requires forall i | 0 <= i < |a| :: a[i] != '-'
    requires forall i | 0 <= i < |b| :: b[i] != '-'
    ensures ValidTopologyId(a + "-" + b + "-" + rest)
    ensures ServiceName(a + "-" + b + "-" + rest) == "ipfs-" + a + b
  {
    var id := a + "-" + b + "-" + rest;
    StripDashesAppend(a + "-" + b + "-", rest);
    StripDashesAppend(a + "-" + b, "-");
    StripDashesAppend(a + "-", b);
    StripDashesAppend(a, "-");
    StripDashesNoDash(a);
    StripDashesNoDash(b);
    assert StripDashes("-") == [];
    assert StripDashes(id) == a + b + StripDashes(rest);
    assert (a + b + StripDashes(rest))[..12] == a + b;
  }

  function ScriptsName(svc: string): string { svc + "-scripts" }
  function EnvName(svc: string): string { svc + "-env" }
  function SecretsName(svc: string): string { svc + "-secrets" }
  function ExternalName(svc: string): string { svc + "-external" }

  /** The label every object of the deployment selects its pods by. */
  function AppLabels(svc: string): Labels {
    map["app" := svc]
  }

  /** The keys of the six objects of a deployment. */
  function PlanKeys(svc: string, ns: string): set<ObjKey> {
    {
      ObjKey(ConfigMapKind, ns, ScriptsName(svc)),
      ObjKey(ConfigMapKind, ns, EnvName(svc)),
      ObjKey(SecretKind, ns, SecretsName(svc)),
      ObjKey(ServiceKind, ns, svc),
      ObjKey(ServiceKind, ns, ExternalName(svc)),
      ObjKey(StatefulSetKind, ns, svc)
    }
  }

  // ---------------------------------------------------------------------
  // Scripts

  const ScriptPrologue: string :=
    "#!/bin/sh\nuser=ipfs\nsleep 10\nif [ ! -f /data/ipfs-cluster/service.json ]; then\n  ipfs-cluster-service init\nfi\n"
    + "sed -i 's~/ip4/127.0.0.1/tcp/9095~/ip4/0.0.0.0/tcp/9095~g' /data/ipfs-cluster/service.json\n"
    + "sed -i 's~/ip4/127.0.0.1/tcp/9094~/ip4/0.0.0.0/tcp/9094~g' /data/ipfs-cluster/service.json\n\n"

  /** The pattern the script greps the pod's hostname for. */
  function HostnamePattern(svc: string): string { svc + "-0" }

  /** The command that tests the hostname against the pattern. */
  function GrepCommand(svc: string): string {
    "grep -q \"" + HostnamePattern(svc) + "\""
  }

  function HostnameTest(svc: string): string {
    "if echo $(cat /proc/sys/kernel/hostname) | " + GrepCommand(svc) + "; then\n"
  }

  const BootstrapBranch: string :=
    "  CLUSTER_ID=${BOOTSTRAP_PEER_ID} \\\n  CLUSTER_PRIVATEKEY=${BOOTSTRAP_PEER_PRIV_KEY} \\\n"
    + "  exec ipfs-cluster-service daemon --upgrade\nelse\n"

  /** The multiaddress of the bootstrap peer: pod 0 of the statefulset, reached
      through the headless service, on the cluster swarm port. */
  function BootstrapAddr(svc: string, peerId: string): string {
    "/dns4/" + svc + "-0." + svc + "/tcp/9096/ipfs/" + peerId
  }

  /** The assignment of the join address. */
  function AddrAssignment(svc: string, peerId: string): string {
    "BOOTSTRAP_ADDR=" + BootstrapAddr(svc, peerId) + "\n"
  }

  const JoinFlag: string := "--bootstrap $BOOTSTRAP_ADDR"

  function JoinBranch(svc: string, peerId: string): string {
    "  " + AddrAssignment(svc, peerId) + ("  exec ipfs-cluster-service daemon --upgrade " + JoinFlag + " --leave\nfi\n")
  }

  /** The entrypoint of the ipfs-cluster container. */
  function EntrypointScript(svc: string, peerId: string): string {
    ScriptPrologue + HostnameTest(svc) + BootstrapBranch + JoinBranch(svc, peerId)
  }

  /** The init script that prepares the IPFS repository. */
  const ConfigureIpfsScript: string :=
    "#!/bin/sh\nset -e\nset -x\nuser=root\nmkdir -p /data/ipfs && chown -R ipfs /data/ipfs\nuser=ipfs\n"
    + "if [ -f /data/ipfs/config ]; then\n  if [ -f /data/ipfs/repo.lock ]; then\n    rm /data/ipfs/repo.lock\n  fi\n  exit 0\nfi\n"
    + "ipfs init --profile=badgerds,server\n"
    + "ipfs config --json Addresses.API /ip4/0.0.0.0/tcp/5001\n"
    + "ipfs config --json Addresses.Gateway /ip4/0.0.0.0/tcp/8080\n"
    + "ipfs config --json Swarm.ConnMgr.HighWater 2000\n"
    + "ipfs config --json Datastore.BloomFilterSize 1048576\n"
    + "ipfs config Datastore.StorageMax 100GB\n"

  /** How the cluster daemon starts. */
  datatype StartMode = BootstrapMode | JoinMode(bootstrapAddr: string)

  /** What the entrypoint script does on a pod with the given hostname: the
      pod whose hostname contains "<svc>-0" starts as the bootstrap peer,
      every other pod joins it. The script tests this with grep, which reads
      "<svc>-0" as a regular expression; a literal substring test agrees with
      it because topology ids are uuids, whose hex digits and dashes have no
      special meaning in a pattern. ValidTopologyId does not itself restrict
      the id to those characters. */
  function EntrypointMode(svc: string, peerId: string, hostname: string): StartMode {
    if Contains(hostname, HostnamePattern(svc)) then BootstrapMode else JoinMode(BootstrapAddr(svc, peerId))
  }

  /** The script text carries the hostname test and the join address that
      EntrypointMode reads from it. */
  lemma EntrypointScriptShape(svc: string, peerId: string)
    ensures Contains(EntrypointScript(svc, peerId), GrepCommand(svc))
    ensures Contains(EntrypointScript(svc, peerId), AddrAssignment(svc, peerId))
    ensures Contains(EntrypointScript(svc, peerId), JoinFlag)
  {
    var head := ScriptPrologue + HostnameTest(svc);
    ContainsMiddle("if echo $(cat /proc/sys/kernel/hostname) | ", GrepCommand(svc), "; then\n");
    ContainsSuffix(ScriptPrologue, HostnameTest(svc), GrepCommand(svc));
    ContainsPrefix(head, BootstrapBranch, GrepCommand(svc));
    ContainsPrefix(head + BootstrapBranch, JoinBranch(svc, peerId), GrepCommand(svc));

    var tail := "  exec ipfs-cluster-service daemon --upgrade " + JoinFlag + " --leave\nfi\n";
    ContainsMiddle("  ", AddrAssignment(svc, peerId), tail);
    ContainsSuffix(head + BootstrapBranch, JoinBranch(svc, peerId), AddrAssignment(svc, peerId));

    ContainsMiddle("  exec ipfs-cluster-service daemon --upgrade ", JoinFlag, " --leave\nfi\n");
    ContainsSuffix("  " + AddrAssignment(svc, peerId), tail, JoinFlag);
    ContainsSuffix(head + BootstrapBranch, JoinBranch(svc, peerId), JoinFlag);
  }

  /** The hostname of the statefulset pod with the given ordinal. */
  function PodHostname(svc: string, ordinal: nat): string {
    svc + "-" + Decimal(ordinal)
  }

  /** Exactly one pod of the statefulset starts as the bootstrap peer: the one
      with ordinal 0. */
  lemma OnlyFirstPodBootstraps(id: string, peerId: string, ordinal: nat)
    requires ValidTopologyId(id)
    ensures EntrypointMode(ServiceName(id), peerId, PodHostname(ServiceName(id), ordinal)).BootstrapMode? <==> ordinal == 0
  {
    var svc := ServiceName(id);
    var h := PodHostname(svc, ordinal);
    var p := HostnamePattern(svc);
    var d := Decimal(ordinal);
    assert |p| == 19 && p[4] == '-' && p[17] == '-' && p[18] == '0';
    assert svc[0] == 'i' && svc[4] == '-' by { assert svc[..5] == "ipfs-"; assert svc[0] == svc[..5][0]; assert svc[4] == svc[..5][4]; }
    if ordinal == 0 {
      assert d == "0";
      assert h == p;
      assert OccursAt(h, p, 0);
    } else {
      assert h[..17] == svc && h[17] == '-';
      assert forall j | 18 <= j < |h| :: h[j] == d[j - 18] && IsDigit(h[j]);
      if Contains(h, p) {
        assert false;
      }
    }
  }

  /** The join address names pod 0 through the headless service. */
  lemma BootstrapAddrNamesFirstPod(svc: string, peerId: string)
    ensures BootstrapAddr(svc, peerId) == "/dns4/" + PodHostname(svc, 0) + "." + svc + "/tcp/9096/ipfs/" + peerId
  {
    assert Decimal(0) == "0";
  }

  // ---------------------------------------------------------------------
  // The objects of a deployment

  function ScriptsConfigMap(svc: string, ns: string, peerId: string): (r: Object)
    ensures KeyOf(r) == ObjKey(ConfigMapKind, ns, ScriptsName(svc)) && Admitted(ns, r)
  {
    ConfigMapObj(ConfigMap(
      ObjectMeta(ScriptsName(svc), ns, map[]),
      map["entrypoint.sh" := EntrypointScript(svc, peerId), "configure-ipfs.sh" := ConfigureIpfsScript]))
  }

  function EnvConfigMap(svc: string, ns: string, peerId: string): (r: Object)
    ensures KeyOf(r) == ObjKey(ConfigMapKind, ns, EnvName(svc)) && Admitted(ns, r)
  {
    ConfigMapObj(ConfigMap(ObjectMeta(EnvName(svc), ns, map[]), map["bootstrap-peer-id" := peerId]))
  }

  function ClusterSecrets(svc: string, ns: string, keyPair: KeyPair, clusterSecret: string): (r: Object)
    ensures KeyOf(r) == ObjKey(SecretKind, ns, SecretsName(svc)) && Admitted(ns, r)
  {
    SecretObj(Secret(
      ObjectMeta(SecretsName(svc), ns, map[]),
      SecretTypeOpaque,
      map["cluster-secret" := clusterSecret, "bootstrap-peer-priv-key" := keyPair.privateKey]))
  }

  /** The ports of the headless service. */
  const HeadlessPorts: seq<ServicePort> := [
    ServicePort("swarm", 4001, None, Unset),
    ServicePort("swarm-udp", 4002, None, UDP),
    ServicePort("api", 5001, None, Unset),
    ServicePort("ws", 8081, None, Unset),
    ServicePort("http", 8080, None, Unset),
    ServicePort("cluster-swarm", 9096, None, Unset),
    ServicePort("cluster-api", 9094, None, Unset),
    ServicePort("cluster-proxy", 9095, None, Unset)
  ]

  /** The external service forwards each port to the same container port. */
  const ExternalPorts: seq<ServicePort> := [
    ServicePort("swarm", 4001, Some(4001), Unset),
    ServicePort("swarm-udp", 4002, Some(4002), UDP),
    ServicePort("api", 5001, Some(5001), Unset),
    ServicePort("http", 8080, Some(8080), Unset),
    ServicePort("ws", 8081, Some(8081), Unset),
    ServicePort("cluster-api", 9094, Some(9094), Unset),
    ServicePort("cluster-proxy", 9095, Some(9095), Unset),
    ServicePort("cluster-swarm", 9096, Some(9096), Unset)
  ]

  /** The ports of the ipfs container. */
  const IpfsPorts: seq<ContainerPort> := [
    ContainerPort("swarm", 4001, TCP),
    ContainerPort("swarm-udp", 4002, UDP),
    ContainerPort("api", 5001, Unset),
    ContainerPort("ws", 8081, Unset),
    ContainerPort("http", 8080, Unset)
  ]

  /** The ports of the ipfs-cluster container. */
  const ClusterPorts: seq<ContainerPort> := [
    ContainerPort("api-http", 9094, Unset),
    ContainerPort("proxy-http", 9095, Unset),
    ContainerPort("cluster-swarm", 9096, Unset)
  ]

  function HeadlessService(svc: string, ns: string): (r: Object)
    ensures KeyOf(r) == ObjKey(ServiceKind, ns, svc)
    ensures svc != "" ==> Admitted(ns, r)
  {
    ServiceObj(Service(
      ObjectMeta(svc, ns, map[]), ClusterIPNone, "", AppLabels(svc),
      HeadlessPorts))
  }

  function ExternalService(svc: string, ns: string): (r: Object)
    ensures KeyOf(r) == ObjKey(ServiceKind, ns, ExternalName(svc)) && Admitted(ns, r)
  {
    ServiceObj(Service(
      ObjectMeta(ExternalName(svc), ns, map[]), "", ServiceTypeLoadBalancer, AppLabels(svc),
      ExternalPorts))
  }

  function StorageClaim(name: string): PersistentVolumeClaim {
    PersistentVolumeClaim(Named(name), [ReadWriteOnce], Some("standard"), "30Gi")
  }

  /** The statefulset of the deployment. The peer id is a parameter of the
      builder but the pods read it from the env config map. */
  function BuildStatefulSet(svc: string, ns: string, replicas: int, peerId: string): (r: StatefulSet)
    ensures KeyOf(StatefulSetObj(r)) == ObjKey(StatefulSetKind, ns, svc)
    ensures svc != "" && replicas >= 0 ==> Admitted(ns, StatefulSetObj(r))
  {
    var storageMounts := [VolumeMount("ipfs-storage", "/data/ipfs"), VolumeMount("configure-script", "/custom")];
    StatefulSet(
      ObjectMeta(svc, ns, map[]),
      svc,
      Some(replicas),
      AppLabels(svc),
      PodTemplate(
        AppLabels(svc),
        PodSpec(
          [Container("configure-ipfs", "ipfs/kubo:release", ["sh", "/custom/configure-ipfs.sh"], [], [], [], storageMounts, None)],
          [
            Container("ipfs", "ipfs/kubo:release", [],
              [EnvVar("IPFS_FD_MAX", Literal("4096"))],
              [],
              IpfsPorts,
              storageMounts,
              None),
            Container("ipfs-cluster", "ipfs/ipfs-cluster:latest", ["sh", "/custom/entrypoint.sh"],
              [
                EnvVar("BOOTSTRAP_PEER_ID", ConfigMapKeyRef(EnvName(svc), "bootstrap-peer-id")),
                EnvVar("BOOTSTRAP_PEER_PRIV_KEY", SecretKeyRef(SecretsName(svc), "bootstrap-peer-priv-key")),
                EnvVar("CLUSTER_SECRET", SecretKeyRef(SecretsName(svc), "cluster-secret")),
                EnvVar("CLUSTER_MONITOR_PING_INTERVAL", Literal("3m")),
                EnvVar("SVC_NAME", Literal(svc))
              ],
              [],
              ClusterPorts,
              [VolumeMount("cluster-storage", "/data/ipfs-cluster"), VolumeMount("configure-script", "/custom")],
              None)
          ],
          [ConfigMapVolume("configure-script", ScriptsName(svc))])),
      [StorageClaim("cluster-storage"), StorageClaim("ipfs-storage")])
  }

  /** The replica count: the number of nodes as an int32, at least 1. */
  function ReplicaCount(nodes: nat): (r: int)
    ensures 1 <= r <= Int32Max
    ensures 1 <= nodes <= Int32Max ==> r == nodes
    ensures nodes == 0 ==> r == 1
  {
    var n := ToInt32(nodes);
    if n < 1 then 1 else n
  }

  /** The six objects in creation order. */
  function Plan(svc: string, ns: string, keyPair: KeyPair, clusterSecret: string, replicas: int): (plan: seq<Object>)
    ensures |plan| == |Steps|
  {
    [
      ScriptsConfigMap(svc, ns, keyPair.peerId),
      EnvConfigMap(svc, ns, keyPair.peerId),
      ClusterSecrets(svc, ns, keyPair, clusterSecret),
      HeadlessService(svc, ns),
      ExternalService(svc, ns),
      StatefulSetObj(BuildStatefulSet(svc, ns, replicas, keyPair.peerId))
    ]
  }

  function DeployPlan(cfg: DeployConfig, keyPair: KeyPair, clusterSecret: string): seq<Object>
    requires ValidTopologyId(cfg.topologyId)
  {
    Plan(ServiceName(cfg.topologyId), cfg.namespace, keyPair, clusterSecret, ReplicaCount(|cfg.nodes|))
  }

  /** Every object of the plan passes the API server's checks and is
      addressed by its own key. */
  lemma PlanAdmissible(svc: string, ns: string, keyPair: KeyPair, clusterSecret: string, replicas: int)
    requires svc != "" && replicas >= 0
    ensures var plan := Plan(svc, ns, keyPair, clusterSecret, replicas);
      forall i | 0 <= i < |plan| :: Admitted(ns, plan[i])
  {
  }

  /** The six objects of the plan have six different keys. */
  lemma PlanKeysDistinct(svc: string, ns: string, keyPair: KeyPair, clusterSecret: string, replicas: int)
    ensures var plan := Plan(svc, ns, keyPair, clusterSecret, replicas);
      forall i, j | 0 <= i < j < |plan| :: RequestKey(ns, plan[i]) != RequestKey(ns, plan[j])
  {
    assert |ScriptsName(svc)| != |EnvName(svc)|;
    assert |svc| != |ExternalName(svc)|;
  }

  /** The plan creates exactly the objects named by PlanKeys. */
  lemma PlanCoversKeys(svc: string, ns: string, keyPair: KeyPair, clusterSecret: string, replicas: int)
    ensures KeysOf(Plan(svc, ns, keyPair, clusterSecret, replicas)) == PlanKeys(svc, ns)
  {
    var plan := Plan(svc, ns, keyPair, clusterSecret, replicas);
    assert KeyOf(plan[0]) == ObjKey(ConfigMapKind, ns, ScriptsName(svc));
    assert KeyOf(plan[1]) == ObjKey(ConfigMapKind, ns, EnvName(svc));
    assert KeyOf(plan[2]) == ObjKey(SecretKind, ns, SecretsName(svc));
    assert KeyOf(plan[3]) == ObjKey(ServiceKind, ns, svc);
    assert KeyOf(plan[4]) == ObjKey(ServiceKind, ns, ExternalName(svc));
    assert KeyOf(plan[5]) == ObjKey(StatefulSetKind, ns, svc);
  }

  // ---------------------------------------------------------------------
  // Consistency between the objects

  /** The key of `data` a reference names exists in an object of the plan. */
  predicate EnvResolves(plan: seq<Object>, source: EnvSource) {
    match source
    case Literal(_) => true
    case ConfigMapKeyRef(name, key) =>
      exists i | 0 <= i < |plan| :: plan[i].ConfigMapObj? && plan[i].configMap.meta.name == name && key in plan[i].configMap.data
    case SecretKeyRef(name, key) =>
      exists i | 0 <= i < |plan| :: plan[i].SecretObj? && plan[i].secret.meta.name == name && key in plan[i].secret.data
  }

  /** The name of the config map or secret an env source reads, if any. */
  function SourceName(source: EnvSource): Option<string> {
    match source
    case Literal(_) => None
    case ConfigMapKeyRef(name, _) => Some(name)
    case SecretKeyRef(name, _) => Some(name)
  }

  /** The statefulset refers to exactly three other objects: its env vars
      read only the env config map and the secret, both of them are read, and
      its one volume is the scripts config map. */
  lemma StatefulSetReferences(svc: string, ns: string, replicas: int, peerId: string)
    ensures var spec := BuildStatefulSet(svc, ns, replicas, peerId).template.spec;
      var containers := spec.initContainers + spec.containers;
      && (forall c, e | c in containers && e in c.env && SourceName(e.source).Some? ::
            SourceName(e.source).value in {EnvName(svc), SecretsName(svc)})
      && (exists c, e | c in containers && e in c.env :: SourceName(e.source) == Some(EnvName(svc)))
      && (exists c, e | c in containers && e in c.env :: SourceName(e.source) == Some(SecretsName(svc)))
      && spec.volumes == [ConfigMapVolume("configure-script", ScriptsName(svc))]
  {
    var spec := BuildStatefulSet(svc, ns, replicas, peerId).template.spec;
    var containers := spec.initContainers + spec.containers;
    assert containers == [spec.initContainers[0], spec.containers[0], spec.containers[1]];
    var cluster := spec.containers[1];
    assert cluster in containers && cluster.env[0] in cluster.env && cluster.env[1] in cluster.env;
    forall c, e | c in containers && e in c.env && SourceName(e.source).Some?
      ensures SourceName(e.source).value in {EnvName(svc), SecretsName(svc)}
    {
      assert c == cluster;
    }
  }

  /** Every config map or secret key the statefulset reads exists in the
      object of the same plan it names, and so does the config map behind
      its volume. */
  lemma StatefulSetReferencesResolve(svc: string, ns: string, keyPair: KeyPair, clusterSecret: string, replicas: int)
    ensures var plan := Plan(svc, ns, keyPair, clusterSecret, replicas);
      var spec := plan[5].statefulSet.template.spec;
      && (forall c, e | c in spec.initContainers + spec.containers && e in c.env :: EnvResolves(plan, e.source))
      && (forall v | v in spec.volumes :: exists i | 0 <= i < |plan| :: plan[i].ConfigMapObj? && plan[i].configMap.meta.name == v.configMap)
  {
    var plan := Plan(svc, ns, keyPair, clusterSecret, replicas);
    var spec := plan[5].statefulSet.template.spec;
    var containers := spec.initContainers + spec.containers;
    assert containers == [spec.initContainers[0], spec.containers[0], spec.containers[1]];
    var cluster := spec.containers[1];
    assert EnvResolves(plan, cluster.env[0].source) by { assert plan[1].configMap.meta.name == EnvName(svc); }
    assert EnvResolves(plan, cluster.env[1].source) by { assert plan[2].secret.meta.name == SecretsName(svc); }
    assert EnvResolves(plan, cluster.env[2].source) by { assert plan[2].secret.meta.name == SecretsName(svc); }
    assert plan[0].configMap.meta.name == ScriptsName(svc);
  }

  /** Every volume a container of the statefulset mounts is a pod volume or
      one of its claim templates. */
  lemma StatefulSetMountsBacked(svc: string, ns: string, replicas: int, peerId: string)
    ensures var sts := BuildStatefulSet(svc, ns, replicas, peerId);
      var spec := sts.template.spec;
      forall c, m | c in spec.initContainers + spec.containers && m in c.volumeMounts ::
        (exists v | v in spec.volumes :: v.name == m.name) || (exists pvc | pvc in sts.claimTemplates :: pvc.meta.name == m.name)
  {
    var sts := BuildStatefulSet(svc, ns, replicas, peerId);
    var spec := sts.template.spec;
    assert spec.initContainers + spec.containers == [spec.initContainers[0], spec.containers[0], spec.containers[1]];
    assert spec.volumes[0].name == "configure-script";
    assert sts.claimTemplates[0].meta.name == "cluster-storage";
    assert sts.claimTemplates[1].meta.name == "ipfs-storage";
  }

  /** Every pod-selecting label set of the deployment is app=<svc>: the
      statefulset selector, its pod template and both services; and the
      statefulset is governed by the headless service. */
  lemma SelectorsAgree(svc: string, ns: string, keyPair: KeyPair, clusterSecret: string, replicas: int)
    ensures var plan := Plan(svc, ns, keyPair, clusterSecret, replicas);
      && plan[5].statefulSet.selector == AppLabels(svc)
      && plan[5].statefulSet.template.labels == AppLabels(svc)
      && plan[3].service.selector == AppLabels(svc)
      && plan[4].service.selector == AppLabels(svc)
      && plan[5].statefulSet.serviceName == plan[3].service.meta.name
      && Selects(Selector("app", svc), plan[5].statefulSet.template.labels)
  {
  }

  /** Two service ports with the same name, number and protocol. */
  predicate SamePort(a: ServicePort, b: ServicePort) {
    a.name == b.name && a.port == b.port && a.protocol == b.protocol
  }

  /** Both services expose the same eight ports: name, number and protocol. */
  lemma ServicePortsAgree()
    ensures |HeadlessPorts| == 8 && |ExternalPorts| == 8
    ensures forall i | 0 <= i < 8 :: exists j | 0 <= j < 8 :: SamePort(HeadlessPorts[i], ExternalPorts[j])
    ensures forall j | 0 <= j < 8 :: exists i | 0 <= i < 8 :: SamePort(HeadlessPorts[i], ExternalPorts[j])
  {
    var toExternal := [0, 1, 2, 4, 3, 7, 5, 6];
    var toHeadless := [0, 1, 2, 4, 3, 6, 7, 5];
    forall i | 0 <= i < 8 ensures exists j | 0 <= j < 8 :: SamePort(HeadlessPorts[i], ExternalPorts[j]) {
      assert SamePort(HeadlessPorts[i], ExternalPorts[toExternal[i]]);
    }
    forall j | 0 <= j < 8 ensures exists i | 0 <= i < 8 :: SamePort(HeadlessPorts[i], ExternalPorts[j]) {
      assert SamePort(HeadlessPorts[toHeadless[j]], ExternalPorts[j]);
    }
  }

  /** The eight ports have eight different numbers, and the external
      service forwards each to the same number. */
  lemma ServicePortNumbers()
    ensures forall i, j | 0 <= i < j < |HeadlessPorts| :: HeadlessPorts[i].port != HeadlessPorts[j].port
    ensures forall i | 0 <= i < |ExternalPorts| :: ExternalPorts[i].targetPort == Some(ExternalPorts[i].port)
  {
  }

  /** The headless service has no cluster IP and the external one is a load
      balancer; they carry the port lists above and select the same pods. */
  lemma ServiceShapes(svc: string, ns: string)
    ensures var headless := HeadlessService(svc, ns).service;
      var external := ExternalService(svc, ns).service;
      && headless.clusterIP == ClusterIPNone && headless.ports == HeadlessPorts
      && external.serviceType == ServiceTypeLoadBalancer && external.ports == ExternalPorts
      && headless.selector == external.selector
  {
  }

  /** A container port list has a port with this number. */
  predicate Listens(ports: seq<ContainerPort>, port: int) {
    exists k | 0 <= k < |ports| :: ports[k].port == port
  }

  /** Every port number the external service forwards to is a port one of
      the two containers of the statefulset listens on. */
  lemma ExternalTargetsListen(svc: string, ns: string, replicas: int, peerId: string)
    ensures var containers := BuildStatefulSet(svc, ns, replicas, peerId).template.spec.containers;
      forall i | 0 <= i < |ExternalPorts| ::
        exists c | 0 <= c < |containers| :: Listens(containers[c].ports, ExternalPorts[i].port)
  {
    var containers := BuildStatefulSet(svc, ns, replicas, peerId).template.spec.containers;
    assert |containers| == 2 && containers[0].ports == IpfsPorts && containers[1].ports == ClusterPorts;
    var ipfsIndex := [0, 1, 2, 4, 3];
    forall i | 0 <= i < |ExternalPorts|
      ensures exists c | 0 <= c < |containers| :: Listens(containers[c].ports, ExternalPorts[i].port)
    {
      if i < 5 {
        assert IpfsPorts[ipfsIndex[i]].port == ExternalPorts[i].port;
        assert Listens(containers[0].ports, ExternalPorts[i].port);
      } else {
        assert ClusterPorts[i - 5].port == ExternalPorts[i].port;
        assert Listens(containers[1].ports, ExternalPorts[i].port);
      }
    }
  }

  // ---------------------------------------------------------------------
  // Applying the plan

  /** The result of creating a plan: the store afterwards, how many creates
      were issued, and the error that stopped the sequence, if any. */
  datatype Applied = Applied(objects: Store, attempted: nat, failure: Option<ApiError>)

  /** The error a create reports to the sequence: none when it succeeded or
      the object already existed. */
  function Tolerated(outcome: Result<Object, ApiError>): (r: Option<ApiError>)
    ensures r.None? <==> outcome.Ok? || outcome.error == AlreadyExistsError
    ensures r.Some? ==> r.value != AlreadyExistsError
  {
    if outcome.Err? && outcome.error != AlreadyExistsError then Some(outcome.error) else None
  }

  /** Creates plan[k..] in order; the first error other than "already exists"
      stops the sequence. */
  function CreateFrom(objects: Store, faults: Faults, ns: string, plan: seq<Object>, k: nat): (r: Applied)
    requires k <= |plan|
    ensures k <= r.attempted <= |plan|
    ensures r.failure.None? ==> r.attempted == |plan|
    ensures r.failure.Some? ==> r.attempted > k && r.failure.value != AlreadyExistsError
    ensures forall key | key in objects :: key in r.objects && r.objects[key] == objects[key]
    decreases |plan| - k
  {
    if k == |plan| then Applied(objects, k, None)
    else
      var failure := Tolerated(CreateOutcome(objects, faults, ns, plan[k]));
      if failure.Some? then Applied(objects, k + 1, failure)
      else CreateFrom(AfterCreate(objects, faults, ns, plan[k]), faults, ns, plan, k + 1)
  }

  /** Everything one Deploy call does to the cluster. */
  datatype DeployRun = DeployRun(error: Option<DeployError>, objects: Store, calls: seq<ApiCall>)

  /** The run that applied `plan` in namespace `ns` with result `applied`. */
  function RunOf(ns: string, plan: seq<Object>, applied: Applied): DeployRun
    requires applied.attempted <= |plan| == |Steps|
    requires applied.failure.Some? ==> applied.attempted >= 1
  {
    DeployRun(
      if applied.failure.None? then None else Some(CreateFailed(Steps[applied.attempted - 1], applied.failure.value)),
      applied.objects,
      CreateCalls(ns, plan, applied.attempted))
  }

  function DeployOutcome(objects: Store, faults: Faults, cfg: DeployConfig, keyPair: Option<KeyPair>, clusterSecret: Option<string>): DeployRun
    requires ValidTopologyId(cfg.topologyId)
  {
    if keyPair.None? then DeployRun(Some(KeyGenerationFailed), objects, [])
    else if clusterSecret.None? then DeployRun(Some(SecretGenerationFailed), objects, [])
    else
      var plan := DeployPlan(cfg, keyPair.value, clusterSecret.value);
      RunOf(cfg.namespace, plan, CreateFrom(objects, faults, cfg.namespace, plan, 0))
  }

  /** One create of the sequence, "already exists" counting as success. The
      ghost parameters place the create in the plan: it is step k. */
  method CreateTolerating(cluster: Cluster, ns: string, o: Object, ghost plan: seq<Object>, ghost k: nat, ghost trace0: seq<ApiCall>)
    returns (failure: Option<ApiError>)
    requires cluster.Valid()
    requires k < |plan| && plan[k] == o
    requires cluster.trace == trace0 + CreateCalls(ns, plan, k)
    modifies cluster`objects, cluster`trace
    ensures cluster.Valid()
    ensures failure.Some? ==>
      CreateFrom(old(cluster.objects), cluster.faults, ns, plan, k) == Applied(cluster.objects, k + 1, failure)
    ensures failure.None? ==>
      CreateFrom(old(cluster.objects), cluster.faults, ns, plan, k) == CreateFrom(cluster.objects, cluster.faults, ns, plan, k + 1)
    ensures cluster.trace == trace0 + CreateCalls(ns, plan, k + 1)
  {
    var r := cluster.Create(ns, o);
    CreateCallsNext(ns, plan, k);
    failure := None;
    if r.Err? {
      if r.error != AlreadyExistsError {
        failure := Some(r.error);
      }
    }
  }

  /** Creates the six objects of a plan in order, "already exists" counting
      as success; the first other error stops the sequence and names its step. */
  method ApplyPlan(cluster: Cluster, ns: string, plan: seq<Object>) returns (err: Option<DeployError>)
    requires cluster.Valid()
    requires |plan| == |Steps|
    modifies cluster`objects, cluster`trace
    ensures cluster.Valid()
    ensures var run := RunOf(ns, plan, CreateFrom(old(cluster.objects), cluster.faults, ns, plan, 0));
      err == run.error && cluster.objects == run.objects && cluster.trace == old(cluster.trace) + run.calls
  {
    ghost var trace0 := cluster.trace;
    assert cluster.trace == trace0 + CreateCalls(ns, plan, 0);
    var k := 0;
    while k < |plan|
      invariant 0 <= k <= |plan|
      invariant cluster.Valid()
      invariant cluster.faults == old(cluster.faults)
      invariant CreateFrom(old(cluster.objects), cluster.faults, ns, plan, 0) == CreateFrom(cluster.objects, cluster.faults, ns, plan, k)
      invariant cluster.trace == trace0 + CreateCalls(ns, plan, k)
    {
      var failure := CreateTolerating(cluster, ns, plan[k], plan, k, trace0);
      if failure.Some? {
        return Some(CreateFailed(Steps[k], failure.value));
      }
      k := k + 1;
    }
    return None;
  }

  /** Creates the deployment's six objects in order. A failed key or secret
      generation stops before any call; a create error other than "already
      exists" stops the sequence and names the step. */
  method Deploy(cluster: Cluster, cfg: DeployConfig, keyPair: Option<KeyPair>, clusterSecret: Option<string>)
    returns (err: Option<DeployError>)
    requires cluster.Valid()
    requires ValidTopologyId(cfg.topologyId)
    modifies cluster`objects, cluster`trace
    ensures cluster.Valid()
    ensures var run := DeployOutcome(old(cluster.objects), cluster.faults, cfg, keyPair, clusterSecret);
      err == run.error && cluster.objects == run.objects && cluster.trace == old(cluster.trace) + run.calls
  {
    if keyPair.None? {
      return Some(KeyGenerationFailed);
    }
    if clusterSecret.None? {
      return Some(SecretGenerationFailed);
    }
    var kp := keyPair.value;
    var svc := ServiceName(cfg.topologyId);
    var ns := cfg.namespace;
    var scripts := ScriptsConfigMap(svc, ns, kp.peerId);
    var env := EnvConfigMap(svc, ns, kp.peerId);
    var secret := ClusterSecrets(svc, ns, kp, clusterSecret.value);
    var headless := HeadlessService(svc, ns);
    var external := ExternalService(svc, ns);
    var replicas := ReplicaCount(|cfg.nodes|);
    var sts := StatefulSetObj(BuildStatefulSet(svc, ns, replicas, kp.peerId));
    var plan := [scripts, env, secret, headless, external, sts];
    assert plan == DeployPlan(cfg, kp, clusterSecret.value);
    err := ApplyPlan(cluster, ns, plan);
  }

  // ---------------------------------------------------------------------
  // What a deployment does to the store

  /** The keys the creates of plan[k..n] address. */
  function AddressedKeys(ns: string, plan: seq<Object>, k: nat, n: nat): set<ObjKey>
    requires k <= n <= |plan|
  {
    set i | k <= i < n :: RequestKey(ns, plan[i])
  }

  /** The create sequence only adds objects under the keys it addressed, and
      when it succeeds every key it addressed holds an object. */
  lemma {:induction false} CreateFromFootprint(objects: Store, faults: Faults, ns: string, plan: seq<Object>, k: nat)
    requires k <= |plan|
    ensures var r := CreateFrom(objects, faults, ns, plan, k);
      r.objects.Keys <= objects.Keys + AddressedKeys(ns, plan, k, r.attempted)
    ensures var r := CreateFrom(objects, faults, ns, plan, k);
      r.failure.None? ==> AddressedKeys(ns, plan, k, |plan|) <= r.objects.Keys
    decreases |plan| - k
  {
    if k < |plan| {
      var r := CreateFrom(objects, faults, ns, plan, k);
      var outcome := CreateOutcome(objects, faults, ns, plan[k]);
      if Tolerated(outcome).None? {
        var next := AfterCreate(objects, faults, ns, plan[k]);
        CreateFromFootprint(next, faults, ns, plan, k + 1);
        assert RequestKey(ns, plan[k]) in next;
        assert next.Keys <= objects.Keys + {RequestKey(ns, plan[k])};
        assert AddressedKeys(ns, plan, k, r.attempted) == {RequestKey(ns, plan[k])} + AddressedKeys(ns, plan, k + 1, r.attempted);
        assert AddressedKeys(ns, plan, k, |plan|) == {RequestKey(ns, plan[k])} + AddressedKeys(ns, plan, k + 1, |plan|);
      }
    }
  }

  /** A create sequence that succeeds met no rejection: every object passed
      validation and no create call was refused. */
  lemma {:induction false} CreateFromSuccessAccepted(objects: Store, faults: Faults, ns: string, plan: seq<Object>, k: nat)
    requires k <= |plan|
    requires CreateFrom(objects, faults, ns, plan, k).failure.None?
    ensures forall i | k <= i < |plan| ::
      Validate(ns, plan[i]).None? && CreateCall(RequestKey(ns, plan[i])) !in faults
    decreases |plan| - k
  {
    if k < |plan| {
      CreateFromSuccessAccepted(AfterCreate(objects, faults, ns, plan[k]), faults, ns, plan, k + 1);
    }
  }

  /** When every object of plan[k..] is already stored and nothing refuses
      its create, the sequence succeeds and changes nothing. */
  lemma {:induction false} CreateFromAllPresent(objects: Store, faults: Faults, ns: string, plan: seq<Object>, k: nat)
    requires k <= |plan|
    requires forall i | k <= i < |plan| ::
      Validate(ns, plan[i]).None? && CreateCall(RequestKey(ns, plan[i])) !in faults && RequestKey(ns, plan[i]) in objects
    ensures CreateFrom(objects, faults, ns, plan, k) == Applied(objects, |plan|, None)
    decreases |plan| - k
  {
    if k < |plan| {
      assert CreateOutcome(objects, faults, ns, plan[k]) == Err(AlreadyExistsError);
      CreateFromAllPresent(objects, faults, ns, plan, k + 1);
    }
  }

  /** When the objects of plan[k..] are admitted, have distinct keys, none of
      which is stored or refused, the sequence succeeds. */
  lemma {:induction false} CreateFromAllAbsent(objects: Store, faults: Faults, ns: string, plan: seq<Object>, k: nat)
    requires k <= |plan|
    requires forall i | k <= i < |plan| ::
      Admitted(ns, plan[i]) && CreateCall(RequestKey(ns, plan[i])) !in faults && RequestKey(ns, plan[i]) !in objects
    requires forall i, j | k <= i < j < |plan| :: RequestKey(ns, plan[i]) != RequestKey(ns, plan[j])
    ensures CreateFrom(objects, faults, ns, plan, k).failure.None?
    decreases |plan| - k
  {
    if k < |plan| {
      var next := AfterCreate(objects, faults, ns, plan[k]);
      assert CreateOutcome(objects, faults, ns, plan[k]).Ok?;
      assert next.Keys == objects.Keys + {RequestKey(ns, plan[k])};
      CreateFromAllAbsent(next, faults, ns, plan, k + 1);
    }
  }

  /** The keys a deployment creates, as the API server addresses them. */
  lemma DeployAddresses(cfg: DeployConfig, keyPair: KeyPair, clusterSecret: string)
    requires ValidTopologyId(cfg.topologyId)
    ensures var plan := DeployPlan(cfg, keyPair, clusterSecret);
      && AddressedKeys(cfg.namespace, plan, 0, |plan|) == PlanKeys(ServiceName(cfg.topologyId), cfg.namespace)
      && (forall i | 0 <= i < |plan| :: Admitted(cfg.namespace, plan[i]))
      && (forall i, j | 0 <= i < j < |plan| :: RequestKey(cfg.namespace, plan[i]) != RequestKey(cfg.namespace, plan[j]))
  {
    var svc := ServiceName(cfg.topologyId);
    var ns := cfg.namespace;
    var replicas := ReplicaCount(|cfg.nodes|);
    var plan := Plan(svc, ns, keyPair, clusterSecret, replicas);
    PlanAdmissible(svc, ns, keyPair, clusterSecret, replicas);
    PlanKeysDistinct(svc, ns, keyPair, clusterSecret, replicas);
    PlanCoversKeys(svc, ns, keyPair, clusterSecret, replicas);
    assert forall i | 0 <= i < |plan| :: RequestKey(ns, plan[i]) == KeyOf(plan[i]);
    assert AddressedKeys(ns, plan, 0, |plan|) == KeysOf(plan);
  }

  /** A deployment only ever adds the objects named by PlanKeys, leaves every
      object already stored as it was, and on success all six exist. */
  lemma DeployFootprint(objects: Store, faults: Faults, cfg: DeployConfig, keyPair: Option<KeyPair>, clusterSecret: Option<string>)
    requires ValidTopologyId(cfg.topologyId)
    ensures var run := DeployOutcome(objects, faults, cfg, keyPair, clusterSecret);
      var keys := PlanKeys(ServiceName(cfg.topologyId), cfg.namespace);
      && run.objects.Keys <= objects.Keys + keys
      && (forall key | key in objects :: key in run.objects && run.objects[key] == objects[key])
      && (run.error.None? ==> keys <= run.objects.Keys)
  {
    if keyPair.Some? && clusterSecret.Some? {
      var plan := DeployPlan(cfg, keyPair.value, clusterSecret.value);
      DeployAddresses(cfg, keyPair.value, clusterSecret.value);
      CreateFromFootprint(objects, faults, cfg.namespace, plan, 0);
      var r := CreateFrom(objects, faults, cfg.namespace, plan, 0);
      assert AddressedKeys(cfg.namespace, plan, 0, r.attempted) <= AddressedKeys(cfg.namespace, plan, 0, |plan|);
    }
  }

  /** Deploying again after a successful deployment succeeds and changes
      nothing, whatever identity the generators produce the second time. */
  lemma RedeployChangesNothing(objects: Store, faults: Faults, cfg: DeployConfig, first: KeyPair, firstSecret: string, second: KeyPair, secondSecret: string)
    requires ValidTopologyId(cfg.topologyId)
    requires DeployOutcome(objects, faults, cfg, Some(first), Some(firstSecret)).error.None?
    ensures var deployed := DeployOutcome(objects, faults, cfg, Some(first), Some(firstSecret)).objects;
      var again := DeployOutcome(deployed, faults, cfg, Some(second), Some(secondSecret));
      again.error.None? && again.objects == deployed
  {
    var ns := cfg.namespace;
    var plan1 := DeployPlan(cfg, first, firstSecret);
    var plan2 := DeployPlan(cfg, second, secondSecret);
    var deployed := CreateFrom(objects, faults, ns, plan1, 0).objects;
    DeployAddresses(cfg, first, firstSecret);
    DeployAddresses(cfg, second, secondSecret);
    CreateFromFootprint(objects, faults, ns, plan1, 0);
    CreateFromSuccessAccepted(objects, faults, ns, plan1, 0);
    forall i | 0 <= i < |plan2|
      ensures Validate(ns, plan2[i]).None? && CreateCall(RequestKey(ns, plan2[i])) !in faults && RequestKey(ns, plan2[i]) in deployed
    {
      var key := RequestKey(ns, plan2[i]);
      assert key in AddressedKeys(ns, plan2, 0, |plan2|);
      var j :| 0 <= j < |plan1| && RequestKey(ns, plan1[j]) == key;
    }
    CreateFromAllPresent(deployed, faults, ns, plan2, 0);
  }

  // ---------------------------------------------------------------------
  // Teardown

  /** The keys Undeploy deletes, in order: the statefulset first, then the
      services, the config maps and the secret. */
  function TeardownKeys(svc: string, ns: string): seq<ObjKey> {
    [
      ObjKey(StatefulSetKind, ns, svc),
      ObjKey(ServiceKind, ns, svc),
      ObjKey(ServiceKind, ns, ExternalName(svc)),
      ObjKey(ConfigMapKind, ns, ScriptsName(svc)),
      ObjKey(ConfigMapKind, ns, EnvName(svc)),
      ObjKey(SecretKind, ns, SecretsName(svc))
    ]
  }

  /** The teardown deletes exactly the objects a deployment creates. */
  lemma TeardownMatchesPlan(svc: string, ns: string)
    ensures |TeardownKeys(svc, ns)| == |Steps|
    ensures (set i | 0 <= i < |TeardownKeys(svc, ns)| :: TeardownKeys(svc, ns)[i]) == PlanKeys(svc, ns)
  {
    var keys := TeardownKeys(svc, ns);
    var found := set i | 0 <= i < |keys| :: keys[i];
    assert keys[0] in found && keys[1] in found && keys[2] in found;
    assert keys[3] in found && keys[4] in found && keys[5] in found;
  }

  /** Removes a topology's six objects. Every delete error, a missing object
      included, is ignored, so the teardown always reports success. */
  method Undeploy(cluster: Cluster, topologyId: string, ns: string) returns (err: Option<ApiError>)
    requires cluster.Valid()
    requires ValidTopologyId(topologyId)
    modifies cluster`objects, cluster`trace
    ensures cluster.Valid()
    ensures err.None?
    ensures var keys := TeardownKeys(ServiceName(topologyId), ns);
      cluster.objects == DeleteAll(old(cluster.objects), cluster.faults, keys)
      && cluster.trace == old(cluster.trace) + DeleteCalls(keys)
  {
    DeleteIgnoringErrors(cluster, TeardownKeys(ServiceName(topologyId), ns));
    return None;
  }

  /** Creating objects under fresh keys and then deleting those keys, with
      nothing refused, gives back the store one started from. */
  lemma CreateThenDeleteRestores(objects: Store, faults: Faults, ns: string, plan: seq<Object>, keys: seq<ObjKey>)
    requires forall i | 0 <= i < |plan| ::
      Admitted(ns, plan[i]) && CreateCall(RequestKey(ns, plan[i])) !in faults && RequestKey(ns, plan[i]) !in objects
    requires forall i, j | 0 <= i < j < |plan| :: RequestKey(ns, plan[i]) != RequestKey(ns, plan[j])
    requires (set i | 0 <= i < |keys| :: keys[i]) == AddressedKeys(ns, plan, 0, |plan|)
    requires forall i | 0 <= i < |keys| :: DeleteCall(keys[i]) !in faults
    ensures CreateFrom(objects, faults, ns, plan, 0).failure.None?
    ensures DeleteAll(CreateFrom(objects, faults, ns, plan, 0).objects, faults, keys) == objects
  {
    CreatesAddAbsentKeys(objects, faults, ns, plan);
    var created := CreateFrom(objects, faults, ns, plan, 0).objects;
    ListedKeys(keys);
    assert forall key | key in keys :: DeleteCall(key) !in faults;
    DeleteRestores(objects, created, faults, keys, AddressedKeys(ns, plan, 0, |plan|));
  }

  /** Deleting, with nothing refused, exactly the keys that were added to a
      store gives the store back. */
  lemma DeleteRestores(objects: Store, grown: Store, faults: Faults, keys: seq<ObjKey>, added: set<ObjKey>)
    requires grown.Keys == objects.Keys + added && objects.Keys !! added
    requires forall key | key in objects :: grown[key] == objects[key]
    requires forall key :: key in keys <==> key in added
    requires forall key | key in keys :: DeleteCall(key) !in faults
    ensures DeleteAll(grown, faults, keys) == objects
  {
    var restored := DeleteAll(grown, faults, keys);
    assert restored.Keys == objects.Keys;
  }

  /** Creating objects under fresh keys, with nothing refused, adds exactly
      those keys to the store. */
  lemma CreatesAddAbsentKeys(objects: Store, faults: Faults, ns: string, plan: seq<Object>)
    requires forall i | 0 <= i < |plan| ::
      Admitted(ns, plan[i]) && CreateCall(RequestKey(ns, plan[i])) !in faults && RequestKey(ns, plan[i]) !in objects
    requires forall i, j | 0 <= i < j < |plan| :: RequestKey(ns, plan[i]) != RequestKey(ns, plan[j])
    ensures CreateFrom(objects, faults, ns, plan, 0).failure.None?
    ensures CreateFrom(objects, faults, ns, plan, 0).objects.Keys == objects.Keys + AddressedKeys(ns, plan, 0, |plan|)
    ensures objects.Keys !! AddressedKeys(ns, plan, 0, |plan|)
  {
    CreateFromAllAbsent(objects, faults, ns, plan, 0);
    CreateFromFootprint(objects, faults, ns, plan, 0);
    forall key | key in AddressedKeys(ns, plan, 0, |plan|)
      ensures key !in objects
    {
      var j :| 0 <= j < |plan| && RequestKey(ns, plan[j]) == key;
    }
  }

  /** A key occurs in a sequence exactly when it is in the set of its elements. */
  lemma ListedKeys(keys: seq<ObjKey>)
    ensures forall key :: key in keys <==> key in (set i | 0 <= i < |keys| :: keys[i])
  {
    forall key | key in keys
      ensures key in (set i | 0 <= i < |keys| :: keys[i])
    {
      var i :| 0 <= i < |keys| && keys[i] == key;
    }
  }

  /** Deploying into a store that holds none of the topology's objects, with
      no create or delete refused, and then tearing down restores the store. */
  lemma DeployThenUndeployRestores(objects: Store, faults: Faults, cfg: DeployConfig, keyPair: KeyPair, clusterSecret: string)
    requires ValidTopologyId(cfg.topologyId)
    requires forall key | key in PlanKeys(ServiceName(cfg.topologyId), cfg.namespace) ::
      key !in objects && CreateCall(key) !in faults && DeleteCall(key) !in faults
    ensures var run := DeployOutcome(objects, faults, cfg, Some(keyPair), Some(clusterSecret));
      && run.error.None?
      && DeleteAll(run.objects, faults, TeardownKeys(ServiceName(cfg.topologyId), cfg.namespace)) == objects
  {
    var svc := ServiceName(cfg.topologyId);
    var ns := cfg.namespace;
    var plan := DeployPlan(cfg, keyPair, clusterSecret);
    DeployAddresses(cfg, keyPair, clusterSecret);
    TeardownMatchesPlan(svc, ns);
    KeyedPlanRestores(objects, faults, ns, plan, TeardownKeys(svc, ns), PlanKeys(svc, ns));
  }

  /** CreateThenDeleteRestores, for a plan and a key list that both address
      exactly the set footprint. */
  lemma KeyedPlanRestores(objects: Store, faults: Faults, ns: string, plan: seq<Object>, keys: seq<ObjKey>, footprint: set<ObjKey>)
    requires AddressedKeys(ns, plan, 0, |plan|) == footprint
    requires (set i | 0 <= i < |keys| :: keys[i]) == footprint
    requires forall i | 0 <= i < |plan| :: Admitted(ns, plan[i])
    requires forall i, j | 0 <= i < j < |plan| :: RequestKey(ns, plan[i]) != RequestKey(ns, plan[j])
    requires forall key | key in footprint :: key !in objects && CreateCall(key) !in faults && DeleteCall(key) !in faults
    ensures CreateFrom(objects, faults, ns, plan, 0).failure.None?
    ensures DeleteAll(CreateFrom(objects, faults, ns, plan, 0).objects, faults, keys) == objects
  {
    forall i | 0 <= i < |plan|
      ensures RequestKey(ns, plan[i]) in footprint
    {
      assert RequestKey(ns, plan[i]) in AddressedKeys(ns, plan, 0, |plan|);
    }
    ListedKeys(keys);
    CreateThenDeleteRestores(objects, faults, ns, plan, keys);
  }

  /** With no delete refused, none of the topology's objects survives the
      teardown, and every other object is kept. */
  lemma UndeployRemovesPlanKeys(objects: Store, faults: Faults, svc: string, ns: string)
    requires forall key | key in PlanKeys(svc, ns) :: DeleteCall(key) !in faults
    ensures var r := DeleteAll(objects, faults, TeardownKeys(svc, ns));
      && (forall key | key in PlanKeys(svc, ns) :: key !in r)
      && (forall key | key in objects && key !in PlanKeys(svc, ns) :: key in r && r[key] == objects[key])
  {
    TeardownMatchesPlan(svc, ns);
    var keys := TeardownKeys(svc, ns);
    forall key | key in PlanKeys(svc, ns)
      ensures key in keys
    {
      var i :| 0 <= i < |keys| && keys[i] == key;
    }
  }

  // ---------------------------------------------------------------------
  // Pod status

  datatype PodStatusResult = PodStatusResult(nodeId: string, podName: string, phase: string, ready: bool)

  /** The label the statefulset controller puts on each pod: the pod's name. */
  const PodNameLabel: string := "statefulset.kubernetes.io/pod-name"

  /** Some condition says the pod is Ready with status True. */
  predicate HasReadyCondition(conditions: seq<PodCondition>) {
    exists i | 0 <= i < |conditions| :: conditions[i].conditionType == PodReady && conditions[i].status == ConditionTrue
  }

  /** Scans the conditions up to the first Ready=True one. */
  method IsReady(conditions: seq<PodCondition>) returns (ready: bool)
    ensures ready <==> HasReadyCondition(conditions)
  {
    ready := false;
    var i := 0;
    while i < |conditions|
      invariant 0 <= i <= |conditions|
      invariant !ready
      invariant forall j | 0 <= j < i :: !(conditions[j].conditionType == PodReady && conditions[j].status == ConditionTrue)
    {
      if conditions[i].conditionType == PodReady && conditions[i].status == ConditionTrue {
        ready := true;
        break;
      }
      i := i + 1;
    }
  }

  /** The status reported for one pod; a pod without the pod-name label
      reports an empty node id. */
  function StatusOf(pod: Pod): PodStatusResult {
    PodStatusResult(
      if PodNameLabel in pod.meta.labels then pod.meta.labels[PodNameLabel] else "",
      pod.meta.name,
      pod.phase,
      HasReadyCondition(pod.conditions))
  }

  /** `results` reports the listed pods one for one, in the same order. */
  ghost predicate Reports(results: seq<PodStatusResult>, pods: seq<Object>) {
    && |results| == |pods|
    && forall i | 0 <= i < |pods| :: pods[i].PodObj? && results[i] == StatusOf(pods[i].pod)
  }

  /** The status of every pod labelled app=<service name> in the namespace. */
  method GetPodsStatus(cluster: Cluster, topologyId: string, ns: string) returns (r: Result<seq<PodStatusResult>, ApiError>)
    requires cluster.Valid()
    requires ValidTopologyId(topologyId)
    modifies cluster`trace
    ensures var call := ListCall(PodKind, ns, Selector("app", ServiceName(topologyId)));
      && cluster.trace == old(cluster.trace) + [call]
      && (call in cluster.faults ==> r == Err(Rejected(cluster.faults[call])))
      && (call !in cluster.faults ==>
            && r.Ok?
            && exists pods :: Enumerates(pods, cluster.objects, Matching(cluster.objects, PodKind, ns, Selector("app", ServiceName(topologyId))))
                 && Reports(r.value, pods))
  {
    var svc := ServiceName(topologyId);
    var listed := cluster.List(PodKind, ns, Selector("app", svc));
    if listed.Err? {
      return Err(listed.error);
    }
    var pods := listed.value;
    forall i | 0 <= i < |pods|
      ensures pods[i].PodObj?
    {
      assert KeyOf(pods[i]) in Matching(cluster.objects, PodKind, ns, Selector("app", svc));
    }
    var result: seq<PodStatusResult> := [];
    var i := 0;
    while i < |pods|
      invariant 0 <= i <= |pods|
      invariant |result| == i
      invariant forall j | 0 <= j < i :: result[j] == StatusOf(pods[j].pod)
      invariant cluster.trace == old(cluster.trace) + [ListCall(PodKind, ns, Selector("app", svc))]
    {
      var pod := pods[i].pod;
      var ready := IsReady(pod.conditions);
      var nodeId := if PodNameLabel in pod.meta.labels then pod.meta.labels[PodNameLabel] else "";
      result := result + [PodStatusResult(nodeId, pod.meta.name, pod.phase, ready)];
      i := i + 1;
    }
    assert Reports(result, pods);
    return Ok(result);
  }

  /** Each reported pod is a stored pod of the topology in the namespace, and
      each such pod is reported exactly once. */
  lemma ReportsCoverTopologyPods(objects: Store, ns: string, svc: string, pods: seq<Object>, results: seq<PodStatusResult>)
    requires WellFormed(objects)
    requires Enumerates(pods, objects, Matching(objects, PodKind, ns, Selector("app", svc)))
    requires Reports(results, pods)
    ensures forall i | 0 <= i < |results| ::
      ObjKey(PodKind, ns, results[i].podName) in Matching(objects, PodKind, ns, Selector("app", svc))
    ensures forall key | key in Matching(objects, PodKind, ns, Selector("app", svc)) ::
      exists i | 0 <= i < |results| :: results[i].podName == key.name
    ensures forall i, j | 0 <= i < j < |results| :: results[i].podName != results[j].podName
  {
    var matching := Matching(objects, PodKind, ns, Selector("app", svc));
    forall i | 0 <= i < |results|
      ensures KeyOf(pods[i]) == ObjKey(PodKind, ns, results[i].podName) && KeyOf(pods[i]) in matching
    {
      assert KeyOf(pods[i]) in KeysOf(pods);
    }
    forall key | key in matching
      ensures exists i | 0 <= i < |results| :: results[i].podName == key.name
    {
      assert key in KeysOf(pods);
      var i :| 0 <= i < |pods| && KeyOf(pods[i]) == key;
      assert results[i].podName == key.name;
    }
  }
}

=== FILE: topology_service.dfy ===
/** The topology service: choosing the bootstrap node of a topology graph,
    normalising the node and edge records it stores, and the deploy
    lifecycle that keeps a persisted status ("none", "deploying", "running",
    "error") in step with what the cluster holds. The database is a store of
    topology records whose status writes may be refused; the cluster is the
    store of KubeCluster. */
module TopologyService {
  import opened Common
  import opened KubeObjects
  import opened KubeCluster
  import opened TopologyDeploy

  datatype TopologyNode = TopologyNode(nodeId: string, nodeLabel: string, role: string)

  datatype TopologyEdge = TopologyEdge(edgeId: string, sourceNodeId: string, targetNodeId: string)

  /** The rows the store keeps for the nodes and edges of a topology. */
  datatype NodeModel = NodeModel(topologyId: string, nodeId: string, nodeLabel: string, role: string)

  datatype EdgeModel = EdgeModel(topologyId: string, edgeId: string, sourceNodeId: string, targetNodeId: string)

  /** What the store keeps under a topology id. */
  datatype TopologyRecord = TopologyRecord(
    name: string,
    deployStatus: string,
    namespace: Option<string>,
    nodes: seq<NodeModel>,
    edges: seq<EdgeModel>)

  /** A topology as the service reads it back from the store. */
  datatype Topology = Topology(
    topologyId: string,
    name: string,
    deployStatus: string,
    namespace: Option<string>,
    nodes: seq<TopologyNode>,
    edges: seq<TopologyEdge>)

  datatype DeployResult = DeployResult(topologyId: string, status: string, message: string)

  datatype PodStatus = PodStatus(nodeId: string, podName: string, phase: string, ready: bool)

  datatype DeployStatus = DeployStatus(topologyId: string, status: string, message: string, pods: seq<PodStatus>)

  datatype ServiceError =
    | TopologyNotFound(id: string)
    | NoNodes
    | NoBootstrapNode
    | StoreFailed
    | DeployFailed(cause: DeployError)

  const StatusNone: string := "none"
  const StatusDeploying: string := "deploying"
  const StatusRunning: string := "running"
  const StatusError: string := "error"

  const BootstrapRole: string := "bootstrap"
  const WorkerRole: string := "worker"
  const DefaultNamespace: string := "default"

  // ---------------------------------------------------------------------
  // Bootstrap resolution

  function TargetIds(edges: seq<TopologyEdge>): set<string> {
    set i | 0 <= i < |edges| :: edges[i].targetNodeId
  }

  function SourceIds(edges: seq<TopologyEdge>): set<string> {
    set i | 0 <= i < |edges| :: edges[i].sourceNodeId
  }

  /** Some edge ends at the node and none starts from it. */
  predicate IsSink(id: string, edges: seq<TopologyEdge>) {
    id in TargetIds(edges) && id !in SourceIds(edges)
  }

  /** The index of the first node from k on tagged as bootstrap, or |nodes|. */
  function FirstTagged(nodes: seq<TopologyNode>, k: nat): (r: nat)
    requires k <= |nodes|
    ensures k <= r <= |nodes|
    ensures r < |nodes| ==> nodes[r].role == BootstrapRole
    ensures forall j | k <= j < r :: nodes[j].role != BootstrapRole
    decreases |nodes| - k
  {
    if k == |nodes| then k
    else if nodes[k].role == BootstrapRole then k
    else FirstTagged(nodes, k + 1)
  }

  /** The index of the first node from k on that is a sink, or |nodes|. */
  function FirstSink(nodes: seq<TopologyNode>, edges: seq<TopologyEdge>, k: nat): (r: nat)
    requires k <= |nodes|
    ensures k <= r <= |nodes|
    ensures r < |nodes| ==> IsSink(nodes[r].nodeId, edges)
    ensures forall j | k <= j < r :: !IsSink(nodes[j].nodeId, edges)
    decreases |nodes| - k
  {
    if k == |nodes| then k
    else if IsSink(nodes[k].nodeId, edges) then k
    else FirstSink(nodes, edges, k + 1)
  }

  /** The node the others connect to: the first tagged node, else the first
      sink, else the only node, else none (""). */
  function BootstrapNode(nodes: seq<TopologyNode>, edges: seq<TopologyEdge>): string {
    var tagged := FirstTagged(nodes, 0);
    if tagged < |nodes| then nodes[tagged].nodeId
    else
      var sink := FirstSink(nodes, edges, 0);
      if sink < |nodes| then nodes[sink].nodeId
      else if |nodes| == 1 then nodes[0].nodeId
      else ""
  }

  /** The first tagged node wins, whatever the edges say; later tagged nodes
      are not an error. */
  lemma TaggedNodeWins(nodes: seq<TopologyNode>, edges: seq<TopologyEdge>, i: nat)
    requires i < |nodes| && nodes[i].role == BootstrapRole
    requires forall j | 0 <= j < i :: nodes[j].role != BootstrapRole
    ensures BootstrapNode(nodes, edges) == nodes[i].nodeId
  {
  }

  /** With no tagged node, the first sink in node order is chosen. */
  lemma FirstSinkWins(nodes: seq<TopologyNode>, edges: seq<TopologyEdge>, i: nat)
    requires forall j | 0 <= j < |nodes| :: nodes[j].role != BootstrapRole
    requires i < |nodes| && IsSink(nodes[i].nodeId, edges)
    requires forall j | 0 <= j < i :: !IsSink(nodes[j].nodeId, edges)
    ensures BootstrapNode(nodes, edges) == nodes[i].nodeId
  {
  }

  /** With neither a tagged node nor a sink, only a single node is chosen;
      otherwise there is no bootstrap node. */
  lemma FallbackRule(nodes: seq<TopologyNode>, edges: seq<TopologyEdge>)
    requires forall j | 0 <= j < |nodes| :: nodes[j].role != BootstrapRole && !IsSink(nodes[j].nodeId, edges)
    ensures |nodes| == 1 ==> BootstrapNode(nodes, edges) == nodes[0].nodeId
    ensures |nodes| != 1 ==> BootstrapNode(nodes, edges) == ""
  {
  }

  /** A topology of one node bootstraps from that node. */
  lemma SingleNodeBootstraps(node: TopologyNode, edges: seq<TopologyEdge>)
    ensures BootstrapNode([node], edges) == node.nodeId
  {
    var tagged := FirstTagged([node], 0);
    var sink := FirstSink([node], edges, 0);
    assert tagged < 1 ==> tagged == 0;
    assert sink < 1 ==> sink == 0;
  }

  /** A chosen bootstrap node is always one of the nodes: an id that only
      appears in edges is never chosen. */
  lemma BootstrapIsANode(nodes: seq<TopologyNode>, edges: seq<TopologyEdge>)
    ensures var b := BootstrapNode(nodes, edges);
      b != "" ==> exists i | 0 <= i < |nodes| :: nodes[i].nodeId == b
  {
    var tagged := FirstTagged(nodes, 0);
    var sink := FirstSink(nodes, edges, 0);
    if tagged < |nodes| {
      assert nodes[tagged].nodeId == BootstrapNode(nodes, edges);
    } else if sink < |nodes| {
      assert nodes[sink].nodeId == BootstrapNode(nodes, edges);
    }
  }

  /** Collects the ids edges point to and the ids they start from, then scans
      the nodes in the priority order of BootstrapNode. */
  method ResolveBootstrapNode(t: Topology) returns (id: string)
    ensures id == BootstrapNode(t.nodes, t.edges)
  {
    var targets: set<string> := {};
    var i := 0;
    while i < |t.edges|
      invariant 0 <= i <= |t.edges|
      invariant targets == set j | 0 <= j < i :: t.edges[j].targetNodeId
    {
      targets := targets + {t.edges[i].targetNodeId};
      i := i + 1;
    }
    var sources: set<string> := {};
    i := 0;
    while i < |t.edges|
      invariant 0 <= i <= |t.edges|
      invariant sources == set j | 0 <= j < i :: t.edges[j].sourceNodeId
    {
      sources := sources + {t.edges[i].sourceNodeId};
      i := i + 1;
    }
    assert targets == TargetIds(t.edges) && sources == SourceIds(t.edges);
    i := 0;
    while i < |t.nodes|
      invariant 0 <= i <= |t.nodes|
      invariant FirstTagged(t.nodes, 0) == FirstTagged(t.nodes, i)
    {
      if t.nodes[i].role == BootstrapRole {
        return t.nodes[i].nodeId;
      }
      i := i + 1;
    }
    i := 0;
    while i < |t.nodes|
      invariant 0 <= i <= |t.nodes|
      invariant FirstSink(t.nodes, t.edges, 0) == FirstSink(t.nodes, t.edges, i)
    {
      if t.nodes[i].nodeId in targets && t.nodes[i].nodeId !in sources {
        return t.nodes[i].nodeId;
      }
      i := i + 1;
    }
    if |t.nodes| == 1 {
      return t.nodes[0].nodeId;
    }
    return "";
  }

  // ---------------------------------------------------------------------
  // Normalising node and edge records

  /** The stored rows for the nodes of a topology: each row is stamped with
      the topology id, an empty node id takes the matching fresh id and an
      empty role becomes "worker". */
  function NodeModels(topologyId: string, nodes: seq<TopologyNode>, freshIds: seq<string>): (r: seq<NodeModel>)
    requires |freshIds| == |nodes|
    ensures |r| == |nodes|
  {
    seq(|nodes|, i requires 0 <= i < |nodes| =>
      NodeModel(
        topologyId,
        if nodes[i].nodeId == "" then freshIds[i] else nodes[i].nodeId,
        nodes[i].nodeLabel,
        if nodes[i].role == "" then WorkerRole else nodes[i].role))
  }

  /** The stored rows for the edges of a topology. */
  function EdgeModels(topologyId: string, edges: seq<TopologyEdge>, freshIds: seq<string>): (r: seq<EdgeModel>)
    requires |freshIds| == |edges|
    ensures |r| == |edges|
  {
    seq(|edges|, i requires 0 <= i < |edges| =>
      EdgeModel(
        topologyId,
        if edges[i].edgeId == "" then freshIds[i] else edges[i].edgeId,
        edges[i].sourceNodeId,
        edges[i].targetNodeId))
  }

  /** The nodes read back from their rows. */
  function NodesOf(models: seq<NodeModel>): (r: seq<TopologyNode>)
    ensures |r| == |models|
  {
    seq(|models|, i requires 0 <= i < |models| => TopologyNode(models[i].nodeId, models[i].nodeLabel, models[i].role))
  }

  /** The edges read back from their rows. */
  function EdgesOf(models: seq<EdgeModel>): (r: seq<TopologyEdge>)
    ensures |r| == |models|
  {
    seq(|models|, i requires 0 <= i < |models| =>
      TopologyEdge(models[i].edgeId, models[i].sourceNodeId, models[i].targetNodeId))
  }

  /** Appends one row per node, in order. */
  method ModelsFromNodes(topologyId: string, nodes: seq<TopologyNode>, freshIds: seq<string>) returns (out: seq<NodeModel>)
    requires |freshIds| == |nodes|
    ensures out == NodeModels(topologyId, nodes, freshIds)
  {
    out := [];
    var i := 0;
    while i < |nodes|
      invariant 0 <= i <= |nodes|
      invariant out == NodeModels(topologyId, nodes[..i], freshIds[..i])
    {
      var nodeId := nodes[i].nodeId;
      if nodeId == "" {
        nodeId := freshIds[i];
      }
      var role := nodes[i].role;
      if role == "" {
        role := WorkerRole;
      }
      out := out + [NodeModel(topologyId, nodeId, nodes[i].nodeLabel, role)];
      i := i + 1;
    }
    assert nodes[..i] == nodes && freshIds[..i] == freshIds;
  }

  /** Appends one row per edge, in order. */
  method ModelsFromEdges(topologyId: string, edges: seq<TopologyEdge>, freshIds: seq<string>) returns (out: seq<EdgeModel>)
    requires |freshIds| == |edges|
    ensures out == EdgeModels(topologyId, edges, freshIds)
  {
    out := [];
    var i := 0;
    while i < |edges|
      invariant 0 <= i <= |edges|
      invariant out == EdgeModels(topologyId, edges[..i], freshIds[..i])
    {
      var edgeId := edges[i].edgeId;
      if edgeId == "" {
        edgeId := freshIds[i];
      }
      out := out + [EdgeModel(topologyId, edgeId, edges[i].sourceNodeId, edges[i].targetNodeId)];
      i := i + 1;
    }
    assert edges[..i] == edges && freshIds[..i] == freshIds;
  }

  /** Every node row is stamped with the topology id; reading the rows back
      gives the nodes with their ids filled in from the fresh ids and their
      roles defaulted; nothing else changes. */
  lemma NodeModelsRoundTrip(topologyId: string, nodes: seq<TopologyNode>, freshIds: seq<string>)
    requires |freshIds| == |nodes|
    ensures var models := NodeModels(topologyId, nodes, freshIds);
      var back := NodesOf(models);
      && |back| == |nodes|
      && (forall i | 0 <= i < |nodes| :: models[i].topologyId == topologyId)
      && (forall i | 0 <= i < |nodes| && nodes[i].nodeId != "" :: back[i].nodeId == nodes[i].nodeId)
      && (forall i | 0 <= i < |nodes| && nodes[i].nodeId == "" :: back[i].nodeId == freshIds[i])
      && (forall i | 0 <= i < |nodes| && nodes[i].role != "" :: back[i].role == nodes[i].role)
      && (forall i | 0 <= i < |nodes| && nodes[i].role == "" :: back[i].role == WorkerRole)
      && (forall i | 0 <= i < |nodes| :: back[i].nodeLabel == nodes[i].nodeLabel)
  {
  }

  /** Normalising the rows again, with any fresh ids, changes nothing once
      the first fresh ids were not empty. */
  lemma {:induction false} NodeModelsStable(topologyId: string, nodes: seq<TopologyNode>, freshIds: seq<string>, moreIds: seq<string>)
    requires |freshIds| == |nodes| && |moreIds| == |nodes|
    requires forall i | 0 <= i < |freshIds| :: freshIds[i] != ""
    ensures var models := NodeModels(topologyId, nodes, freshIds);
      NodeModels(topologyId, NodesOf(models), moreIds) == models
  {
    var models := NodeModels(topologyId, nodes, freshIds);
    var again := NodeModels(topologyId, NodesOf(models), moreIds);
    forall i | 0 <= i < |nodes|
      ensures again[i] == models[i]
    {
      assert models[i].nodeId != "";
      assert models[i].role != "" by {
        assert WorkerRole != "";
      }
    }
  }

  /** Every edge row is stamped with the topology id, keeps its endpoints,
      keeps a non-empty edge id and takes the fresh id for an empty one. */
  lemma EdgeModelsRoundTrip(topologyId: string, edges: seq<TopologyEdge>, freshIds: seq<string>)
    requires |freshIds| == |edges|
    ensures var models := EdgeModels(topologyId, edges, freshIds);
      var back := EdgesOf(models);
      && (forall i | 0 <= i < |edges| :: models[i].topologyId == topologyId)
      && (forall i | 0 <= i < |edges| ::
            back[i].sourceNodeId == edges[i].sourceNodeId && back[i].targetNodeId == edges[i].targetNodeId)
      && (forall i | 0 <= i < |edges| && edges[i].edgeId != "" :: back[i] == edges[i])
      && (forall i | 0 <= i < |edges| && edges[i].edgeId == "" :: back[i].edgeId == freshIds[i])
  {
  }

  // ---------------------------------------------------------------------
  // The topology store

  /** A write of a deploy status and namespace for one topology. */
  datatype StatusWrite = StatusWrite(id: string, status: string, namespace: Option<string>)

  /** The records after a status write: the write changes the status and the
      namespace of the topology, unless the store refuses it. */
  function AfterWrite(records: map<string, TopologyRecord>, failing: set<StatusWrite>, w: StatusWrite): map<string, TopologyRecord> {
    if w in failing || w.id !in records then records
    else records[w.id := records[w.id].(deployStatus := w.status, namespace := w.namespace)]
  }

  /** The topology read back from its record. */
  function TopologyOf(id: string, rec: TopologyRecord): Topology {
    Topology(id, rec.name, rec.deployStatus, rec.namespace, NodesOf(rec.nodes), EdgesOf(rec.edges))
  }

  /** The deployment configuration for a stored topology. */
  function ConfigOf(t: Topology, namespace: string, bootstrapId: string): DeployConfig {
    DeployConfig(
      t.topologyId, t.name, namespace,
      seq(|t.nodes|, i requires 0 <= i < |t.nodes| => NodeInfo(t.nodes[i].nodeId, t.nodes[i].nodeLabel, t.nodes[i].role)),
      seq(|t.edges|, i requires 0 <= i < |t.edges| => EdgeInfo(t.edges[i].sourceNodeId, t.edges[i].targetNodeId)),
      bootstrapId)
  }

  /** The namespace a deployed topology lives in. */
  function NamespaceOf(t: Topology): (ns: string)
    ensures t.namespace.Some? ==> ns == t.namespace.value
    ensures t.namespace.None? ==> ns == DefaultNamespace
  {
    t.namespace.GetOr(DefaultNamespace)
  }

  class TopologyStore {
    var records: map<string, TopologyRecord>
    /** The status writes the store refuses. */
    var failing: set<StatusWrite>
    ghost var writes: seq<StatusWrite>

    /** Every stored id is a UUID, long enough for the service name. */
    ghost predicate Valid()
      reads this
    {
      forall id | id in records :: ValidTopologyId(id)
    }

    constructor (records: map<string, TopologyRecord>, failing: set<StatusWrite>)
      requires forall id | id in records :: ValidTopologyId(id)
      ensures Valid()
      ensures this.records == records && this.failing == failing && writes == []
    {
      this.records := records;
      this.failing := failing;
      writes := [];
    }

    method WriteStatus(id: string, status: string, namespace: Option<string>) returns (ok: bool)
      requires Valid()
      modifies this`records, this`writes
      ensures Valid()
      ensures ok <==> StatusWrite(id, status, namespace) !in failing
      ensures records == AfterWrite(old(records), failing, StatusWrite(id, status, namespace))
      ensures writes == old(writes) + [StatusWrite(id, status, namespace)]
    {
      var w := StatusWrite(id, status, namespace);
      ok := w !in failing;
      records := AfterWrite(records, failing, w);
      writes := writes + [w];
    }

    /** Stores a new topology under a fresh id with status "none"; the insert
        fails when the id is already taken. */
    method CreateTopology(id: string, name: string, nodes: seq<TopologyNode>, edges: seq<TopologyEdge>, nodeIds: seq<string>, edgeIds: seq<string>)
      returns (r: Result<Topology, ServiceError>)
      requires Valid()
      requires ValidTopologyId(id)
      requires |nodeIds| == |nodes| && |edgeIds| == |edges|
      modifies this`records
      ensures Valid()
      ensures id in old(records) ==> r == Err(StoreFailed) && records == old(records)
      ensures id !in old(records) ==>
        var rec := TopologyRecord(name, StatusNone, None, NodeModels(id, nodes, nodeIds), EdgeModels(id, edges, edgeIds));
        records == old(records)[id := rec] && r == Ok(TopologyOf(id, rec))
    {
      if id in records {
        return Err(StoreFailed);
      }
      var nodeModels := ModelsFromNodes(id, nodes, nodeIds);
      var edgeModels := ModelsFromEdges(id, edges, edgeIds);
      var rec := TopologyRecord(name, StatusNone, None, nodeModels, edgeModels);
      records := records[id := rec];
      return Ok(TopologyOf(id, rec));
    }
  }

  /** Deploys a stored topology. A missing topology, one without nodes and
      one without a bootstrap node are refused before anything is written;
      then the status goes to "deploying", the cluster objects are created and
      the status goes to "running", or to "error" when the creation failed. */
  method DeployTopology(store: TopologyStore, cluster: Cluster, id: string, namespace: string, keyPair: Option<KeyPair>, clusterSecret: Option<string>)
    returns (r: Result<DeployResult, ServiceError>)
    requires store.Valid() && cluster.Valid()
    modifies store`records, store`writes, cluster`objects, cluster`trace
    ensures store.Valid() && cluster.Valid()
    ensures id !in old(store.records) ==>
      r == Err(TopologyNotFound(id))
      && store.records == old(store.records) && store.writes == old(store.writes)
      && cluster.objects == old(cluster.objects) && cluster.trace == old(cluster.trace)
    ensures id in old(store.records) ==>
      var t := TopologyOf(id, old(store.records)[id]);
      var bootstrap := BootstrapNode(t.nodes, t.edges);
      var deploying := StatusWrite(id, StatusDeploying, Some(namespace));
      && (|t.nodes| == 0 || bootstrap == "" ==>
            && r == Err(if |t.nodes| == 0 then NoNodes else NoBootstrapNode)
            && store.records == old(store.records) && store.writes == old(store.writes)
            && cluster.objects == old(cluster.objects) && cluster.trace == old(cluster.trace))
      && (|t.nodes| > 0 && bootstrap != "" && deploying in store.failing ==>
            && r == Err(StoreFailed)
            && store.records == old(store.records) && store.writes == old(store.writes) + [deploying]
            && cluster.objects == old(cluster.objects) && cluster.trace == old(cluster.trace))
      && (|t.nodes| > 0 && bootstrap != "" && deploying !in store.failing ==>
            var run := DeployOutcome(old(cluster.objects), cluster.faults, ConfigOf(t, namespace, bootstrap), keyPair, clusterSecret);
            var final := StatusWrite(id, if run.error.None? then StatusRunning else StatusError, Some(namespace));
            && r == (if run.error.None? then Ok(DeployResult(id, StatusDeploying, "Deployment started")) else Err(DeployFailed(run.error.value)))
            && cluster.objects == run.objects && cluster.trace == old(cluster.trace) + run.calls
            && store.writes == old(store.writes) + [deploying, final]
            && store.records == AfterWrite(AfterWrite(old(store.records), store.failing, deploying), store.failing, final))
  {
    if id !in store.records {
      return Err(TopologyNotFound(id));
    }
    var t := TopologyOf(id, store.records[id]);
    if |t.nodes| == 0 {
      return Err(NoNodes);
    }
    var bootstrap := ResolveBootstrapNode(t);
    if bootstrap == "" {
      return Err(NoBootstrapNode);
    }
    var ok := store.WriteStatus(id, StatusDeploying, Some(namespace));
    if !ok {
      return Err(StoreFailed);
    }
    var cfg := BuildConfig(t, namespace, bootstrap);
    ghost var run := DeployOutcome(cluster.objects, cluster.faults, cfg, keyPair, clusterSecret);
    r := DeployAndRecord(store, cluster, id, cfg, keyPair, clusterSecret, run);
  }

  /** The tail of DeployTopology once the "deploying" status is stored: the
      cluster objects are created and the status goes to "running", or to
      "error" when the creation failed. */
  method DeployAndRecord(store: TopologyStore, cluster: Cluster, id: string, cfg: DeployConfig, keyPair: Option<KeyPair>, clusterSecret: Option<string>,
                         ghost run: DeployRun)
    returns (r: Result<DeployResult, ServiceError>)
    requires store.Valid() && cluster.Valid()
    requires ValidTopologyId(cfg.topologyId)
    requires run == DeployOutcome(cluster.objects, cluster.faults, cfg, keyPair, clusterSecret)
    modifies store`records, store`writes, cluster`objects, cluster`trace
    ensures store.Valid() && cluster.Valid()
    ensures var final := StatusWrite(id, if run.error.None? then StatusRunning else StatusError, Some(cfg.namespace));
      && r == (if run.error.None? then Ok(DeployResult(id, StatusDeploying, "Deployment started")) else Err(DeployFailed(run.error.value)))
      && cluster.objects == run.objects && cluster.trace == old(cluster.trace) + run.calls
      && store.writes == old(store.writes) + [final]
      && store.records == AfterWrite(old(store.records), store.failing, final)
  {
    var err := Deploy(cluster, cfg, keyPair, clusterSecret);
    if err.Some? {
      var _ := store.WriteStatus(id, StatusError, Some(cfg.namespace));
      return Err(DeployFailed(err.value));
    }
    var _ := store.WriteStatus(id, StatusRunning, Some(cfg.namespace));
    return Ok(DeployResult(id, StatusDeploying, "Deployment started"));
  }

  /** Copies the nodes and edges of a topology into a deployment
      configuration, one entry each, in order. */
  method BuildConfig(t: Topology, namespace: string, bootstrapId: string) returns (cfg: DeployConfig)
    ensures cfg == ConfigOf(t, namespace, bootstrapId)
  {
    var nodes: seq<NodeInfo> := [];
    var i := 0;
    while i < |t.nodes|
      invariant 0 <= i <= |t.nodes|
      invariant |nodes| == i
      invariant forall j | 0 <= j < i :: nodes[j] == NodeInfo(t.nodes[j].nodeId, t.nodes[j].nodeLabel, t.nodes[j].role)
    {
      nodes := nodes + [NodeInfo(t.nodes[i].nodeId, t.nodes[i].nodeLabel, t.nodes[i].role)];
      i := i + 1;
    }
    var edges: seq<EdgeInfo> := [];
    i := 0;
    while i < |t.edges|
      invariant 0 <= i <= |t.edges|
      invariant |edges| == i
      invariant forall j | 0 <= j < i :: edges[j] == EdgeInfo(t.edges[j].sourceNodeId, t.edges[j].targetNodeId)
    {
      edges := edges + [EdgeInfo(t.edges[i].sourceNodeId, t.edges[i].targetNodeId)];
      i := i + 1;
    }
    cfg := DeployConfig(t.topologyId, t.name, namespace, nodes, edges, bootstrapId);
  }

  /** Tears down a stored topology in its namespace ("default" when none is
      stored), then resets its status to "none" with no namespace. */
  method UndeployTopology(store: TopologyStore, cluster: Cluster, id: string) returns (r: Option<ServiceError>)
    requires store.Valid() && cluster.Valid()
    modifies store`records, store`writes, cluster`objects, cluster`trace
    ensures store.Valid() && cluster.Valid()
    ensures id !in old(store.records) ==>
      r == Some(TopologyNotFound(id))
      && store.records == old(store.records) && store.writes == old(store.writes)
      && cluster.objects == old(cluster.objects) && cluster.trace == old(cluster.trace)
    ensures id in old(store.records) ==>
      var keys := TeardownKeys(ServiceName(id), NamespaceOf(TopologyOf(id, old(store.records)[id])));
      var reset := StatusWrite(id, StatusNone, None);
      && cluster.objects == DeleteAll(old(cluster.objects), cluster.faults, keys)
      && cluster.trace == old(cluster.trace) + DeleteCalls(keys)
      && store.writes == old(store.writes) + [reset]
      && store.records == AfterWrite(old(store.records), store.failing, reset)
      && (r.None? <==> reset !in store.failing)
      && (r.Some? ==> r.value == StoreFailed)
  {
    if id !in store.records {
      return Some(TopologyNotFound(id));
    }
    var t := TopologyOf(id, store.records[id]);
    var ns := NamespaceOf(t);
    // Undeploy never reports an error, so its result needs no check.
    var _ := Undeploy(cluster, id, ns);
    var ok := store.WriteStatus(id, StatusNone, None);
    if !ok {
      return Some(StoreFailed);
    }
    return None;
  }

  /** The persisted status of a topology with the status of its pods. When
      the pods cannot be listed the call still succeeds, carrying the
      listing's error text as its message and no pods. */
  method GetDeployStatus(store: TopologyStore, cluster: Cluster, id: string) returns (r: Result<DeployStatus, ServiceError>)
    requires store.Valid() && cluster.Valid()
    modifies cluster`trace
    ensures id !in store.records ==> r == Err(TopologyNotFound(id)) && cluster.trace == old(cluster.trace)
    ensures id in store.records ==>
      var t := TopologyOf(id, store.records[id]);
      var call := ListCall(PodKind, NamespaceOf(t), Selector("app", ServiceName(id)));
      && cluster.trace == old(cluster.trace) + [call]
      && (call in cluster.faults ==>
            r == Ok(DeployStatus(id, t.deployStatus, ErrorText(Rejected(cluster.faults[call])), [])))
      && (call !in cluster.faults ==>
            && r.Ok? && r.value.topologyId == id && r.value.status == t.deployStatus && r.value.message == ""
            && exists pods, raw ::
                 && Enumerates(pods, cluster.objects, Matching(cluster.objects, PodKind, NamespaceOf(t), Selector("app", ServiceName(id))))
                 && Reports(raw, pods)
                 && Mirrors(r.value.pods, raw))
  {
    if id !in store.records {
      return Err(TopologyNotFound(id));
    }
    var t := TopologyOf(id, store.records[id]);
    var ns := NamespaceOf(t);
    var rawPods := GetPodsStatus(cluster, id, ns);
    if rawPods.Err? {
      return Ok(DeployStatus(id, t.deployStatus, ErrorText(rawPods.error), []));
    }
    var pods := CopyPods(rawPods.value);
    return Ok(DeployStatus(id, t.deployStatus, "", pods));
  }

  /** `pods` carries the raw pod reports one for one, field for field. */
  predicate Mirrors(pods: seq<PodStatus>, raw: seq<PodStatusResult>) {
    && |pods| == |raw|
    && forall i | 0 <= i < |raw| ::
         pods[i] == PodStatus(raw[i].nodeId, raw[i].podName, raw[i].phase, raw[i].ready)
  }

  method CopyPods(raw: seq<PodStatusResult>) returns (pods: seq<PodStatus>)
    ensures Mirrors(pods, raw)
  {
    pods := [];
    var i := 0;
    while i < |raw|
      invariant 0 <= i <= |raw|
      invariant Mirrors(pods, raw[..i])
    {
      pods := pods + [PodStatus(raw[i].nodeId, raw[i].podName, raw[i].phase, raw[i].ready)];
      i := i + 1;
    }
    assert raw[..i] == raw;
  }
}
